=== FILE: README.md ===
# Reddit ingestion, sentiment and report pipeline — a Dafny model

The system has four parts:

- **SearchFunction** is an Azure Function. It reads a subreddit listing from Reddit and upserts each post into a Cosmos DB container partitioned by subreddit, under the composite id `{subreddit}_{rawId}`.
- **GetPostsFunction** reads posts back by composite id. It recovers each partition key from the text before the first underscore.
- **GenerateReport** reads posts through GetPostsFunction and uploads them as a CSV blob, through a container SAS URL.
- **The Flask web front end** (`web-app/app.py`) does several jobs:
  - runs a search and keeps the composite ids;
  - classifies the posts' sentiment in batches of sixteen (the `detail_all` view) and writes label and confidence back to Cosmos;
  - uploads a report;
  - lists the container newest first and deletes blobs.

This project models those four parts as pure Dafny functions over immutable data:

- JSON values are `Json.Value`, and Python truthiness is `Json.Truthy`.
- Each Cosmos container is a map from `(partition, id)` to a document.
- Every remote service is a function parameter: the Reddit API, the two Azure Functions as seen over HTTP, blob upload/list/delete, and the sentiment classifier.
- An exception the source does not catch becomes an `Err` (or `Http.Unhandled` at a function's entry point). A caught exception follows the source's `except` branch.

Modules follow the program's structure:

| Module | Contents |
|---|---|
| `Ids` | Composite ids and partition keys. |
| `Text`, `Json`, `Results`, `Loops` | Python string operations, JSON values, results and generic loop folds. |
| `Posts`, `Cosmos`, `Http` | Post records, the document store and responses. |
| `Ingest` | SearchFunction. |
| `GetPosts` | GetPostsFunction. |
| `Report` | GenerateReport. |
| `Frontend` | The web app's remote calls, search form and id loop. |
| `Sentiment` | The `detail_all` pass. |
| `WriteBack` | The Cosmos update loop. |
| `Blobs` | SAS split, blob URLs and the stamp extraction. |
| `Ordering` | The listing sort. |
| `Files` | The report, listing and deletion views. |

The sentiment pass is modelled twice:

- as the loops the view runs (`Sentiment.SplitPosts`, `Sentiment.ScoreTexts`, `Sentiment.DetailAll`);
- as a declarative reference (`Sentiment.Analyse`). It builds the split of the posts and each text's result, taken position by position from the batch that holds it (`Sentiment.VerdictAt`).

The methods are proved equal to the reference, including when the classifier returns more or fewer results than texts.

One property is worth noting. Ingestion stores a post under partition `subreddit` with id `subreddit_rawId`. Readers and writers recover the partition as the text before the first underscore. So the round trip holds exactly when the subreddit has no underscore (`Ids.ComposeIdRoundTrip`). A subreddit such as `learn_python` is looked up under `learn` (`Ids.UnderscoredSubredditMisrouted`).

## Model

| member | source | states |
|---|---|---|
| Ids.ComposeId | redditIngestFunc/SearchFunction/__init__.py:161 | The stored id is the subreddit, one underscore, then the raw id, so it always holds an underscore. |
| Ids.FullId | web-app/app.py:154-157 | A raw id with an underscore is kept verbatim; any other id becomes `subreddit_rawId`. The result always holds an underscore. |
| Ids.FullIdIdempotent | web-app/app.py:153-157 | Deriving a full id from a full id adds no second prefix. |
| Ids.PartitionKey | redditIngestFunc/GetPostsFunction/__init__.py:72-75 | There is no key exactly when the id lacks an underscore. Otherwise the key is the underscore-free prefix of the id that ends right before its first underscore. |
| Ids.WriteBackKey | web-app/app.py:293-295 | The write-back key exists exactly when the id has an underscore, and is the stripped partition key. |
| Ids.ComposeIdRoundTrip | redditIngestFunc/GetPostsFunction/__init__.py:71-77 | Splitting a stored id at its first underscore gives back the subreddit and raw id, and routes the read to the subreddit's partition, if and only if the subreddit has no underscore. |
| Ids.UnderscoredSubredditMisrouted | redditIngestFunc/GetPostsFunction/__init__.py:75-77 | For a subreddit `head_tail`, the key read back is `head` and not the subreddit the document was stored under. |
| Ids.FullIdRoutesToSubreddit | web-app/app.py:292-297 | A front-end id built from plain parts is read and written under the searched subreddit's partition. |
| Text.Strip | web-app/app.py:124-126 | The result is the maximal whitespace-free-ended middle slice: everything removed is whitespace, and the result is empty exactly when the input is all whitespace. |
| Text.StripOfStripped | web-app/app.py:124-126 | Stripping a string without surrounding whitespace changes nothing. |
| Text.SplitOnce | redditIngestFunc/GetPostsFunction/__init__.py:75 | There is no split exactly when the separator is absent. Otherwise the two parts glue back to the input, and the first part has no separator. |
| Text.SplitOnceOfGlued | redditIngestFunc/GetPostsFunction/__init__.py:75 | Splitting `a + c + b` at `c` returns `(a, b)` when `a` has no `c`. |
| Text.Split | redditIngestFunc/GetPostsFunction/__init__.py:37 | There is at least one piece; no piece contains the separator, and the pieces join back to the input. |
| Text.SplitOfJoin | web-app/app.py:94 | Splitting a comma-joined list recovers the list when no element contains a comma. |
| Text.ParseIntOfDecimal | redditIngestFunc/SearchFunction/__init__.py:69 | `int(str(n)) == n` for every integer. |
| Posts.Sanitize | redditIngestFunc/GetPostsFunction/__init__.py:79-86 | The copy has exactly the five post fields, each with the record's value, or null when the record lacks it. |
| Posts.SanitizeOfPost | redditIngestFunc/SearchFunction/__init__.py:99-107 | Sanitising a five-field post is the identity. |
| Json.Contains | web-app/app.py:293 | Python's `in` with a one-character left operand: a substring test on a string, an element test on a list, a key test on a dict, and `TypeError` for any other value (if and only if). |
| Ingest.Credentials | redditIngestFunc/SearchFunction/__init__.py:40-43 | One value per credential name, in the reporting order. |
| Ingest.MissingFrom | redditIngestFunc/SearchFunction/__init__.py:79-82 | A name is reported if and only if its value is empty. |
| Ingest.MissingInOrder | redditIngestFunc/SearchFunction/__init__.py:79-82 | Reported names come in strictly increasing reporting order. |
| Ingest.Missing | redditIngestFunc/SearchFunction/__init__.py:78-83 | Exactly the unset credentials are listed, once each, in the order CLIENT_ID, CLIENT_SECRET, REDDIT_USER, REDDIT_PASSWORD. |
| Ingest.ParseQuery | redditIngestFunc/SearchFunction/__init__.py:61-76 | A missing or empty subreddit is refused (if and only if), and so is a limit that is not an integer. A request with a subreddit and an integer or absent limit is accepted, with the limit defaulting to 10 and the sort to `hot`. An accepted limit is the parsed parameter. |
| Ingest.DefaultLimit | redditIngestFunc/SearchFunction/__init__.py:69 | The default limit text parses to 10. |
| Ingest.TextOrEmpty | redditIngestFunc/SearchFunction/__init__.py:157-158 | A truthy value is kept; a missing, null or empty one becomes `""`. |
| Ingest.ItemOf | redditIngestFunc/SearchFunction/__init__.py:151-166 | An entry is skipped exactly when its `data.id` is falsy, and a child or `data` that is not an object raises. A stored document has id `subreddit_rid`, the requested subreddit, title and selftext that are the field or `""` when it is falsy, and the url as given (default `""`). |
| Ingest.ItemOfStringId | redditIngestFunc/SearchFunction/__init__.py:153-166 | An entry with a string id is stored under `subreddit_rid`. That id routes back to the subreddit if and only if the subreddit has no underscore. |
| Ingest.StoreChildren | redditIngestFunc/SearchFunction/__init__.py:150-172 | There is at most one upsert per listing entry. |
| Ingest.StoredItemsWellFormed | redditIngestFunc/SearchFunction/__init__.py:157-170 | Every upserted document is a sanitised five-field post of the requested subreddit. |
| Ingest.StoreChildrenAppend | redditIngestFunc/SearchFunction/__init__.py:150-172 | Entries are upserted one each, in listing order. A failure ends the loop. |
| Ingest.StoreChildrenSingle | redditIngestFunc/SearchFunction/__init__.py:150-170 | One entry: a raising entry stops the loop with its error, an entry without id is skipped, otherwise its document is upserted, or the loop stops when the upsert fails. |
| Ingest.StoreChildrenStops | redditIngestFunc/SearchFunction/__init__.py:150-170 | Once an entry fails, the entries after it are never reached. |
| Ingest.SkipWithoutId | redditIngestFunc/SearchFunction/__init__.py:152-155 | An entry without a truthy id is skipped with no upsert. |
| Ingest.Children | redditIngestFunc/SearchFunction/__init__.py:139-141 | A response without `data` has no entries. With object response and `data`, a `children` list gives exactly its entries, and a non-list `children` is refused with the unexpected-response error. A successful read implies the response was an object. |
| Ingest.FetchAndStore | redditIngestFunc/SearchFunction/__init__.py:113-172 | A failed token call stores nothing and reports its error. When the listing is read and the container is ready, the run is exactly the loop over the listing's entries; otherwise nothing is stored and an error is reported. |
| Ingest.Listed | redditIngestFunc/SearchFunction/__init__.py:113-141 | A failed token call reports its error. A token body whose `access_token` is falsy is refused with the missing-token error. A truthy token is sent with the subreddit, sort and limit to the listing call, whose error is reported or whose answer gives the entries. |
| Ingest.FetchAndStoreWellFormed | redditIngestFunc/SearchFunction/__init__.py:113-172 | Every document a run stores is a sanitised five-field post of the requested subreddit. |
| Ingest.Main | redditIngestFunc/SearchFunction/__init__.py:57-110 | Bad parameters give 400 with the validation message. Missing credentials give 500 listing them. Otherwise a clean run answers 200 with exactly the stored posts, in order, as `{"posts": [...]}`, and a failed run answers 500 with its error. |
| Ingest.Sanitized | redditIngestFunc/SearchFunction/__init__.py:99-107 | One sanitised record per stored post, in the same order. |
| GetPosts.CleanPieces | redditIngestFunc/GetPostsFunction/__init__.py:37 | The kept pieces are non-empty and already stripped, and there are no more of them than pieces. |
| GetPosts.CleanPiecesSingle | redditIngestFunc/GetPostsFunction/__init__.py:37 | A piece is kept stripped, or dropped when it is blank. |
| GetPosts.CleanPiecesAppend | redditIngestFunc/GetPostsFunction/__init__.py:37 | Pieces are cleaned independently and kept in order. |
| GetPosts.ParseIdsParam | redditIngestFunc/GetPostsFunction/__init__.py:34-37 | Every parsed id is non-empty, stripped and comma-free. |
| GetPosts.CleanPiecesOfClean | redditIngestFunc/GetPostsFunction/__init__.py:37 | Clean pieces pass through unchanged. |
| GetPosts.IdsParamRoundTrip | redditIngestFunc/GetPostsFunction/__init__.py:34-37 | Parsing the comma-join of clean ids returns exactly those ids. |
| GetPosts.RequestedIds | redditIngestFunc/GetPostsFunction/__init__.py:32-44 | A non-empty `ids` parameter decides the ids as its parsed pieces. Otherwise a body object whose `ids` is a list gives that list as it is, and anything else gives no ids. |
| GetPosts.BodyIgnoredWithParam | redditIngestFunc/GetPostsFunction/__init__.py:34-44 | With a non-empty `ids` parameter, the body does not matter. |
| GetPosts.ReadStep | redditIngestFunc/GetPostsFunction/__init__.py:70-92 | An id without an underscore yields nothing. A composite id yields its sanitised document from the partition before its first underscore, or nothing when the read fails. |
| GetPosts.ReadAll | redditIngestFunc/GetPostsFunction/__init__.py:69-92 | There are no more results than ids. |
| GetPosts.ReadAllAppend | redditIngestFunc/GetPostsFunction/__init__.py:69-92 | Results keep id order, and each id contributes independently, so a failed read drops only its own id. |
| GetPosts.ReadAllFields | redditIngestFunc/GetPostsFunction/__init__.py:79-86 | Every returned post has exactly the keys id, subreddit, title, selftext, url. |
| GetPosts.ReadAllSingle | redditIngestFunc/GetPostsFunction/__init__.py:70-92 | The loop over one id is that id's step. |
| GetPosts.Main | redditIngestFunc/GetPostsFunction/__init__.py:28-99 | No ids gives 400. An unconfigured store gives 500. Otherwise a read loop that completes answers 200 with exactly `{"posts": [...]}` of its results, and a loop that raises is unhandled. A 200 happens exactly in the completing case. |
| GetPosts.NoIdsNoRead | redditIngestFunc/GetPostsFunction/__init__.py:52-57 | Without ids the answer is a 400 that does not depend on the store. |
| Frontend.NormalisePosts | web-app/app.py:103-109 | A bare list gives itself. An object with a `posts` list gives that list. Anything else gives `[]`. |
| Frontend.NormaliseOfPostsReply | web-app/app.py:103-106 | The `{"posts": [...]}` answers and bare lists normalise back to their lists. |
| Frontend.OverHttp | web-app/app.py:96-102 | A status from 400 to 599, or a handler that raises, raises. Any other status's body is the result. |
| Frontend.GetPostsFromStore | web-app/app.py:85-111 | An unset URL raises. An empty id list gives `[]`. Otherwise the ids are joined with commas, and the answer is normalised or its error raised. |
| Frontend.NoIdsNoCall | web-app/app.py:92-93 | An empty id list makes no remote call: the result is the same for every remote function. |
| Frontend.ReadThroughFunction | web-app/app.py:94-111 | Through the real post-reading function, the front end receives exactly that function's read loop results, in order. |
| Frontend.FetchAndIngest | web-app/app.py:58-83 | An unset URL raises. A successful call's answer is normalised. A failed call raises its error. |
| Frontend.ParseSearchForm | web-app/app.py:124-135 | The fields are stripped, with defaults `hot` and `10`. An empty subreddit is refused. A non-empty subreddit is accepted exactly when the limit parses, and otherwise refused with the limit warning. An accepted limit is the parsed integer. |
| Frontend.CompositeStep | web-app/app.py:150-162 | A post without a truthy id is dropped. A string id is kept as its full id and recorded as the post's `full_id`. |
| Frontend.CompositeIds | web-app/app.py:149-162 | There is at most one kept post per input post. |
| Frontend.CompositeIdsWellFormed | web-app/app.py:149-162 | Every kept id is composite and is recorded as its post's `full_id`. |
| Frontend.CompositeIdsAppend | web-app/app.py:149-162 | Posts are handled one by one and kept in input order. |
| Frontend.CompositeIdsSingle | web-app/app.py:150-162 | The loop over one post is that post's step. |
| Frontend.SearchIds | web-app/app.py:146-166 | The session lists are exactly the kept posts' full ids and posts, in input order. They have equal, non-zero length, and the k-th post carries the k-th id. No kept post gives the warning, and an error in the loop propagates. |
| Blobs.SplitSas | redditIngestFunc/GenerateReport/__init__.py:84-91 | A SAS URL without `?` is refused with the format error (if and only if). Otherwise base and token glue back to it, and the base has no `?`. |
| Blobs.SplitSasOptional | web-app/app.py:433-435 | With a `?`, the split is the strict split. Without one, the URL is all base and the token is empty. |
| Blobs.SplitSasRoundTrip | web-app/app.py:382-385 | Splitting `base?token` returns base and token when the base has no `?`. |
| Blobs.BlobUrlSplits | redditIngestFunc/GenerateReport/__init__.py:96 | A blob's URL `base/name?token` is itself a SAS URL: it splits into the container's base plus the blob name, and the container's token. |
| Blobs.FindStamp | web-app/app.py:426 | The leftmost `_` followed by an eight-digit, underscore, six-digit stamp, searching from a position; none exactly when no position qualifies. |
| Blobs.ExtractStamp | web-app/app.py:425-427 | The key is `""` exactly when the name has no stamp. Otherwise it is the stamp after the leftmost `_` that starts one. |
| Blobs.ReportNameStamp | web-app/app.py:375-377 | The listing key of a report named with a stamp is that stamp. |
| Ordering.InsertPermutes | web-app/app.py:428-432 | Inserting adds the name and loses none. |
| Ordering.SortDescendingPermutes | web-app/app.py:428-432 | The sort is a permutation of its input. |
| Ordering.InsertDescending | web-app/app.py:428-432 | Inserting into a descending list keeps it descending. |
| Ordering.SortDescendingSorted | web-app/app.py:428-432 | No name is followed by one with a larger key (Python string order). |
| Ordering.InsertWithKey | web-app/app.py:428-432 | The inserted name lands after every name with the same key. |
| Ordering.SortDescendingStable | web-app/app.py:428-432 | For every key, the names with that key keep their input order. |
| Ordering.ListingOrder | web-app/app.py:428-432 | The listing is a permutation of the blob names. |
| Ordering.ListingOrderSpec | web-app/app.py:425-432 | The listing is newest stamp first and stable, and names without a stamp come last. |
| Files.UploadCharts | web-app/app.py:399-407 | The URLs uploaded are a prefix of the existing candidates' URLs, in candidate order, and all of them when no upload fails. |
| Files.ExistingUrls | web-app/app.py:395-401 | At most one URL per chart candidate. |
| Files.ExistingUrlsFromCharts | web-app/app.py:399-401 | Each URL is the blob URL of a candidate that is on disk. |
| Files.UploadedChartsExist | web-app/app.py:399-407 | Every uploaded URL is the blob URL of a candidate that is on disk. |
| Files.UploadChartsFailure | web-app/app.py:399-411 | The error that ends the block is the upload error of a candidate that is on disk. |
| Files.UploadChartsAllSucceed | web-app/app.py:399-407 | When every existing candidate's upload succeeds, all of them are uploaded, in order, with no error. |
| Files.UploadChartsStops | web-app/app.py:399-409 | A failed upload ends the loop; later candidates are not attempted. |
| Files.UploadChartsAppend | web-app/app.py:399-407 | Candidates are uploaded one after another, in order. |
| Files.UploadReport | web-app/app.py:380-407 | A tokenless SAS URL uploads nothing and reports the format error. A failed CSV upload uploads nothing more and reports its error. Otherwise the CSV's URL comes first, followed by the chart loop's URLs and outcome. |
| Files.ReportUploadsEverything | web-app/app.py:380-408 | With a tokened SAS URL and no failing upload, the CSV and then every existing chart are uploaded, and no error is reported. |
| Files.GenerateReportView | web-app/app.py:355-413 | No ids, no SAS setting or a failed read upload nothing and flash their own warnings (the read's carrying its error). The view always redirects home. Otherwise it uploads what the upload block uploads and flashes success, or the block's error. |
| Files.TokenlessSasUploadsNothing | web-app/app.py:380-411 | A SAS URL without a token uploads nothing and flashes the format error. |
| Files.ListFilesView | web-app/app.py:416-440 | With no SAS setting, the view redirects. A successful listing renders the names newest stamp first (the listing order), with the optional split's base and token. A failed listing redirects home with its error. |
| Files.DeleteFileView | web-app/app.py:442-467 | It always redirects to the listing. With no setting or no name, nothing is deleted. A deletion targets `base/name?token`. |
| Files.DeleteTargetsUploadedReport | web-app/app.py:454-458 | Deleting a listed report targets the URL the report view uploaded it to. |
| Report.JoinIds | redditIngestFunc/GenerateReport/__init__.py:41 | Joining succeeds exactly when every id is a string. |
| Report.JoinStringIds | redditIngestFunc/GenerateReport/__init__.py:41 | String ids join to their comma-separated texts. |
| Report.ConfidenceOf | redditIngestFunc/GenerateReport/__init__.py:120-123 | A non-object post raises (if and only if). At most one value, and only for a numeric `probabilidade` (a bool counts). |
| Report.ConfidencesAppend | redditIngestFunc/GenerateReport/__init__.py:119-123 | Confidences are collected in post order, each post independently. |
| Report.ConfidencesSingle | redditIngestFunc/GenerateReport/__init__.py:121-123 | An int or float score is kept as a float. A string or null score is dropped. |
| Report.TextOf | redditIngestFunc/GenerateReport/__init__.py:155-157 | The text is selftext if truthy, else title if truthy, else none; a non-object post raises. |
| Report.TextsNonEmpty | redditIngestFunc/GenerateReport/__init__.py:153-157 | Every kept text is non-empty, and there are no more texts than posts. |
| Report.Charts | redditIngestFunc/GenerateReport/__init__.py:116-181 | The chart section always ends in its `except`, because `np` and `re` are never imported. |
| Report.Main | redditIngestFunc/GenerateReport/__init__.py:20-191 | Invalid JSON and bad `post_ids` give 400. A 200 happens only after the ids joined, the posts were read and the CSV was uploaded, and it reports only the CSV's URL, built from a tokenised SAS setting. |
| Report.BadPostIdsCallNothing | redditIngestFunc/GenerateReport/__init__.py:27-29 | A non-list or empty `post_ids` gets the same 400 whatever the settings and services. |
| Report.NoPostsStillReported | redditIngestFunc/GenerateReport/__init__.py:57-60 | An empty post list still uploads the CSV and answers 200 with its URL. |
| Report.UploadedCsvIsReported | redditIngestFunc/GenerateReport/__init__.py:39-191 | Whatever posts are read, once the CSV is uploaded the answer is 200 with only the CSV's URL; the chart failure is swallowed. |
| Report.ReadFailureReported | redditIngestFunc/GenerateReport/__init__.py:39-55 | A failed read of the posts answers 500 with the reader's message. |
| Report.UploadFailureReported | redditIngestFunc/GenerateReport/__init__.py:98-108 | A failed CSV upload answers 500 with the upload's message. |
| Report.TokenlessSasFails | redditIngestFunc/GenerateReport/__init__.py:84-91 | A SAS setting without `?` gives a 500 with the format error. |
| Report.UnsetReaderIs500 | redditIngestFunc/GenerateReport/__init__.py:31-36 | An unset post-reading function URL gives a 500 with its message. |
| Report.NonStringIdsAre500 | redditIngestFunc/GenerateReport/__init__.py:39-55 | Ids that are not all strings make the join raise inside the read's `try`, giving a 500 with the read-error prefix. |
| Report.UnsetSasIs500 | redditIngestFunc/GenerateReport/__init__.py:77-81 | An unset SAS setting, once the posts are read, gives a 500 with its message. |
| Sentiment.Truncate | web-app/app.py:251 | The result is a prefix of at most `n` characters: the whole string when it fits, exactly `n` otherwise. |
| Sentiment.Snippet | web-app/app.py:249-251 | The snippet is at most 512 characters. |
| Sentiment.SnippetFromSelftext | web-app/app.py:249-251 | A non-blank selftext gives exactly the stripped selftext cut to 512 characters, which is non-empty. |
| Sentiment.SnippetFromTitle | web-app/app.py:249-251 | A blank selftext gives exactly the stripped title cut to 512 characters. It is empty exactly when the title is blank. |
| Sentiment.SnippetFails | web-app/app.py:249 | The snippet raises exactly when selftext is not a string, or selftext is blank and title is not a string. |
| Sentiment.BlankPostHasEmptySnippet | web-app/app.py:249-257 | A post without selftext and title has no text to classify. |
| Sentiment.MarkUnknown | web-app/app.py:255-256 | The post gains `sentimento = Unknown` and `probabilidade = 0`; every other field is kept. |
| Sentiment.AnnotateFields | web-app/app.py:274-277 | The post gains the capitalised label and the percentage; every other field is kept. |
| Sentiment.AnnotateUnknown | web-app/app.py:266-277 | A failed batch's post is annotated exactly like a post without text. |
| Sentiment.Partition | web-app/app.py:246-257 | Every post goes to exactly one side, and the indices point into the posts. |
| Sentiment.PartitionSound | web-app/app.py:248-257 | Each text is its post's non-empty snippet. Each post on the other side has an empty snippet and is marked Unknown. |
| Sentiment.PartitionComplete | web-app/app.py:248-257 | A post is sent to the classifier if and only if its snippet is non-empty, and marked Unknown if and only if it is empty. |
| Sentiment.PartitionOrdered | web-app/app.py:248-257 | Both sides keep input order. |
| Sentiment.Batch | web-app/app.py:260-261 | A batch is non-empty inside the texts and full when sixteen remain. |
| Sentiment.BatchIsSlice | web-app/app.py:261 | A batch is the slice `texts[start:start+16]`. |
| Sentiment.BatchesFromStep | web-app/app.py:260-261 | The batch at `start` is sent first, then the batches from its end. |
| Sentiment.BatchesFromCover | web-app/app.py:260-261 | The batches from `start` concatenate to exactly `texts[start:]`. |
| Sentiment.BatchesFromShape | web-app/app.py:259-261 | There are ceil(n/16) batches, all full but the last. |
| Sentiment.BatchesShape | web-app/app.py:259-263 | The classifier is called ceil(N/16) times, and the batches concatenate to the texts. |
| Sentiment.FailedBatchIsUnknown | web-app/app.py:262-266 | A batch whose call raises gives each of its texts `Unknown` with score 0. |
| Sentiment.VerdictIsLocal | web-app/app.py:260-266 | A text's result depends only on its own batch's call. |
| Sentiment.AlignedAt | web-app/app.py:268-270 | Result j of the batch at `start` lands at text `start + j`: position k holds text k's own result. |
| Sentiment.ExactCoversAll | web-app/app.py:266-268 | When every batch yields one result per text, every text gets a result. |
| Sentiment.ExactAligned | web-app/app.py:268-270 | When every batch yields one result per text, each position holds its text's result. |
| Sentiment.ScoredWhenExact | web-app/app.py:268-287 | When results match texts, the k-th classified post is text k's post annotated with its result, and text k is recorded. |
| Sentiment.SeriesOfSnoc | web-app/app.py:279-284 | Each result adds exactly one entry, to the series its lower-cased label names. |
| Sentiment.SeriesCount | web-app/app.py:279-284 | The three series together hold one entry per result. |
| Sentiment.UnknownIsNeutral | web-app/app.py:266-284 | The `Unknown` result is counted as neutral. |
| Sentiment.BucketIgnoresCase | web-app/app.py:279-284 | Labels equal up to letter case land in the same bucket. A label is negative or positive exactly when it lower-cases to that word, and neutral otherwise. |
| Sentiment.BucketExamples | web-app/app.py:279-284 | The classifier's labels, in any case, land in their buckets. |
| Sentiment.ProgressProjects | web-app/app.py:242-287 | The posts without text come first, then each classified post in text order. The series hold the classified results, and the texts are those classified. |
| Sentiment.SplitPosts | web-app/app.py:246-257 | The first loop computes the partition of the posts' snippets, or the first snippet error. |
| Sentiment.HandleResult | web-app/app.py:276-287 | One result annotates its post, files its percentage in its series and records its text. |
| Sentiment.ScoreOne | web-app/app.py:268-287 | Handling the result for text m advances the accumulators from text m to text m + 1. |
| Sentiment.HandleBatch | web-app/app.py:268-287 | A batch's results are handled in order. The loop raises `IndexError` exactly when there are more results than texts. |
| Sentiment.ScoreBatch | web-app/app.py:260-287 | One batch is sent, and its results land on their texts. It raises exactly when the batch spills. |
| Sentiment.OverflowsIff | web-app/app.py:268-286 | The loop raises exactly when some batch, starting at a multiple of sixteen, returns more results than texts. |
| Sentiment.ScoreTexts | web-app/app.py:259-287 | The batch loop gives every text its own batch's result, sends exactly the ceil(N/16) batches in order, and raises only on a spilling batch. |
| Sentiment.DetailAll | web-app/app.py:242-287 | The whole pass equals the declarative reference `Sentiment.Analyse`. |
| WriteBack.TargetOf | web-app/app.py:292-295 | A post is written exactly when its id is a string with an underscore. It is written at `(strip(prefix), id)`. It is skipped exactly when its id is falsy or has no underscore. |
| WriteBack.Confidence | web-app/app.py:299 | An integer percentage becomes the fraction p/100. Only numbers and booleans divide. |
| WriteBack.Refresh | web-app/app.py:297-299 | The stored document gains the post's label and confidence, and every other field is kept. It fails exactly when the post lacks them or the score does not divide. |
| WriteBack.WriteOne | web-app/app.py:292-302 | A skipped post changes nothing. A failing post leaves the store as it was. At most one document is written. |
| WriteBack.WriteAllAppend | web-app/app.py:290-305 | The loop over `a + b` is the loop over `a` then over `b`; nothing more happens after a failure. |
| WriteBack.WriteAllSingle | web-app/app.py:291-302 | The loop over one post is that post's turn. |
| WriteBack.StopsAtFirstFailure | web-app/app.py:290-305 | The first failure ends the loop, and later posts are not written. |
| WriteBack.SkippedPostIsInert | web-app/app.py:293-294 | A post with a falsy or underscore-free id changes nothing and does not stop the loop. |
| WriteBack.WriteAllFrame | web-app/app.py:297-301 | No document is created, and only documents the loop wrote change. |
| WriteBack.WriteOneKeepsFields | web-app/app.py:297-301 | One turn keeps every field except the two sentiment fields. |
| WriteBack.WriteAllKeepsFields | web-app/app.py:291-301 | Every field except the two sentiment fields keeps its stored value. |
| WriteBack.WriteAllGrows | web-app/app.py:291-301 | No document loses a field. |
| WriteBack.WriteAllAddsFields | web-app/app.py:291-301 | Every written document carries both sentiment fields afterwards. |
| WriteBack.IngestedPostIsFound | web-app/app.py:292-297 | A post with an ingested id addresses the document ingestion wrote. |
| WriteBack.AnnotatedPostIsWritten | web-app/app.py:297-301 | An annotated post whose document exists has that document's label set to the capitalised label, and its confidence to the percentage as a fraction. |
| WriteBack.WriteBackLoop | web-app/app.py:290-305 | The imperative loop computes the write-back outcome. |

## Left out

- Network, Reddit OAuth, Cosmos and Blob SDK calls, `requests` and the Azure Functions request objects are function parameters or maps. Status codes and bodies are modelled; headers, timeouts and MIME types are not.
- Ingest.Main and Report.Main: the exception texts inside 500 bodies (`str(e)` of an `AttributeError`, a `TypeError` from `join`, an SDK error) are placeholders. What is modelled is which step raises, which handler catches it, the status code and the fixed message prefix, not the wording Python or the SDK would produce.
- Flask sessions, flash categories and templates are not modelled. Views return the redirect target and message, or the data a template would render. `home` and the session bookkeeping in `search` and `detail_all` (web-app/app.py:113-120, 168-179, 212-240) only move data between requests.
- `search`'s second read through the post-reading function (web-app/app.py:181-200) is not modelled. It only chooses what the template displays, with a fallback.
- The KDE chart, the word cloud, matplotlib and pandas CSV serialisation (web-app/app.py:307-352, 376-378; redditIngestFunc/GenerateReport/__init__.py:62-74) are left out. They are floating-point numerics, rendering and a foreign library. Whether a chart file exists is a parameter of the upload.
- The current UTC time is a `stamp` parameter, not a call to `datetime`.
- Module start-up is not modelled: `_setup_vendored_path`, client construction, the pipeline's load failure and logging.
- Sentiment.Verdict: the classifier returns an integer percentage. `int(score * 100)` on floats is not modelled, and neither is a non-string label (for which `label.lower()` would raise). `truncation=True` is the classifier's concern.
- WriteBack.Confidence: `round(p / 100, 4)` is modelled as exact division. For the integer percentages the pass stores, the two agree. For a float score, rounding to four places is not modelled.
- Text.ParseInt: only ASCII digits are accepted. Python's `int()` also accepts other Unicode decimal digits (Arabic-Indic, full-width), so such a `limit` is refused by the model where Python would accept it.
- Text.Lower and Text.Capitalize: these only state length. Case mapping covers ASCII letters, not Unicode. `IsDigit` is ASCII, whereas `\d` also matches other Unicode digits.
- Ingest.IdText: a listing id that is a float, list or object is treated as an error. Python would format it with `str()`.
- Frontend.CompositeStep: a truthy id that is not a string is an error. Python raises for numbers and would test membership for a list.
- Sentiment.HandleBatch: when a batch returns more results than texts, the model raises `IndexError` at the first extra result. For a non-final batch, the source raises at `batch_texts[j]` after annotating one more post. Both end the view with the same error, so the annotated post is never shown.
- Sentiment.ScoreTexts steps by the batch's length rather than by 16. Every batch but the last holds sixteen texts, so the batch starts are the same.
- Write-back stopping at the first failure follows the code: one `try` encloses the whole loop.
- WriteBack.WriteOne: `replace_item` is assumed to succeed once the read has succeeded; a replacement that fails after a successful read is not modelled.

=== FILE: blobs.dfy ===
/**
 * Addressing report blobs through the container's SAS URL: the URL is split
 * at its first `?` into the container address and the token, and each
 * blob's URL is `base/name?token`. Report names carry a
 * `YYYYMMDD_HHMMSS` stamp, which the listing reads back to order them.
 */
module Blobs {
  import opened Results
  import opened Text

  /** A container SAS URL taken apart: the container address and the query token. */
  datatype Sas = Sas(base: string, token: string)

  /** The error the report writers raise for a SAS URL without a token. */
  const MalformedSas := "Formato inválido de CONTAINER_ENDPOINT_SAS"

  /**
   * The report writers' split: the text before and after the first `?`; a
   * URL without `?` is rejected.
   */
  function SplitSas(sas: string): (r: Result<Sas>)
    ensures r.Err? <==> '?' !in sas
    ensures r.Err? ==> r.error == MalformedSas
    ensures r.Ok? ==> sas == r.value.base + "?" + r.value.token && '?' !in r.value.base
  {
    match SplitOnce(sas, '?')
    case None => Err(MalformedSas)
    case Some((base, token)) => Ok(Sas(base, token))
  }

  /** The listing and deletion views' split: a URL without `?` is all base, with an empty token. */
  function SplitSasOptional(sas: string): (r: Sas)
    ensures '?' in sas ==> SplitSas(sas) == Ok(r)
    ensures '?' !in sas ==> r == Sas(sas, "")
  {
    match SplitOnce(sas, '?')
    case None => Sas(sas, "")
    case Some((base, token)) => Sas(base, token)
  }

  /** Splitting a base and a token glued with `?` gives them back when the base has no `?`. */
  lemma SplitSasRoundTrip(base: string, token: string)
    requires '?' !in base
    ensures SplitSas(base + "?" + token) == Ok(Sas(base, token))
    ensures SplitSasOptional(base + "?" + token) == Sas(base, token)
  {
    SplitOnceOfGlued(base, '?', token);
  }

  /** The URL of blob `name` in the container. */
  function BlobUrl(sas: Sas, name: string): string {
    sas.base + "/" + name + "?" + sas.token
  }

  /**
   * A blob's URL is itself a SAS URL: its base is the container address
   * followed by the blob name, and its token is the container's.
   */
  lemma BlobUrlSplits(sas: Sas, name: string)
    requires '?' !in sas.base && '?' !in name
    ensures SplitSas(BlobUrl(sas, name)) == Ok(Sas(sas.base + "/" + name, sas.token))
  {
    var b := sas.base + "/" + name;
    assert '?' !in b by {
      assert forall k :: 0 <= k < |b| ==> b[k] == (if k < |sas.base| then sas.base[k] else if k == |sas.base| then '/' else name[k - |sas.base| - 1]);
    }
    assert BlobUrl(sas, name) == b + "?" + sas.token;
    SplitSasRoundTrip(b, sas.token);
  }

  /** The blob name `date_time`: eight digits, an underscore, six digits. */
  predicate IsStamp(s: string) {
    && |s| == 15
    && (forall k :: 0 <= k < 8 ==> IsDigit(s[k]))
    && s[8] == '_'
    && (forall k :: 9 <= k < 15 ==> IsDigit(s[k]))
  }

  /** Whether `_` followed by a stamp starts at position `i` of `name`. */
  predicate StampAt(name: string, i: nat) {
    i + 16 <= |name| && name[i] == '_' && IsStamp(name[i + 1..i + 16])
  }

  /** The leftmost position from `from` on where a stamp starts. */
  function FindStamp(name: string, from: nat): (r: Option<nat>)
    ensures r.Some? ==> from <= r.value && StampAt(name, r.value)
    ensures r.Some? ==> forall j :: from <= j < r.value ==> !StampAt(name, j)
    ensures r.None? ==> forall j :: from <= j ==> !StampAt(name, j)
    decreases |name| - from
  {
    if from + 16 > |name| then None
    else if StampAt(name, from) then Some(from)
    else FindStamp(name, from + 1)
  }

  /**
   * The listing's sort key, `re.search(r'_(\d{8}_\d{6})', name)`: the
   * stamp after the leftmost `_` that starts one, or `""` when none does.
   */
  function ExtractStamp(name: string): (key: string)
    ensures key == "" <==> forall i :: !StampAt(name, i)
    ensures key != "" ==> IsStamp(key)
    ensures key != "" ==> exists i :: StampAt(name, i) && key == name[i + 1..i + 16] && forall j :: 0 <= j < i ==> !StampAt(name, j)
  {
    match FindStamp(name, 0)
    case None => ""
    case Some(i) => name[i + 1..i + 16]
  }

  /** The name a report CSV is uploaded under. */
  function ReportName(stamp: string): string {
    "relatorio_" + stamp + ".csv"
  }

  /** The listing recovers the stamp a report was named with. */
  lemma ReportNameStamp(stamp: string)
    requires IsStamp(stamp)
    ensures ExtractStamp(ReportName(stamp)) == stamp
  {
    var name := ReportName(stamp);
    assert name[9] == '_' && name[10..25] == stamp;
    assert StampAt(name, 9);
    forall j | 0 <= j < 9
      ensures !StampAt(name, j)
    {
      assert name[j] == "relatorio"[j];
    }
  }
}

=== FILE: cosmos.dfy ===
/**
 * The document store, reduced to what the services observe: documents
 * addressed by partition key and id. A point read that raises (missing
 * document, network failure) is a key that is absent from the map.
 */
module Cosmos {
  import opened Json

  /** The address `read_item(item=id, partition_key=partition)` uses. */
  datatype Key = Key(partition: string, id: string)

  /** The container's contents. */
  type Store = map<Key, Dict>
}

=== FILE: files.dfy ===
/**
 * The web front end's report and file views: uploading a report and its
 * charts to the container, listing the container newest first, and
 * deleting a blob. Each view ends in a redirect with a flashed message,
 * except the listing, which renders the sorted names with the SAS parts.
 */
module Files {
  import opened Results
  import opened Json
  import opened Blobs
  import opened Ordering
  import opened Loops

  /** What a view answers with. */
  datatype Page =
    | Redirect(to: string, message: string)
    | FileList(files: seq<string>, base: string, token: string)

  const NoSasMessage := "CONTAINER_ENDPOINT_SAS inválido ou ausente."

  /** The chart files the report view uploads when they exist: local path, then blob name. */
  function ChartCandidates(stamp: string): seq<(string, string)> {
    [("static/distribuicao_confianca.png", "distribuicao_confianca_" + stamp + ".png"),
     ("static/nuvem_palavras_all.png", "nuvem_palavras_all_" + stamp + ".png")]
  }

  /** What the upload block did: the blob URLs written, in order, and the error that ended it, if any. */
  datatype Uploads = Uploads(urls: seq<string>, failure: Option<string>)

  /** The URLs of the charts that exist, in order: what the block uploads when nothing fails. */
  function ExistingUrls(sas: Sas, charts: seq<(string, string)>, onDisk: string -> bool): (urls: seq<string>)
    ensures |urls| <= |charts|
  {
    if |charts| == 0 then []
    else (if onDisk(charts[0].0) then [BlobUrl(sas, charts[0].1)] else []) + ExistingUrls(sas, charts[1..], onDisk)
  }

  /** Each existing chart URL is the URL of a chart that is on disk. */
  lemma {:induction false} ExistingUrlsFromCharts(sas: Sas, charts: seq<(string, string)>, onDisk: string -> bool, k: nat)
    requires k < |ExistingUrls(sas, charts, onDisk)|
    ensures exists j :: 0 <= j < |charts| && onDisk(charts[j].0) && ExistingUrls(sas, charts, onDisk)[k] == BlobUrl(sas, charts[j].1)
    decreases |charts|
  {
    var head := if onDisk(charts[0].0) then [BlobUrl(sas, charts[0].1)] else [];
    var tail := ExistingUrls(sas, charts[1..], onDisk);
    if k < |head| {
      assert onDisk(charts[0].0) && ExistingUrls(sas, charts, onDisk)[k] == BlobUrl(sas, charts[0].1);
    } else {
      assert ExistingUrls(sas, charts, onDisk)[k] == tail[k - |head|];
      ExistingUrlsFromCharts(sas, charts[1..], onDisk, k - |head|);
      var j :| 0 <= j < |charts[1..]| && onDisk(charts[1..][j].0) && tail[k - |head|] == BlobUrl(sas, charts[1..][j].1);
      assert charts[1..][j] == charts[j + 1];
    }
  }

  /**
   * Uploading the charts that exist, in order; the first failing upload ends
   * the block. The URLs written are a prefix of the existing charts' URLs,
   * all of them when nothing fails.
   */
  function UploadCharts(sas: Sas, charts: seq<(string, string)>, onDisk: string -> bool, upload: string -> Option<string>)
    : (r: Uploads)
    ensures |r.urls| <= |charts|
    ensures r.urls <= ExistingUrls(sas, charts, onDisk)
    ensures r.failure.None? ==> r.urls == ExistingUrls(sas, charts, onDisk)
  {
    if |charts| == 0 then Uploads([], None)
    else
      var (local, target) := charts[0];
      if !onDisk(local) then UploadCharts(sas, charts[1..], onDisk, upload)
      else
        var url := BlobUrl(sas, target);
        match upload(url)
        case Some(e) => Uploads([], Some(e))
        case None =>
          var rest := UploadCharts(sas, charts[1..], onDisk, upload);
          assert [url] + rest.urls <= [url] + ExistingUrls(sas, charts[1..], onDisk);
          Uploads([url] + rest.urls, rest.failure)
  }

  /** Every URL written is the URL of a chart that is on disk. */
  lemma UploadedChartsExist(sas: Sas, charts: seq<(string, string)>, onDisk: string -> bool, upload: string -> Option<string>, k: nat)
    requires k < |UploadCharts(sas, charts, onDisk, upload).urls|
    ensures exists j :: 0 <= j < |charts| && onDisk(charts[j].0) && UploadCharts(sas, charts, onDisk, upload).urls[k] == BlobUrl(sas, charts[j].1)
  {
    ExistingUrlsFromCharts(sas, charts, onDisk, k);
  }

  /** The error that ends the block is the error of uploading a chart that is on disk. */
  lemma {:induction false} UploadChartsFailure(sas: Sas, charts: seq<(string, string)>, onDisk: string -> bool, upload: string -> Option<string>)
    requires UploadCharts(sas, charts, onDisk, upload).failure.Some?
    ensures exists j :: 0 <= j < |charts| && onDisk(charts[j].0) && upload(BlobUrl(sas, charts[j].1)) == UploadCharts(sas, charts, onDisk, upload).failure
    decreases |charts|
  {
    var r := UploadCharts(sas, charts, onDisk, upload);
    if onDisk(charts[0].0) && upload(BlobUrl(sas, charts[0].1)).Some? {
      assert upload(BlobUrl(sas, charts[0].1)) == r.failure;
    } else {
      UploadChartsFailure(sas, charts[1..], onDisk, upload);
      var j :| 0 <= j < |charts[1..]| && onDisk(charts[1..][j].0) && upload(BlobUrl(sas, charts[1..][j].1)) == r.failure;
      assert charts[1..][j] == charts[j + 1];
    }
  }

  /** When every upload of an existing chart succeeds, every existing chart is uploaded, in order. */
  lemma UploadChartsAllSucceed(sas: Sas, charts: seq<(string, string)>, onDisk: string -> bool, upload: string -> Option<string>)
    requires forall j :: 0 <= j < |charts| && onDisk(charts[j].0) ==> upload(BlobUrl(sas, charts[j].1)).None?
    ensures UploadCharts(sas, charts, onDisk, upload) == Uploads(ExistingUrls(sas, charts, onDisk), None)
  {
    if UploadCharts(sas, charts, onDisk, upload).failure.Some? {
      UploadChartsFailure(sas, charts, onDisk, upload);
    }
  }

  /** Uploading `a + b` stops where uploading `a` stops. */
  lemma {:induction false} UploadChartsStops(sas: Sas, a: seq<(string, string)>, b: seq<(string, string)>,
                                             onDisk: string -> bool, upload: string -> Option<string>)
    requires UploadCharts(sas, a, onDisk, upload).failure.Some?
    ensures UploadCharts(sas, a + b, onDisk, upload) == UploadCharts(sas, a, onDisk, upload)
    decreases |a|
  {
    assert (a + b)[0] == a[0] && (a + b)[1..] == a[1..] + b;
    if !(onDisk(a[0].0) && upload(BlobUrl(sas, a[0].1)).Some?) {
      UploadChartsStops(sas, a[1..], b, onDisk, upload);
    }
  }

  /** Uploading `a + b`, when `a` goes through, uploads `a` and then `b`. */
  lemma {:induction false} UploadChartsAppend(sas: Sas, a: seq<(string, string)>, b: seq<(string, string)>,
                                              onDisk: string -> bool, upload: string -> Option<string>)
    requires UploadCharts(sas, a, onDisk, upload).failure.None?
    ensures UploadCharts(sas, a + b, onDisk, upload) ==
      Uploads(UploadCharts(sas, a, onDisk, upload).urls + UploadCharts(sas, b, onDisk, upload).urls,
              UploadCharts(sas, b, onDisk, upload).failure)
    decreases |a|
  {
    if |a| == 0 {
      assert a + b == b;
    } else {
      assert (a + b)[0] == a[0] && (a + b)[1..] == a[1..] + b;
      var ra := UploadCharts(sas, a[1..], onDisk, upload);
      var rb := UploadCharts(sas, b, onDisk, upload);
      var rab := UploadCharts(sas, a[1..] + b, onDisk, upload);
      UploadChartsAppend(sas, a[1..], b, onDisk, upload);
      assert rab == Uploads(ra.urls + rb.urls, rb.failure);
      if onDisk(a[0].0) {
        var url := BlobUrl(sas, a[0].1);
        assert upload(url).None?;
        assert UploadCharts(sas, a, onDisk, upload).urls == [url] + ra.urls;
        assert UploadCharts(sas, a + b, onDisk, upload) == Uploads([url] + rab.urls, rab.failure);
        AppendAssoc([url], ra.urls, rb.urls);
      } else {
        assert UploadCharts(sas, a, onDisk, upload) == ra;
        assert UploadCharts(sas, a + b, onDisk, upload) == rab;
      }
    }
  }

  /**
   * The upload block of the report view: split the SAS URL (a URL without
   * a token raises), upload the CSV, then the existing charts.
   */
  function UploadReport(sasSetting: string, stamp: string, onDisk: string -> bool, upload: string -> Option<string>)
    : (r: Uploads)
    ensures SplitSas(sasSetting).Err? ==> r == Uploads([], Some(MalformedSas))
    ensures r.urls != [] ==> SplitSas(sasSetting).Ok? && r.urls[0] == BlobUrl(SplitSas(sasSetting).value, ReportName(stamp))
    ensures SplitSas(sasSetting).Ok? && upload(BlobUrl(SplitSas(sasSetting).value, ReportName(stamp))).Some? ==>
      r == Uploads([], upload(BlobUrl(SplitSas(sasSetting).value, ReportName(stamp))))
    ensures SplitSas(sasSetting).Ok? && upload(BlobUrl(SplitSas(sasSetting).value, ReportName(stamp))).None? ==>
      var charts := UploadCharts(SplitSas(sasSetting).value, ChartCandidates(stamp), onDisk, upload);
      r == Uploads([BlobUrl(SplitSas(sasSetting).value, ReportName(stamp))] + charts.urls, charts.failure)
  {
    match SplitSas(sasSetting)
    case Err(e) => Uploads([], Some(e))
    case Ok(sas) =>
      var csvUrl := BlobUrl(sas, ReportName(stamp));
      match upload(csvUrl)
      case Some(e) => Uploads([], Some(e))
      case None =>
        var charts := UploadCharts(sas, ChartCandidates(stamp), onDisk, upload);
        Uploads([csvUrl] + charts.urls, charts.failure)
  }

  /**
   * With a tokened SAS URL and no failing upload, the block uploads the CSV
   * and then every chart that exists, and reports no error.
   */
  lemma ReportUploadsEverything(sas: Sas, stamp: string, onDisk: string -> bool, upload: string -> Option<string>)
    requires '?' !in sas.base
    requires forall url :: upload(url).None?
    ensures UploadReport(sas.base + "?" + sas.token, stamp, onDisk, upload) ==
      Uploads([BlobUrl(sas, ReportName(stamp))] + ExistingUrls(sas, ChartCandidates(stamp), onDisk), None)
  {
    SplitSasRoundTrip(sas.base, sas.token);
    UploadChartsAllSucceed(sas, ChartCandidates(stamp), onDisk, upload);
  }

  /**
   * The report view. `fetched` is the post read (or the error it raised);
   * the CSV itself is written by a library and is not modelled.
   */
  function GenerateReportView(postIds: seq<string>, sasSetting: string, fetched: Result<seq<Value>>, stamp: string,
                              onDisk: string -> bool, upload: string -> Option<string>)
    : (r: (Page, seq<string>))
    ensures postIds == [] || sasSetting == "" || fetched.Err? ==> r.1 == []
    ensures r.0.Redirect? && r.0.to == "home"
    ensures postIds == [] ==> r.0.message == "Não há dados disponíveis para gerar relatório."
    ensures postIds != [] && sasSetting == "" ==> r.0.message == NoSasMessage
    ensures postIds != [] && sasSetting != "" && fetched.Err? ==> r.0.message == "Erro ao buscar posts do Cosmos: " + fetched.error
    ensures r.1 != [] ==> SplitSas(sasSetting).Ok? && r.1[0] == BlobUrl(SplitSas(sasSetting).value, ReportName(stamp))
    ensures postIds != [] && sasSetting != "" && fetched.Ok? ==>
      var done := UploadReport(sasSetting, stamp, onDisk, upload);
      && r.1 == done.urls
      && r.0.message == (if done.failure.None? then "Relatório e gráficos enviados com sucesso."
                         else "Erro ao enviar para Azure Blob Storage: " + done.failure.value)
  {
    if postIds == [] then (Redirect("home", "Não há dados disponíveis para gerar relatório."), [])
    else if sasSetting == "" then (Redirect("home", NoSasMessage), [])
    else match fetched
      case Err(e) => (Redirect("home", "Erro ao buscar posts do Cosmos: " + e), [])
      case Ok(_) =>
        var done := UploadReport(sasSetting, stamp, onDisk, upload);
        match done.failure
        case Some(e) => (Redirect("home", "Erro ao enviar para Azure Blob Storage: " + e), done.urls)
        case None => (Redirect("home", "Relatório e gráficos enviados com sucesso."), done.urls)
  }

  /** A SAS URL without a token uploads nothing and reports the format error. */
  lemma TokenlessSasUploadsNothing(postIds: seq<string>, sasSetting: string, posts: seq<Value>, stamp: string,
                                   onDisk: string -> bool, upload: string -> Option<string>)
    requires postIds != [] && sasSetting != "" && '?' !in sasSetting
    ensures GenerateReportView(postIds, sasSetting, Ok(posts), stamp, onDisk, upload)
      == (Redirect("home", "Erro ao enviar para Azure Blob Storage: " + MalformedSas), [])
  {
  }

  /**
   * The listing view: the container's blob names (or the error listing
   * raised), newest stamp first, with the SAS URL's base and its token
   * (empty when it has none).
   */
  function ListFilesView(sasSetting: string, listed: Result<seq<string>>): (page: Page)
    ensures sasSetting == "" ==> page == Redirect("home", NoSasMessage)
    ensures page.FileList? ==> listed.Ok? && multiset(page.files) == multiset(listed.value)
    ensures page.FileList? ==> Sas(page.base, page.token) == SplitSasOptional(sasSetting)
    ensures sasSetting != "" && listed.Ok? ==>
      page == FileList(ListingOrder(listed.value), SplitSasOptional(sasSetting).base, SplitSasOptional(sasSetting).token)
    ensures sasSetting != "" && listed.Err? ==> page == Redirect("home", "Erro ao listar ficheiros: " + listed.error)
  {
    if sasSetting == "" then Redirect("home", NoSasMessage)
    else match listed
      case Err(e) => Redirect("home", "Erro ao listar ficheiros: " + e)
      case Ok(names) =>
        var sas := SplitSasOptional(sasSetting);
        FileList(ListingOrder(names), sas.base, sas.token)
  }

  /**
   * The deletion view: the blob `name` (empty when the form has none) is
   * deleted through `base/name?token`. It returns the page and the URL a
   * deletion was attempted on, if any.
   */
  function DeleteFileView(sasSetting: string, name: string, delete: string -> Option<string>): (r: (Page, Option<string>))
    ensures r.0.Redirect? && r.0.to == "listar_ficheiros"
    ensures sasSetting == "" || name == "" ==> r.1.None?
    ensures r.1.Some? ==> r.1.value == BlobUrl(SplitSasOptional(sasSetting), name)
  {
    if sasSetting == "" then (Redirect("listar_ficheiros", NoSasMessage), None)
    else if name == "" then (Redirect("listar_ficheiros", "Nenhum ficheiro especificado para apagar."), None)
    else
      var url := BlobUrl(SplitSasOptional(sasSetting), name);
      match delete(url)
      case Some(e) => (Redirect("listar_ficheiros", "Erro ao apagar ficheiro: " + e), Some(url))
      case None => (Redirect("listar_ficheiros", "Ficheiro '" + name + "' apagado com sucesso."), Some(url))
  }

  /**
   * The views agree on blob addresses: deleting a report listed under its
   * name targets the URL the report view uploaded it to.
   */
  lemma DeleteTargetsUploadedReport(sasSetting: string, stamp: string, delete: string -> Option<string>)
    requires '?' in sasSetting
    ensures DeleteFileView(sasSetting, ReportName(stamp), delete).1 == Some(BlobUrl(SplitSas(sasSetting).value, ReportName(stamp)))
  {
  }
}

=== FILE: frontend.dfy ===
/**
 * The web front end's calls to the two functions and the first half of its
 * search view: the response-shape normaliser, the remote post readers, the
 * search form's validation and the loop that turns ingested posts into
 * composite ids.
 */
module Frontend {
  import opened Results
  import opened Text
  import opened Json
  import opened Ids
  import opened Posts
  import opened Cosmos
  import opened Http
  import opened Loops
  import GetPosts

  /**
   * The posts in a function's JSON answer: the `posts` list of an object
   * that has one, the answer itself when it is a list, and nothing for any
   * other shape.
   */
  function NormalisePosts(data: Value): (posts: seq<Value>)
    ensures data.List? ==> posts == data.items
    ensures data.Object? && "posts" in data.fields && data.fields["posts"].List? ==> posts == data.fields["posts"].items
    ensures !data.List? && !(data.Object? && "posts" in data.fields && data.fields["posts"].List?) ==> posts == []
  {
    if data.Object? && "posts" in data.fields && data.fields["posts"].List? then data.fields["posts"].items
    else if data.List? then data.items
    else []
  }

  /** The `{"posts": [...]}` answers the functions produce normalise back to their lists. */
  lemma NormaliseOfPostsReply(posts: seq<Value>)
    ensures NormalisePosts(Object(map["posts" := List(posts)])) == posts
    ensures NormalisePosts(List(posts)) == posts
  {
  }

  /**
   * What the HTTP client makes of a function's response: `raise_for_status`
   * raises for a client or server error status (400 to 599), and the body
   * of any other status is decoded. A handler that raises is answered by
   * the host with a server error.
   */
  function OverHttp(resp: Response): (r: Result<Value>)
    ensures r.Ok? <==> resp.Reply? && !(400 <= resp.status < 600)
    ensures r.Ok? ==> r.value == resp.body
  {
    match resp
    case Reply(status, body) => if 400 <= status < 600 then Err("HTTPError") else Ok(body)
    case Unhandled(e) => Err("HTTPError")
  }

  /**
   * Reading posts through the post-reading function: an unset function URL
   * raises, an empty id list answers `[]` without a call, otherwise the ids
   * are sent joined by commas and the answer is normalised.
   */
  function GetPostsFromStore(url: string, ids: seq<string>, call: string -> Result<Value>): (r: Result<seq<Value>>)
    ensures url == "" ==> r.Err?
    ensures url != "" && ids == [] ==> r == Ok([])
    ensures url != "" && ids != [] && call(Join(ids, ",")).Err? ==> r.Err?
    ensures url != "" && ids != [] && call(Join(ids, ",")).Ok? ==> r == Ok(NormalisePosts(call(Join(ids, ",")).value))
  {
    if url == "" then Err("GET_POSTS_FUNCTION_URL não está configurado")
    else if ids == [] then Ok([])
    else match call(Join(ids, ","))
      case Err(e) => Err(e)
      case Ok(data) => Ok(NormalisePosts(data))
  }

  /** An empty id list makes no call: the result is the same whatever the remote function does. */
  lemma NoIdsNoCall(url: string, call1: string -> Result<Value>, call2: string -> Result<Value>)
    ensures GetPostsFromStore(url, [], call1) == GetPostsFromStore(url, [], call2)
  {
  }

  /**
   * End to end: when the front end asks the post-reading function for clean
   * composite ids and the store is configured, it receives exactly the posts
   * that function's read loop produces, in the same order.
   */
  lemma ReadThroughFunction(url: string, ids: seq<string>, env: map<string, string>, store: Store)
    requires url != "" && |ids| >= 1
    requires forall k :: 0 <= k < |ids| ==> ids[k] != "" && ',' !in ids[k] && Strip(ids[k]) == ids[k]
    requires GetPosts.Configured(env)
    requires GetPosts.ReadAll(GetPosts.AsValues(ids), store).Ok?
    ensures GetPostsFromStore(url, ids,
              param => OverHttp(GetPosts.Main(GetPosts.Request(map["ids" := param], None), env, store)))
            == Ok(AsObjects(GetPosts.ReadAll(GetPosts.AsValues(ids), store).value))
  {
    var param := Join(ids, ",");
    GetPosts.IdsParamRoundTrip(ids);
    var req := GetPosts.Request(map["ids" := param], None);
    assert GetPosts.RequestedIds(req) == GetPosts.AsValues(ids);
  }

  /**
   * Fetching through the ingestion function: an unset function URL raises,
   * otherwise the answer for the subreddit, sort and limit is normalised.
   */
  function FetchAndIngest(url: string, subreddit: string, sort: string, limit: int,
                          call: (string, string, int) -> Result<Value>): (r: Result<seq<Value>>)
    ensures url == "" ==> r.Err?
    ensures url != "" && call(subreddit, sort, limit).Ok? ==> r == Ok(NormalisePosts(call(subreddit, sort, limit).value))
    ensures url != "" && call(subreddit, sort, limit).Err? ==> r == Err(call(subreddit, sort, limit).error)
  {
    if url == "" then Err("FUNCTION_URL não está configurado")
    else match call(subreddit, sort, limit)
      case Err(e) => Err(e)
      case Ok(data) => Ok(NormalisePosts(data))
  }

  /** The search form after validation. */
  datatype SearchForm = SearchForm(subreddit: string, sort: string, limit: int)

  /**
   * The search view's validation: each field stripped, defaults `hot` and
   * `10`; an empty subreddit or a limit that is not an integer sends the user
   * back with a warning.
   */
  function ParseSearchForm(args: map<string, string>): (r: Result<SearchForm>)
    ensures r.Ok? ==> r.value.subreddit != "" && r.value.subreddit == Strip(if "subreddit" in args then args["subreddit"] else "")
    ensures r.Ok? ==> r.value.sort == Strip(if "sort" in args then args["sort"] else "hot")
    ensures r.Ok? ==> ParseInt(Strip(if "limit" in args then args["limit"] else "10")) == Some(r.value.limit)
    ensures Strip(if "subreddit" in args then args["subreddit"] else "") == "" ==> r == Err("Informe o nome do subreddit.")
    ensures Strip(if "subreddit" in args then args["subreddit"] else "") != "" ==>
      var limit := ParseInt(Strip(if "limit" in args then args["limit"] else "10"));
      && (limit.Some? ==> r.Ok?)
      && (limit.None? ==> r == Err("O campo 'Número de posts' deve ser um número inteiro."))
  {
    var subreddit := Strip(if "subreddit" in args then args["subreddit"] else "");
    var sort := Strip(if "sort" in args then args["sort"] else "hot");
    var limitText := Strip(if "limit" in args then args["limit"] else "10");
    if subreddit == "" then Err("Informe o nome do subreddit.")
    else match ParseInt(limitText)
      case None => Err("O campo 'Número de posts' deve ser um número inteiro.")
      case Some(limit) => Ok(SearchForm(subreddit, sort, limit))
  }

  /** A kept post: its composite id, and the post with that id added as `full_id`. */
  type Kept = (string, Dict)

  /**
   * One ingested post in the search view: skipped when its `id` is missing
   * or empty, otherwise given its full id. A post that is not an object, or
   * whose id is not a string, raises.
   */
  function CompositeStep(subreddit: string, post: Value): (r: Result<seq<Kept>>)
    ensures r.Ok? ==> |r.value| <= 1
    ensures r.Ok? && |r.value| == 1 ==>
      && post.Object? && Get(post.fields, "id").Str?
      && r.value[0].0 == FullId(subreddit, Get(post.fields, "id").s)
      && r.value[0].1 == post.fields["full_id" := Str(r.value[0].0)]
    ensures post.Object? && !Truthy(Get(post.fields, "id")) ==> r == Ok([])
    ensures post.Object? && Get(post.fields, "id").Str? && Get(post.fields, "id").s != "" ==> r.Ok? && |r.value| == 1
  {
    if !post.Object? then Err("AttributeError: get")
    else
      var raw := Get(post.fields, "id");
      if !Truthy(raw) then Ok([])
      else if !raw.Str? then Err("id of an unmodelled kind")
      else
        var id := FullId(subreddit, raw.s);
        Ok([(id, post.fields["full_id" := Str(id)])])
  }

  /** The search view's id loop over all ingested posts, in order. */
  function CompositeIds(subreddit: string, posts: seq<Value>): (r: Result<seq<Kept>>)
    ensures r.Ok? ==> |r.value| <= |posts|
  {
    var r := FlatMap(posts, p => CompositeStep(subreddit, p));
    if r.Ok? then FlatMapLength(posts, p => CompositeStep(subreddit, p)); r else r
  }

  /** A kept post's id is composite and recorded as the post's `full_id`. */
  predicate IdRecorded(kept: Kept) {
    '_' in kept.0 && "full_id" in kept.1 && kept.1["full_id"] == Str(kept.0)
  }

  /** Every kept id is composite and recorded as its post's `full_id`. */
  lemma CompositeIdsWellFormed(subreddit: string, posts: seq<Value>)
    requires CompositeIds(subreddit, posts).Ok?
    ensures forall k :: 0 <= k < |CompositeIds(subreddit, posts).value| ==> IdRecorded(CompositeIds(subreddit, posts).value[k])
  {
    FlatMapPreserves(posts, p => CompositeStep(subreddit, p), IdRecorded);
  }

  /** Posts are handled one by one and kept in input order. */
  lemma CompositeIdsAppend(subreddit: string, a: seq<Value>, b: seq<Value>)
    requires CompositeIds(subreddit, a).Ok? && CompositeIds(subreddit, b).Ok?
    ensures CompositeIds(subreddit, a + b) == Ok(CompositeIds(subreddit, a).value + CompositeIds(subreddit, b).value)
  {
    FlatMapAppend(a, b, p => CompositeStep(subreddit, p));
  }

  /** A single post's outcome in the loop is its own step. */
  lemma CompositeIdsSingle(subreddit: string, post: Value)
    ensures CompositeIds(subreddit, [post]) == CompositeStep(subreddit, post)
  {
    FlatMapSingle(post, p => CompositeStep(subreddit, p));
  }

  /** The two parallel lists the view keeps in the session: the ids, and the posts carrying them. */
  datatype Session = Session(postIds: seq<string>, postsWithFull: seq<Dict>)

  /**
   * The search view's outcome after the loop: the session lists, or the
   * warning shown when no post had an id. The lists have equal length and
   * the `k`-th post carries the `k`-th id.
   */
  function SearchIds(subreddit: string, posts: seq<Value>): (r: Result<Session>)
    ensures r.Ok? ==> |r.value.postIds| == |r.value.postsWithFull| > 0
    ensures r.Ok? ==> forall k :: 0 <= k < |r.value.postIds| ==>
      '_' in r.value.postIds[k] && "full_id" in r.value.postsWithFull[k] && r.value.postsWithFull[k]["full_id"] == Str(r.value.postIds[k])
    ensures CompositeIds(subreddit, posts) == Ok([]) ==> r == Err("Nenhum post válido retornado da ingestão.")
    ensures CompositeIds(subreddit, posts).Err? ==> r == Err(CompositeIds(subreddit, posts).error)
    ensures CompositeIds(subreddit, posts).Ok? && CompositeIds(subreddit, posts).value != [] ==>
      var kept := CompositeIds(subreddit, posts).value;
      r == Ok(Session(seq(|kept|, k requires 0 <= k < |kept| => kept[k].0), seq(|kept|, k requires 0 <= k < |kept| => kept[k].1)))
  {
    match CompositeIds(subreddit, posts)
    case Err(e) => Err(e)
    case Ok(kept) =>
      if kept == [] then Err("Nenhum post válido retornado da ingestão.")
      else
        CompositeIdsWellFormed(subreddit, posts);
        Ok(Session(seq(|kept|, k requires 0 <= k < |kept| => kept[k].0), seq(|kept|, k requires 0 <= k < |kept| => kept[k].1)))
  }
}

=== FILE: getposts.dfy ===
/**
 * The post-reading function: it takes a list of composite ids (query
 * parameter `ids=a,b,c` or a JSON body `{"ids": [...]}`), reads each
 * document from its partition and answers `{"posts": [...]}` with five
 * sanitised fields per post.
 */
module GetPosts {
  import opened Results
  import opened Text
  import opened Json
  import opened Ids
  import opened Cosmos
  import opened Http
  import opened Posts
  import opened Loops

  /**
   * An incoming request: its query parameters and its body, `None` when the
   * body is not valid JSON (`get_json` raises `ValueError`, which is ignored).
   */
  datatype Request = Request(params: map<string, string>, body: Option<Value>)

  /** The stripped, non-empty pieces of a list of comma-separated pieces, in order. */
  function CleanPieces(pieces: seq<string>): (ids: seq<string>)
    ensures |ids| <= |pieces|
    ensures forall k :: 0 <= k < |ids| ==> ids[k] != "" && Strip(ids[k]) == ids[k]
    ensures (forall k :: 0 <= k < |pieces| ==> ',' !in pieces[k]) ==> forall k :: 0 <= k < |ids| ==> ',' !in ids[k]
  {
    if |pieces| == 0 then []
    else
      var p := Strip(pieces[0]);
      StripOfStripped(p);
      StripKeepsAbsence(pieces[0], ',');
      (if p != "" then [p] else []) + CleanPieces(pieces[1..])
  }

  /** The `ids` query parameter: split on commas, each piece stripped, empty pieces dropped. */
  function ParseIdsParam(param: string): (ids: seq<string>)
    ensures forall k :: 0 <= k < |ids| ==> ids[k] != "" && ',' !in ids[k] && Strip(ids[k]) == ids[k]
  {
    CleanPieces(Split(param, ','))
  }

  lemma {:induction false} CleanPiecesOfClean(ids: seq<string>)
    requires forall k :: 0 <= k < |ids| ==> ids[k] != "" && Strip(ids[k]) == ids[k]
    ensures CleanPieces(ids) == ids
    decreases |ids|
  {
    if |ids| > 0 {
      CleanPiecesOfClean(ids[1..]);
      assert [ids[0]] + ids[1..] == ids;
    }
  }

  /** One piece is kept stripped, or dropped when it is blank. */
  lemma CleanPiecesSingle(p: string)
    ensures CleanPieces([p]) == if Strip(p) == "" then [] else [Strip(p)]
  {
    assert [p][1..] == [];
  }

  /** Pieces are cleaned one by one and kept in order. */
  lemma {:induction false} CleanPiecesAppend(a: seq<string>, b: seq<string>)
    ensures CleanPieces(a + b) == CleanPieces(a) + CleanPieces(b)
    decreases |a|
  {
    if |a| == 0 {
      assert a + b == b;
    } else {
      assert (a + b)[0] == a[0] && (a + b)[1..] == a[1..] + b;
      CleanPiecesAppend(a[1..], b);
      var p := Strip(a[0]);
      AppendAssoc(if p != "" then [p] else [], CleanPieces(a[1..]), CleanPieces(b));
    }
  }

  /**
   * A caller that joins clean ids with commas gets exactly those ids back:
   * the web front end's `",".join(ids)` and this parser are inverses.
   */
  lemma IdsParamRoundTrip(ids: seq<string>)
    requires |ids| >= 1
    requires forall k :: 0 <= k < |ids| ==> ids[k] != "" && ',' !in ids[k] && Strip(ids[k]) == ids[k]
    ensures ParseIdsParam(Join(ids, ",")) == ids
  {
    SplitOfJoin(ids, ',');
    CleanPiecesOfClean(ids);
  }

  function AsValues(xs: seq<string>): (vs: seq<Value>)
    ensures |vs| == |xs| && forall k :: 0 <= k < |xs| ==> vs[k] == Str(xs[k])
  {
    seq(|xs|, k requires 0 <= k < |xs| => Str(xs[k]))
  }

  /**
   * The ids a request asks for. A non-empty `ids` parameter wins; otherwise
   * the body's `ids` list is taken as it is (its elements need not be
   * strings); otherwise there are none.
   */
  function RequestedIds(req: Request): (ids: seq<Value>)
    ensures "ids" in req.params && req.params["ids"] != "" ==> ids == AsValues(ParseIdsParam(req.params["ids"]))
    ensures !("ids" in req.params && req.params["ids"] != "") ==>
      ids == (if req.body.Some? && req.body.value.Object? && Get(req.body.value.fields, "ids").List?
              then Get(req.body.value.fields, "ids").items else [])
  {
    var param := if "ids" in req.params then req.params["ids"] else "";
    if param != "" then AsValues(ParseIdsParam(param))
    else match req.body
      case Some(Object(m)) => if "ids" in m && m["ids"].List? then m["ids"].items else []
      case _ => []
  }

  /** The body is consulted only when the `ids` parameter is absent or empty. */
  lemma BodyIgnoredWithParam(req: Request, otherBody: Option<Value>)
    requires "ids" in req.params && req.params["ids"] != ""
    ensures RequestedIds(req) == RequestedIds(req.(body := otherBody))
  {
  }

  /**
   * Reading one id. An id without an underscore is skipped; a string id is
   * read from the partition named by its text before the first underscore,
   * and a failed read yields nothing. An id that is not a string makes the
   * underscore test or the split raise, which nothing catches.
   */
  function ReadStep(id: Value, store: Store): (r: Result<seq<Dict>>)
    ensures id.Str? && '_' !in id.s ==> r == Ok([])
    ensures id.Str? && '_' in id.s ==>
      var key := Key(PartitionKey(id.s).value, id.s);
      r == Ok(if key in store then [Sanitize(store[key])] else [])
    ensures r.Ok? ==> |r.value| <= 1 && forall k :: 0 <= k < |r.value| ==> HasPostFields(r.value[k])
  {
    match Contains(id, '_')
    case Err(e) => Err(e)
    case Ok(false) => Ok([])
    case Ok(true) =>
      if !id.Str? then Err("AttributeError: split")
      else
        var key := Key(PartitionKey(id.s).value, id.s);
        Ok(if key in store then [Sanitize(store[key])] else [])
  }

  /** The read loop over all requested ids, in order; the first exception escapes. */
  function ReadAll(ids: seq<Value>, store: Store): (r: Result<seq<Dict>>)
    ensures r.Ok? ==> |r.value| <= |ids|
  {
    var r := FlatMap(ids, id => ReadStep(id, store));
    if r.Ok? then FlatMapLength(ids, id => ReadStep(id, store)); r else r
  }

  /**
   * Each id is handled on its own and results keep input order: reading
   * `a + b` gives the results of `a` followed by those of `b`, so a failed
   * read drops only its own id.
   */
  lemma ReadAllAppend(a: seq<Value>, b: seq<Value>, store: Store)
    requires ReadAll(a, store).Ok? && ReadAll(b, store).Ok?
    ensures ReadAll(a + b, store) == Ok(ReadAll(a, store).value + ReadAll(b, store).value)
  {
    FlatMapAppend(a, b, id => ReadStep(id, store));
  }

  /** Every post the loop returns has exactly the five post fields. */
  lemma ReadAllFields(ids: seq<Value>, store: Store)
    requires ReadAll(ids, store).Ok?
    ensures forall k :: 0 <= k < |ReadAll(ids, store).value| ==> HasPostFields(ReadAll(ids, store).value[k])
  {
    FlatMapPreserves(ids, id => ReadStep(id, store), HasPostFields);
  }

  /** Reading a single id is exactly one read step. */
  lemma ReadAllSingle(id: Value, store: Store)
    ensures ReadAll([id], store) == ReadStep(id, store)
  {
    FlatMapSingle(id, id => ReadStep(id, store));
  }

  /** Whether the store's connection settings are present. */
  predicate Configured(env: map<string, string>) {
    && "COSMOS_ENDPOINT" in env && env["COSMOS_ENDPOINT"] != ""
    && "COSMOS_KEY" in env && env["COSMOS_KEY"] != ""
  }

  /** The function's entry point. */
  function Main(req: Request, env: map<string, string>, store: Store): (resp: Response)
    ensures RequestedIds(req) == [] ==> resp == Reply(400, ErrorBody("É preciso informar lista de IDs, ex: ?ids=subreddit_abc,subreddit_def"))
    ensures RequestedIds(req) != [] && !Configured(env) ==> resp == Reply(500, ErrorBody("Falha na configuração do Cosmos DB."))
    ensures resp.Reply? && resp.status == 200 ==>
      && resp.body.Object? && resp.body.fields.Keys == {"posts"} && resp.body.fields["posts"].List?
      && |resp.body.fields["posts"].items| <= |RequestedIds(req)|
    ensures RequestedIds(req) != [] && Configured(env) && ReadAll(RequestedIds(req), store).Ok? ==>
      resp == Reply(200, Object(map["posts" := List(AsObjects(ReadAll(RequestedIds(req), store).value))]))
    ensures RequestedIds(req) != [] && Configured(env) && ReadAll(RequestedIds(req), store).Err? ==>
      resp == Unhandled(ReadAll(RequestedIds(req), store).error)
    ensures resp.Reply? && resp.status == 200 <==> RequestedIds(req) != [] && Configured(env) && ReadAll(RequestedIds(req), store).Ok?
  {
    var ids := RequestedIds(req);
    if ids == [] then
      Reply(400, ErrorBody("É preciso informar lista de IDs, ex: ?ids=subreddit_abc,subreddit_def"))
    else if !Configured(env) then
      Reply(500, ErrorBody("Falha na configuração do Cosmos DB."))
    else match ReadAll(ids, store)
      case Err(e) => Unhandled(e)
      case Ok(posts) =>
        Reply(200, Object(map["posts" := List(AsObjects(posts))]))
  }

  /** A request without ids is refused before the store is touched: the answer is the same for every store. */
  lemma NoIdsNoRead(req: Request, env: map<string, string>, store1: Store, store2: Store)
    requires RequestedIds(req) == []
    ensures Main(req, env, store1) == Main(req, env, store2)
    ensures Main(req, env, store1).Reply? && Main(req, env, store1).status == 400
  {
  }
}

=== FILE: http.dfy ===
/** What an HTTP-triggered function hands back to the host. */
module Http {
  import opened Json

  /**
   * `Reply` is a response the handler builds (a JSON document, or a plain
   * text message as a `Str`); `Unhandled` is an exception that escapes the
   * handler, which the host turns into a server error.
   */
  datatype Response = Reply(status: int, body: Value) | Unhandled(error: string)

  /** The `{"error": message}` document the ingestion functions reply with. */
  function ErrorBody(message: string): Value {
    Object(map["error" := Str(message)])
  }
}

=== FILE: ids.dfy ===
/**
 * Composite post identifiers `{subreddit}_{rawId}` and the partition key
 * read back from them. Ingestion writes every document with its subreddit
 * as partition key; readers and writers only have the composite id, so they
 * recover the partition key as the text before the first underscore.
 */
module Ids {
  import opened Results
  import opened Text

  /** The document id ingestion gives a listing entry `rawId` of `subreddit`. */
  function ComposeId(subreddit: string, rawId: string): (id: string)
    ensures '_' in id
    ensures |id| == |subreddit| + 1 + |rawId|
    ensures id[..|subreddit|] == subreddit && id[|subreddit|] == '_' && id[|subreddit| + 1..] == rawId
  {
    subreddit + "_" + rawId
  }

  /**
   * The web front end's id for a post returned by ingestion: an id that
   * already holds an underscore is taken as composite and kept, any other is
   * prefixed with the searched subreddit.
   */
  function FullId(subreddit: string, rawId: string): (id: string)
    ensures '_' in id
    ensures '_' in rawId ==> id == rawId
    ensures '_' !in rawId ==> id == ComposeId(subreddit, rawId)
  {
    if '_' in rawId then rawId else ComposeId(subreddit, rawId)
  }

  /** Deriving a full id twice adds no second prefix. */
  lemma FullIdIdempotent(subreddit: string, rawId: string)
    ensures FullId(subreddit, FullId(subreddit, rawId)) == FullId(subreddit, rawId)
  {
  }

  /**
   * The partition key of a composite id: the text before its first
   * underscore; `None` for an id without one, which callers skip.
   */
  function PartitionKey(id: string): (pk: Option<string>)
    ensures pk.None? <==> '_' !in id
    ensures pk.Some? ==> '_' !in pk.value && |pk.value| < |id| && id[..|pk.value|] == pk.value && id[|pk.value|] == '_'
  {
    match SplitOnce(id, '_')
    case None => None
    case Some((before, _)) =>
      assert id[..|before|] == before;
      Some(before)
  }

  /**
   * The key the front end's write-back uses: the partition key with
   * surrounding whitespace removed.
   */
  function WriteBackKey(id: string): (pk: Option<string>)
    ensures pk.None? <==> '_' !in id
    ensures pk.Some? ==> pk == Some(Strip(PartitionKey(id).value))
  {
    match PartitionKey(id)
    case None => None
    case Some(p) => Some(Strip(p))
  }

  /**
   * The round trip ingestion relies on: splitting a composite id at its
   * first underscore gives back the subreddit and the raw id exactly when
   * the subreddit has no underscore of its own.
   */
  lemma ComposeIdRoundTrip(subreddit: string, rawId: string)
    ensures SplitOnce(ComposeId(subreddit, rawId), '_') == Some((subreddit, rawId)) <==> '_' !in subreddit
    ensures PartitionKey(ComposeId(subreddit, rawId)) == Some(subreddit) <==> '_' !in subreddit
  {
    if '_' !in subreddit {
      SplitOnceOfGlued(subreddit, '_', rawId);
    }
  }

  /**
   * A subreddit with an underscore is routed to the wrong partition: the
   * key read back is only the part before its first underscore (so
   * `learn_python` is looked up under `learn`).
   */
  lemma UnderscoredSubredditMisrouted(head: string, tail: string, rawId: string)
    requires '_' !in head
    ensures PartitionKey(ComposeId(head + "_" + tail, rawId)) == Some(head)
    ensures PartitionKey(ComposeId(head + "_" + tail, rawId)) != Some(head + "_" + tail)
  {
    var id := ComposeId(head + "_" + tail, rawId);
    assert id == head + ['_'] + (tail + "_" + rawId);
    SplitOnceOfGlued(head, '_', tail + "_" + rawId);
  }

  /** A front-end id built from a plain raw id routes to the searched subreddit. */
  lemma FullIdRoutesToSubreddit(subreddit: string, rawId: string)
    requires '_' !in subreddit && '_' !in rawId
    ensures PartitionKey(FullId(subreddit, rawId)) == Some(subreddit)
    ensures WriteBackKey(FullId(subreddit, rawId)) == Some(Strip(subreddit))
  {
    ComposeIdRoundTrip(subreddit, rawId);
  }
}

=== FILE: ingest.dfy ===
/**
 * The ingestion function: it validates `subreddit`/`limit`/`sort` and the
 * forum credentials, fetches one listing page, upserts one document per
 * listing entry under the id `{subreddit}_{rawId}`, and answers with the
 * stored posts. The OAuth token call, the listing call and the store are
 * parameters of the model.
 */
module Ingest {
  import opened Results
  import opened Text
  import opened Json
  import opened Ids
  import opened Http
  import opened Posts
  import Loops

  /** An app setting as the function reads it; an unset setting reads as `""`. */
  function Setting(env: map<string, string>, name: string): string {
    if name in env then env[name] else ""
  }

  /** The names the missing-settings message reports, in the order it reports them. */
  const CredentialNames: seq<string> := ["CLIENT_ID", "CLIENT_SECRET", "REDDIT_USER", "REDDIT_PASSWORD"]

  /**
   * The four credential values, in the order of `CredentialNames`. The
   * client id falls back from `CLIENT_ID` to `REDDIT_CLIENT_ID`, the secret
   * from `SECRET` to `REDDIT_CLIENT_SECRET`.
   */
  function Credentials(env: map<string, string>): (values: seq<string>)
    ensures |values| == |CredentialNames|
  {
    [ if Setting(env, "CLIENT_ID") != "" then Setting(env, "CLIENT_ID") else Setting(env, "REDDIT_CLIENT_ID"),
      if Setting(env, "SECRET") != "" then Setting(env, "SECRET") else Setting(env, "REDDIT_CLIENT_SECRET"),
      Setting(env, "REDDIT_USER"),
      Setting(env, "REDDIT_PASSWORD") ]
  }

  /** The names of the empty values among `values[from..]`, in order. */
  function MissingFrom(values: seq<string>, from: nat): (names: seq<string>)
    requires |values| == |CredentialNames| && from <= |values|
    ensures forall n :: n in names <==> exists k :: from <= k < |values| && values[k] == "" && CredentialNames[k] == n
    ensures |names| <= |values| - from
    decreases |values| - from
  {
    if from == |values| then []
    else
      var rest := MissingFrom(values, from + 1);
      if values[from] == "" then [CredentialNames[from]] + rest else rest
  }

  /** The position of a credential name in the reporting order. */
  function Rank(name: string): nat {
    if name == "CLIENT_ID" then 0
    else if name == "CLIENT_SECRET" then 1
    else if name == "REDDIT_USER" then 2
    else 3
  }

  lemma RankOfName(k: nat)
    requires k < |CredentialNames|
    ensures Rank(CredentialNames[k]) == k
  {
  }

  /** The names missing from `values[from..]` rank at least `from`. */
  lemma MissingRankFrom(values: seq<string>, from: nat)
    requires |values| == |CredentialNames| && from <= |values|
    ensures forall n :: n in MissingFrom(values, from) ==> from <= Rank(n)
  {
    forall n | n in MissingFrom(values, from) ensures from <= Rank(n) {
      var k :| from <= k < |values| && values[k] == "" && CredentialNames[k] == n;
      RankOfName(k);
    }
  }

  /** Missing names come out in the reporting order: strictly increasing rank. */
  lemma {:induction false} MissingInOrder(values: seq<string>, from: nat)
    requires |values| == |CredentialNames| && from <= |values|
    ensures forall i, j :: 0 <= i < j < |MissingFrom(values, from)| ==>
      Rank(MissingFrom(values, from)[i]) < Rank(MissingFrom(values, from)[j])
    decreases |values| - from
  {
    if from < |values| {
      MissingInOrder(values, from + 1);
      var rest := MissingFrom(values, from + 1);
      var names := MissingFrom(values, from);
      if values[from] == "" {
        assert names == [CredentialNames[from]] + rest;
        MissingRankFrom(values, from + 1);
        RankOfName(from);
        forall i, j | 0 <= i < j < |names| ensures Rank(names[i]) < Rank(names[j]) {
          assert names[j] == rest[j - 1];
          if i > 0 {
            assert names[i] == rest[i - 1];
          }
        }
      } else {
        assert names == rest;
      }
    }
  }

  /** The credential names that are unset, each exactly once, in the order the message lists them. */
  function Missing(env: map<string, string>): (names: seq<string>)
    ensures forall k :: 0 <= k < |CredentialNames| ==> (CredentialNames[k] in names <==> Credentials(env)[k] == "")
    ensures forall i, j :: 0 <= i < j < |names| ==> Rank(names[i]) < Rank(names[j])
  {
    MissingInOrder(Credentials(env), 0);
    MissingFrom(Credentials(env), 0)
  }

  /** The validated request: subreddit, sort and limit. */
  datatype Query = Query(subreddit: string, sort: string, limit: int)

  /**
   * Parameter validation: a missing or empty `subreddit` and a `limit`
   * that is not an integer are refused; `limit` defaults to 10 and `sort`
   * to `hot`. The error is the reply's message.
   */
  function ParseQuery(params: map<string, string>): (r: Result<Query>)
    ensures ("subreddit" !in params || params["subreddit"] == "") <==> r == Err("Falta parâmetro 'subreddit'.")
    ensures r.Ok? ==> r.value.subreddit == params["subreddit"] && r.value.subreddit != ""
    ensures r.Ok? && "limit" !in params ==> r.value.limit == 10
    ensures r.Ok? && "limit" in params ==> ParseInt(params["limit"]) == Some(r.value.limit)
    ensures r.Ok? ==> r.value.sort == (if "sort" in params then params["sort"] else "hot")
    ensures "subreddit" in params && params["subreddit"] != "" && "limit" in params && ParseInt(params["limit"]).None?
      ==> r == Err("Parâmetro 'limit' deve ser inteiro.")
    ensures "subreddit" in params && params["subreddit"] != "" && ("limit" !in params || ParseInt(params["limit"]).Some?)
      ==> r.Ok?
  {
    DefaultLimit();
    var subreddit := if "subreddit" in params then params["subreddit"] else "";
    if subreddit == "" then Err("Falta parâmetro 'subreddit'.")
    else match ParseInt(if "limit" in params then params["limit"] else "10")
      case None => Err("Parâmetro 'limit' deve ser inteiro.")
      case Some(limit) => Ok(Query(subreddit, if "sort" in params then params["sort"] else "hot", limit))
  }

  /** The default limit text parses to ten. */
  lemma DefaultLimit()
    ensures ParseInt("10") == Some(10)
  {
    ParseIntOfDecimal(10);
    assert Digits(10) == Digits(1) + [DigitChar(0)];
    assert Decimal(10) == "10";
  }

  /** Python's `str()` of a listing id, for the kinds of value the model formats. */
  function IdText(v: Value): Result<string> {
    match v
    case Str(s) => Ok(s)
    case Int(i) => Ok(Decimal(i))
    case Bool(b) => Ok(if b then "True" else "False")
    case _ => Err("listing id of an unmodelled kind")
  }

  /** `value or ""`: a falsy value (missing, `None`, empty) becomes the empty string. */
  function TextOrEmpty(v: Value): (r: Value)
    ensures Truthy(v) ==> r == v
    ensures !Truthy(v) ==> r == Str("")
  {
    if Truthy(v) then v else Str("")
  }

  /**
   * The document stored for one listing entry `child`: `Ok(None)` when its
   * `data` has no (truthy) `id` and is skipped; an error when `child` or its
   * `data` is not an object, whose `.get` then raises.
   */
  function ItemOf(subreddit: string, child: Value): (r: Result<Option<Dict>>)
    ensures r.Ok? && r.value.Some? ==>
      && HasPostFields(r.value.value)
      && r.value.value["subreddit"] == Str(subreddit)
      && (exists rid :: r.value.value["id"] == Str(ComposeId(subreddit, rid)))
      && r.value.value["title"] != Null && r.value.value["selftext"] != Null
    ensures r.Ok? ==> child.Object? && GetOr(child.fields, "data", Object(map[])).Object?
    ensures r.Ok? ==> (r.value.None? <==> !Truthy(Get(GetOr(child.fields, "data", Object(map[])).fields, "id")))
    ensures r.Ok? && r.value.Some? ==>
      var d := GetOr(child.fields, "data", Object(map[])).fields;
      && IdText(Get(d, "id")).Ok?
      && r.value.value["id"] == Str(ComposeId(subreddit, IdText(Get(d, "id")).value))
      && r.value.value["title"] == TextOrEmpty(GetOr(d, "title", Str("")))
      && r.value.value["selftext"] == TextOrEmpty(GetOr(d, "selftext", Str("")))
      && r.value.value["url"] == GetOr(d, "url", Str(""))
  {
    if !child.Object? then Err("AttributeError: get")
    else
      var data := GetOr(child.fields, "data", Object(map[]));
      if !data.Object? then Err("AttributeError: get")
      else
        var d := data.fields;
        var rid := Get(d, "id");
        if !Truthy(rid) then Ok(None)
        else match IdText(rid)
          case Err(e) => Err(e)
          case Ok(ridText) =>
            Ok(Some(map[
              "id" := Str(ComposeId(subreddit, ridText)),
              "subreddit" := Str(subreddit),
              "title" := TextOrEmpty(GetOr(d, "title", Str(""))),
              "selftext" := TextOrEmpty(GetOr(d, "selftext", Str(""))),
              "url" := GetOr(d, "url", Str(""))]))
  }

  /** The document stored for a listing entry with a string id is keyed and routed as the composite id promises. */
  lemma ItemOfStringId(subreddit: string, rid: string, data: Dict)
    requires rid != "" && "id" in data && data["id"] == Str(rid)
    ensures var r := ItemOf(subreddit, Object(map["data" := Object(data)]));
      && r.Ok? && r.value.Some?
      && r.value.value["id"] == Str(ComposeId(subreddit, rid))
      && (PartitionKey(ComposeId(subreddit, rid)) == Some(subreddit) <==> '_' !in subreddit)
  {
    var child := Object(map["data" := Object(data)]);
    assert GetOr(child.fields, "data", Object(map[])) == Object(data);
    assert Get(data, "id") == Str(rid) && Truthy(Str(rid));
    assert IdText(Str(rid)) == Ok(rid);
    var item := ItemOf(subreddit, child).value.value;
    assert item["id"] == Str(ComposeId(subreddit, rid));
    ComposeIdRoundTrip(subreddit, rid);
  }

  /** The document store as the ingestion sees it: whether the container could be opened, and which upserts succeed. */
  datatype Container = Container(ready: bool, upsert: Dict -> bool)

  /** The upserts made for a run of listing entries, and the exception that ended it, if any. */
  datatype Stored = Stored(writes: seq<Dict>, failure: Option<string>)

  /** The upsert loop: one upsert per kept entry, in listing order; the first exception ends it. */
  function StoreChildren(subreddit: string, children: seq<Value>, container: Container): (r: Stored)
    ensures |r.writes| <= |children|
  {
    if |children| == 0 then Stored([], None)
    else match ItemOf(subreddit, children[0])
      case Err(e) => Stored([], Some(e))
      case Ok(None) => StoreChildren(subreddit, children[1..], container)
      case Ok(Some(item)) =>
        if !container.upsert(item) then Stored([], Some("upsert failed"))
        else
          var rest := StoreChildren(subreddit, children[1..], container);
          Stored([item] + rest.writes, rest.failure)
  }

  /** Every stored document belongs to the requested subreddit and carries the five post fields. */
  lemma {:induction false} StoredItemsWellFormed(subreddit: string, children: seq<Value>, container: Container)
    ensures forall k :: 0 <= k < |StoreChildren(subreddit, children, container).writes| ==>
      var item := StoreChildren(subreddit, children, container).writes[k];
      HasPostFields(item) && item["subreddit"] == Str(subreddit) && Sanitize(item) == item
    decreases |children|
  {
    if |children| > 0 {
      StoredItemsWellFormed(subreddit, children[1..], container);
    }
  }

  /**
   * Entries are stored in listing order and independently: when the first
   * part of the listing is stored without failure, storing the whole listing
   * stores the first part's documents followed by the rest's.
   */
  lemma {:induction false} StoreChildrenAppend(subreddit: string, a: seq<Value>, b: seq<Value>, container: Container)
    requires StoreChildren(subreddit, a, container).failure.None?
    ensures StoreChildren(subreddit, a + b, container) ==
      Stored(StoreChildren(subreddit, a, container).writes + StoreChildren(subreddit, b, container).writes,
             StoreChildren(subreddit, b, container).failure)
    decreases |a|
  {
    if |a| == 0 {
      assert a + b == b;
    } else {
      var ab := a + b;
      assert ab[0] == a[0] && ab[1..] == a[1..] + b;
      var sb := StoreChildren(subreddit, b, container);
      match ItemOf(subreddit, a[0])
      case Err(_) => assert false;
      case Ok(None) =>
        assert StoreChildren(subreddit, a, container) == StoreChildren(subreddit, a[1..], container);
        StoreChildrenAppend(subreddit, a[1..], b, container);
      case Ok(Some(item)) =>
        if container.upsert(item) {
          var sa := StoreChildren(subreddit, a[1..], container);
          assert StoreChildren(subreddit, a, container) == Stored([item] + sa.writes, sa.failure);
          StoreChildrenAppend(subreddit, a[1..], b, container);
          Loops.AppendAssoc([item], sa.writes, sb.writes);
        }
    }
  }

  /**
   * One listing entry: an entry whose `.get` raises ends the loop with
   * nothing stored; an entry without an id is skipped; a kept entry is
   * upserted once, and a failed upsert ends the loop.
   */
  lemma StoreChildrenSingle(subreddit: string, child: Value, container: Container)
    ensures ItemOf(subreddit, child).Err? ==>
      StoreChildren(subreddit, [child], container) == Stored([], Some(ItemOf(subreddit, child).error))
    ensures ItemOf(subreddit, child) == Ok(None) ==> StoreChildren(subreddit, [child], container) == Stored([], None)
    ensures ItemOf(subreddit, child).Ok? && ItemOf(subreddit, child).value.Some? ==>
      var item := ItemOf(subreddit, child).value.value;
      StoreChildren(subreddit, [child], container) ==
        if container.upsert(item) then Stored([item], None) else Stored([], Some("upsert failed"))
  {
    assert [child][1..] == [];
  }

  /** Once an entry fails, the entries after it are not stored. */
  lemma {:induction false} StoreChildrenStops(subreddit: string, a: seq<Value>, b: seq<Value>, container: Container)
    requires StoreChildren(subreddit, a, container).failure.Some?
    ensures StoreChildren(subreddit, a + b, container) == StoreChildren(subreddit, a, container)
    decreases |a|
  {
    var ab := a + b;
    assert ab[0] == a[0] && ab[1..] == a[1..] + b;
    match ItemOf(subreddit, a[0])
    case Err(_) =>
    case Ok(None) =>
      StoreChildrenStops(subreddit, a[1..], b, container);
    case Ok(Some(item)) =>
      if container.upsert(item) {
        StoreChildrenStops(subreddit, a[1..], b, container);
      }
  }

  /** An entry whose data has no truthy id is skipped without an upsert. */
  lemma SkipWithoutId(subreddit: string, data: Dict, rest: seq<Value>, container: Container)
    requires !Truthy(Get(data, "id"))
    ensures StoreChildren(subreddit, [Object(map["data" := Object(data)])] + rest, container) ==
      StoreChildren(subreddit, rest, container)
  {
    assert ([Object(map["data" := Object(data)])] + rest)[1..] == rest;
  }

  /**
   * The listing entries of a listing response: `data.children`, where a
   * missing `data` or `children` reads as empty; a response or `data` that is
   * not an object makes `.get` raise, and `children` that is not a list is
   * refused.
   */
  function Children(listing: Value): (r: Result<seq<Value>>)
    ensures listing.Object? && "data" !in listing.fields ==> r == Ok([])
    ensures r.Ok? ==> listing.Object?
    ensures listing.Object? && GetOr(listing.fields, "data", Object(map[])).Object? ==>
      var c := GetOr(GetOr(listing.fields, "data", Object(map[])).fields, "children", List([]));
      && (c.List? ==> r == Ok(c.items))
      && (!c.List? ==> r == Err("Resposta inesperada da API do Reddit."))
  {
    if !listing.Object? then Err("AttributeError: get")
    else
      var data := GetOr(listing.fields, "data", Object(map[]));
      if !data.Object? then Err("AttributeError: get")
      else
        var children := GetOr(data.fields, "children", List([]));
        if !children.List? then Err("Resposta inesperada da API do Reddit.")
        else Ok(children.items)
  }

  /**
   * The forum as the ingestion sees it: the decoded body of the token call,
   * and the decoded listing for a subreddit, sort, limit and bearer token
   * (an `Err` is a call that raised or answered with an error status).
   */
  datatype Forum = Forum(token: Result<Value>, listing: (string, string, int, Value) -> Result<Value>)

  /**
   * The listing entries a run gets before it opens the container: the
   * token call's `access_token` (a missing one is refused), the listing
   * call, then its children.
   */
  function Listed(q: Query, forum: Forum): (r: Result<seq<Value>>)
    ensures forum.token.Err? ==> r == Err(forum.token.error)
    ensures r.Ok? ==> forum.token.Ok? && forum.token.value.Object? && Truthy(Get(forum.token.value.fields, "access_token"))
    ensures forum.token.Ok? && forum.token.value.Object? ==>
      var token := Get(forum.token.value.fields, "access_token");
      && (!Truthy(token) ==> r == Err("Não obteve access_token do Reddit."))
      && (Truthy(token) ==> r == match forum.listing(q.subreddit, q.sort, q.limit, token)
                                 case Err(e) => Err(e)
                                 case Ok(l) => Children(l))
  {
    match forum.token
    case Err(e) => Err(e)
    case Ok(tokenBody) =>
      if !tokenBody.Object? then Err("AttributeError: get")
      else
        var token := Get(tokenBody.fields, "access_token");
        if !Truthy(token) then Err("Não obteve access_token do Reddit.")
        else match forum.listing(q.subreddit, q.sort, q.limit, token)
          case Err(e) => Err(e)
          case Ok(listing) => Children(listing)
  }

  /** `_fetch_and_store`: token, listing, then the upsert loop. */
  function FetchAndStore(q: Query, forum: Forum, container: Container): (r: Stored)
    ensures forum.token.Err? ==> r == Stored([], Some(forum.token.error))
    ensures Listed(q, forum).Ok? && container.ready ==> r == StoreChildren(q.subreddit, Listed(q, forum).value, container)
    ensures !(Listed(q, forum).Ok? && container.ready) ==> r.writes == [] && r.failure.Some?
  {
    match Listed(q, forum)
    case Err(e) => Stored([], Some(e))
    case Ok(children) =>
      if !container.ready then Stored([], Some("container unavailable"))
      else StoreChildren(q.subreddit, children, container)
  }

  /** Every document a run stores is a sanitised five-field post of the requested subreddit. */
  lemma FetchAndStoreWellFormed(q: Query, forum: Forum, container: Container)
    ensures forall k :: 0 <= k < |FetchAndStore(q, forum, container).writes| ==>
      var item := FetchAndStore(q, forum, container).writes[k];
      HasPostFields(item) && item["subreddit"] == Str(q.subreddit) && Sanitize(item) == item
  {
    if forum.token.Ok? && forum.token.value.Object? {
      var token := Get(forum.token.value.fields, "access_token");
      var listing := forum.listing(q.subreddit, q.sort, q.limit, token);
      if Truthy(token) && listing.Ok? && Children(listing.value).Ok? {
        StoredItemsWellFormed(q.subreddit, Children(listing.value).value, container);
      }
    }
  }

  /** The function's entry point. */
  function Main(params: map<string, string>, env: map<string, string>, forum: Forum, container: Container): (resp: Response)
    ensures ParseQuery(params).Err? ==> resp == Reply(400, ErrorBody(ParseQuery(params).error))
    ensures ParseQuery(params).Ok? && Missing(env) != [] ==>
      resp == Reply(500, ErrorBody("Faltam estas app settings: " + Join(Missing(env), ", ")))
    ensures resp.Reply? && resp.status == 200 ==>
      var run := FetchAndStore(ParseQuery(params).value, forum, container);
      run.failure.None? && resp.body == Object(map["posts" := List(AsObjects(run.writes))])
    ensures ParseQuery(params).Ok? && Missing(env) == [] ==>
      var run := FetchAndStore(ParseQuery(params).value, forum, container);
      resp == if run.failure.None? then Reply(200, Object(map["posts" := List(AsObjects(run.writes))]))
              else Reply(500, ErrorBody(run.failure.value))
  {
    match ParseQuery(params)
    case Err(message) => Reply(400, ErrorBody(message))
    case Ok(q) =>
      var missing := Missing(env);
      if missing != [] then Reply(500, ErrorBody("Faltam estas app settings: " + Join(missing, ", ")))
      else
        var run := FetchAndStore(q, forum, container);
        match run.failure
        case Some(e) => Reply(500, ErrorBody(e))
        case None =>
          FetchAndStoreWellFormed(q, forum, container);
          assert Sanitized(run.writes) == run.writes;
          Reply(200, Object(map["posts" := List(AsObjects(Sanitized(run.writes)))]))
  }

  /** The response's sanitised copy of each stored post, in order. */
  function Sanitized(posts: seq<Dict>): (r: seq<Dict>)
    ensures |r| == |posts| && forall k :: 0 <= k < |posts| ==> r[k] == Sanitize(posts[k])
  {
    seq(|posts|, k requires 0 <= k < |posts| => Sanitize(posts[k]))
  }
}

=== FILE: json.dfy ===
/**
 * JSON documents as the services see them after `json.loads` / `resp.json()`,
 * with the Python operations applied to them: truthiness, `dict.get`, and
 * the `in` operator.
 */
module Json {
  import opened Results

  /** A decoded JSON value; `Float` carries the exact decimal it denotes. */
  datatype Value =
    | Null
    | Bool(b: bool)
    | Int(i: int)
    | Float(x: real)
    | Str(s: string)
    | List(items: seq<Value>)
    | Object(fields: map<string, Value>)

  /** A JSON object, the Python `dict` every record travels in. */
  type Dict = map<string, Value>

  /** Python truthiness: `None`, `False`, zero, and empty strings, lists and dicts are false. */
  predicate Truthy(v: Value) {
    match v
    case Null => false
    case Bool(b) => b
    case Int(i) => i != 0
    case Float(x) => x != 0.0
    case Str(s) => s != ""
    case List(xs) => xs != []
    case Object(m) => m != map[]
  }

  /** `d.get(key)`: the stored value, or `None` when the key is absent. */
  function Get(d: Dict, key: string): Value {
    if key in d then d[key] else Null
  }

  /** `d.get(key, default)`. */
  function GetOr(d: Dict, key: string, default: Value): Value {
    if key in d then d[key] else default
  }

  /** Python's `a or b` on two values. */
  function Or(a: Value, b: Value): Value {
    if Truthy(a) then a else b
  }

  /**
   * `x in v` for the one-character string `x = [c]`: a substring test on a
   * string, an element test on a list, a key test on a dict; any other
   * operand raises `TypeError`.
   */
  function Contains(v: Value, c: char): (r: Result<bool>)
    ensures v.Str? ==> r == Ok(c in v.s)
    ensures r.Err? <==> !(v.Str? || v.List? || v.Object?)
    ensures v.List? ==> r == Ok(exists k :: 0 <= k < |v.items| && v.items[k] == Str([c]))
    ensures v.Object? ==> r == Ok([c] in v.fields)
  {
    match v
    case Str(s) => Ok(c in s)
    case List(xs) => Ok(Str([c]) in xs)
    case Object(m) => Ok([c] in m)
    case _ => Err("TypeError: argument is not iterable")
  }
}

=== FILE: loops.dfy ===
/**
 * The loop shape the services repeat: walk a list in order, let each item
 * contribute zero or more results, and stop at the first exception.
 */
module Loops {
  import opened Results

  /** Each item's results, concatenated in item order; the first failing item's error otherwise. */
  function FlatMap<X, Y>(xs: seq<X>, step: X -> Result<seq<Y>>): (r: Result<seq<Y>>)
    ensures |xs| == 0 ==> r == Ok([])
  {
    if |xs| == 0 then Ok([])
    else match step(xs[0])
      case Err(e) => Err(e)
      case Ok(first) =>
        match FlatMap(xs[1..], step)
        case Err(e) => Err(e)
        case Ok(rest) => Ok(first + rest)
  }

  /** Items are handled independently and in order: the run over `a + b` is the run over `a` followed by the run over `b`. */
  lemma {:induction false} FlatMapAppend<X, Y>(a: seq<X>, b: seq<X>, step: X -> Result<seq<Y>>)
    requires FlatMap(a, step).Ok? && FlatMap(b, step).Ok?
    ensures FlatMap(a + b, step) == Ok(FlatMap(a, step).value + FlatMap(b, step).value)
    decreases |a|
  {
    if |a| == 0 {
      assert a + b == b;
      assert FlatMap(a, step).value + FlatMap(b, step).value == FlatMap(b, step).value;
    } else {
      var ab := a + b;
      assert ab[0] == a[0] && ab[1..] == a[1..] + b;
      FlatMapAppend(a[1..], b, step);
      var first := step(a[0]).value;
      var ra := FlatMap(a[1..], step).value;
      var rb := FlatMap(b, step).value;
      assert first + ra + rb == first + (ra + rb);
    }
  }

  /** A run over one item is that item's step. */
  lemma FlatMapSingle<X, Y>(x: X, step: X -> Result<seq<Y>>)
    ensures FlatMap([x], step) == step(x)
  {
    assert [x][1..] == [];
    if step(x).Ok? {
      assert step(x).value + [] == step(x).value;
    }
  }

  /** Every result of a run satisfies what every step's results satisfy. */
  lemma {:induction false} FlatMapPreserves<X, Y>(xs: seq<X>, step: X -> Result<seq<Y>>, p: Y -> bool)
    requires forall x :: step(x).Ok? ==> forall k :: 0 <= k < |step(x).value| ==> p(step(x).value[k])
    requires FlatMap(xs, step).Ok?
    ensures forall k :: 0 <= k < |FlatMap(xs, step).value| ==> p(FlatMap(xs, step).value[k])
    decreases |xs|
  {
    if |xs| > 0 {
      FlatMapPreserves(xs[1..], step, p);
      var first := step(xs[0]).value;
      var rest := FlatMap(xs[1..], step).value;
      forall k | 0 <= k < |first + rest| ensures p((first + rest)[k]) {
        if k >= |first| { assert (first + rest)[k] == rest[k - |first|]; }
      }
    }
  }

  /** A run yields no more results than its items when each step yields at most one. */
  lemma {:induction false} FlatMapLength<X, Y>(xs: seq<X>, step: X -> Result<seq<Y>>)
    requires forall x :: step(x).Ok? ==> |step(x).value| <= 1
    requires FlatMap(xs, step).Ok?
    ensures |FlatMap(xs, step).value| <= |xs|
    decreases |xs|
  {
    if |xs| > 0 {
      FlatMapLength(xs[1..], step);
    }
  }

  /** Each item's one result, in item order; the first failing item's error otherwise. */
  function MapAll<X, Y>(xs: seq<X>, f: X -> Result<Y>): (r: Result<seq<Y>>)
    ensures r.Ok? ==> |r.value| == |xs|
    decreases |xs|
  {
    if |xs| == 0 then Ok([])
    else match MapAll(xs[..|xs| - 1], f)
      case Err(e) => Err(e)
      case Ok(rest) =>
        match f(xs[|xs| - 1])
        case Err(e) => Err(e)
        case Ok(y) => Ok(rest + [y])
  }

  /** Each result of a successful run is its own item's result. */
  lemma {:induction false} MapAllAt<X, Y>(xs: seq<X>, f: X -> Result<Y>, k: nat)
    requires k < |xs| && MapAll(xs, f).Ok?
    ensures f(xs[k]) == Ok(MapAll(xs, f).value[k])
    decreases |xs|
  {
    var n := |xs| - 1;
    if k < n {
      assert xs[..n][k] == xs[k];
      MapAllAt(xs[..n], f, k);
    }
  }

  /** A run that fails on a prefix fails with the same error on the whole list. */
  lemma {:induction false} MapAllErrPrefix<X, Y>(xs: seq<X>, f: X -> Result<Y>, i: nat)
    requires i <= |xs| && MapAll(xs[..i], f).Err?
    ensures MapAll(xs, f) == MapAll(xs[..i], f)
    decreases |xs| - i
  {
    if i < |xs| {
      assert xs[..i + 1][..i] == xs[..i];
      MapAllErrPrefix(xs, f, i + 1);
    } else {
      assert xs[..i] == xs;
    }
  }

  /** Concatenation is associative; proofs that regroup appended results cite it. */
  lemma AppendAssoc<T>(a: seq<T>, b: seq<T>, c: seq<T>)
    ensures (a + b) + c == a + (b + c)
  {
  }
}

=== FILE: ordering.dfy ===
/**
 * The file listing's order: `sorted(names, key=key, reverse=True)`. Python
 * compares strings by code point, and its sort is stable even when
 * reversed, so names with equal keys keep their listing order. The
 * listing's key is the name's stamp, `""` for a name without one, so
 * unstamped names come last.
 */
module Ordering {
  import opened Blobs
  import Loops

  /** Python's `a < b` on strings: lexicographic by code point, a proper prefix first. */
  predicate Below(a: string, b: string) {
    if |a| == 0 then |b| > 0
    else if |b| == 0 then false
    else if a[0] == b[0] then Below(a[1..], b[1..])
    else a[0] < b[0]
  }

  lemma {:induction false} BelowIrreflexive(a: string)
    ensures !Below(a, a)
    decreases |a|
  {
    if |a| > 0 {
      BelowIrreflexive(a[1..]);
    }
  }

  lemma {:induction false} BelowTransitive(a: string, b: string, c: string)
    ensures Below(a, b) && Below(b, c) ==> Below(a, c)
    decreases |a|
  {
    if |a| > 0 && |b| > 0 && |c| > 0 && a[0] == b[0] && b[0] == c[0] {
      BelowTransitive(a[1..], b[1..], c[1..]);
    }
  }

  /** The empty string is below every other string and above none. */
  lemma EmptyIsLeast(a: string)
    ensures a != "" ==> Below("", a)
    ensures !Below(a, "")
  {
  }

  lemma DropLastSplit(names: seq<string>)
    requires |names| > 0
    ensures names[..|names| - 1] + [names[|names| - 1]] == names
  {
  }

  /** No name is followed by one with a larger key. */
  predicate Descending(names: seq<string>, key: string -> string) {
    forall i, j :: 0 <= i < j < |names| ==> !Below(key(names[i]), key(names[j]))
  }

  /** The names whose key is `k`, in order. */
  function WithKey(names: seq<string>, key: string -> string, k: string): seq<string> {
    if |names| == 0 then []
    else (if key(names[0]) == k then [names[0]] else []) + WithKey(names[1..], key, k)
  }

  /**
   * Inserting the next name into a list already sorted: it goes before the
   * first name with a smaller key, so after the names it ties with.
   */
  function Insert(name: string, sorted: seq<string>, key: string -> string): (r: seq<string>)
    ensures |r| == |sorted| + 1
  {
    if |sorted| == 0 then [name]
    else if Below(key(sorted[0]), key(name)) then [name] + sorted
    else [sorted[0]] + Insert(name, sorted[1..], key)
  }

  /** Inserting adds the name and loses none. */
  lemma {:induction false} InsertPermutes(name: string, sorted: seq<string>, key: string -> string)
    ensures multiset(Insert(name, sorted, key)) == multiset(sorted) + multiset{name}
    decreases |sorted|
  {
    if |sorted| > 0 && !Below(key(sorted[0]), key(name)) {
      InsertPermutes(name, sorted[1..], key);
      assert sorted == [sorted[0]] + sorted[1..];
    }
  }

  /** `sorted(names, key=key, reverse=True)`, as a stable insertion sort. */
  function SortDescending(names: seq<string>, key: string -> string): (r: seq<string>)
    ensures |r| == |names|
  {
    if |names| == 0 then []
    else Insert(names[|names| - 1], SortDescending(names[..|names| - 1], key), key)
  }

  /** The sort is a permutation of its input. */
  lemma {:induction false} SortDescendingPermutes(names: seq<string>, key: string -> string)
    ensures multiset(SortDescending(names, key)) == multiset(names)
    decreases |names|
  {
    if |names| > 0 {
      var n := |names| - 1;
      SortDescendingPermutes(names[..n], key);
      InsertPermutes(names[n], SortDescending(names[..n], key), key);
      DropLastSplit(names);
    }
  }

  lemma DescendingTail(names: seq<string>, key: string -> string)
    requires |names| > 0 && Descending(names, key)
    ensures Descending(names[1..], key)
  {
    var tail := names[1..];
    forall i, j | 0 <= i < j < |tail| ensures !Below(key(tail[i]), key(tail[j])) {
      assert tail[i] == names[i + 1] && tail[j] == names[j + 1];
    }
  }

  /** Inserting into a sorted list keeps it sorted. */
  lemma {:induction false} InsertDescending(name: string, sorted: seq<string>, key: string -> string)
    requires Descending(sorted, key)
    ensures Descending(Insert(name, sorted, key), key)
    decreases |sorted|
  {
    var r := Insert(name, sorted, key);
    if |sorted| == 0 {
    } else if Below(key(sorted[0]), key(name)) {
      assert r == [name] + sorted;
      forall i, j | 0 <= i < j < |r| ensures !Below(key(r[i]), key(r[j])) {
        var x := sorted[j - 1];
        assert r[j] == x;
        if i == 0 {
          BelowTransitive(key(sorted[0]), key(name), key(x));
          BelowIrreflexive(key(sorted[0]));
        } else {
          assert r[i] == sorted[i - 1];
        }
      }
    } else {
      var tail := sorted[1..];
      DescendingTail(sorted, key);
      InsertDescending(name, tail, key);
      var rest := Insert(name, tail, key);
      InsertPermutes(name, tail, key);
      assert r == [sorted[0]] + rest;
      forall i, j | 0 <= i < j < |r| ensures !Below(key(r[i]), key(r[j])) {
        var y := rest[j - 1];
        assert r[j] == y;
        if i == 0 {
          assert y in multiset(rest);
          if y != name {
            assert y in multiset(tail);
            var q :| 0 <= q < |tail| && tail[q] == y;
            assert sorted[q + 1] == y;
          }
        } else {
          assert r[i] == rest[i - 1];
        }
      }
    }
  }

  /** The listing comes out newest first. */
  lemma {:induction false} SortDescendingSorted(names: seq<string>, key: string -> string)
    ensures Descending(SortDescending(names, key), key)
    decreases |names|
  {
    if |names| > 0 {
      SortDescendingSorted(names[..|names| - 1], key);
      InsertDescending(names[|names| - 1], SortDescending(names[..|names| - 1], key), key);
    }
  }

  lemma {:induction false} WithKeyAppend(a: seq<string>, b: seq<string>, key: string -> string, k: string)
    ensures WithKey(a + b, key, k) == WithKey(a, key, k) + WithKey(b, key, k)
    decreases |a|
  {
    if |a| == 0 {
      assert a + b == b;
    } else {
      assert (a + b)[0] == a[0] && (a + b)[1..] == a[1..] + b;
      WithKeyAppend(a[1..], b, key, k);
    }
  }

  lemma {:induction false} WithKeyNone(names: seq<string>, key: string -> string, k: string)
    requires forall i :: 0 <= i < |names| ==> key(names[i]) != k
    ensures WithKey(names, key, k) == []
    decreases |names|
  {
    if |names| > 0 {
      WithKeyNone(names[1..], key, k);
    }
  }

  /** A sorted list has no name whose key is above its first name's key. */
  lemma NoneAboveHead(sorted: seq<string>, key: string -> string, k: string)
    requires |sorted| > 0 && Descending(sorted, key) && Below(key(sorted[0]), k)
    ensures WithKey(sorted, key, k) == []
  {
    forall i | 0 <= i < |sorted| ensures key(sorted[i]) != k {
      BelowIrreflexive(key(sorted[0]));
    }
    WithKeyNone(sorted, key, k);
  }

  /** The names with key `k` in a non-empty list: its head's share, then its tail's. */
  lemma WithKeyCons(x: string, rest: seq<string>, key: string -> string, k: string)
    ensures WithKey([x] + rest, key, k) == (if key(x) == k then [x] else []) + WithKey(rest, key, k)
  {
    assert ([x] + rest)[0] == x && ([x] + rest)[1..] == rest;
  }

  /** The inserted name lands after every name with its key. */
  lemma {:induction false} InsertWithKey(name: string, sorted: seq<string>, key: string -> string, k: string)
    requires Descending(sorted, key)
    ensures WithKey(Insert(name, sorted, key), key, k) == WithKey(sorted, key, k) + (if key(name) == k then [name] else [])
    decreases |sorted|
  {
    var r := Insert(name, sorted, key);
    var mine: seq<string> := if key(name) == k then [name] else [];
    if |sorted| == 0 {
      assert r == [name] + [];
      WithKeyCons(name, [], key, k);
      assert WithKey(r, key, k) == mine + [];
    } else if Below(key(sorted[0]), key(name)) {
      assert r == [name] + sorted;
      WithKeyCons(name, sorted, key, k);
      if key(name) == k {
        NoneAboveHead(sorted, key, k);
        assert WithKey(r, key, k) == mine + [];
      } else {
        assert WithKey(r, key, k) == [] + WithKey(sorted, key, k);
      }
    } else {
      var tail := sorted[1..];
      var rest := Insert(name, tail, key);
      var head: seq<string> := if key(sorted[0]) == k then [sorted[0]] else [];
      assert r == [sorted[0]] + rest;
      assert sorted == [sorted[0]] + tail;
      DescendingTail(sorted, key);
      InsertWithKey(name, tail, key, k);
      WithKeyCons(sorted[0], rest, key, k);
      WithKeyCons(sorted[0], tail, key, k);
      Loops.AppendAssoc(head, WithKey(tail, key, k), mine);
    }
  }

  /**
   * The sort is stable: for every key, the names with that key appear in
   * the output in the order they appear in the input.
   */
  lemma {:induction false} SortDescendingStable(names: seq<string>, key: string -> string, k: string)
    ensures WithKey(SortDescending(names, key), key, k) == WithKey(names, key, k)
    decreases |names|
  {
    if |names| > 0 {
      var n := |names| - 1;
      var last := names[n];
      var sorted := SortDescending(names[..n], key);
      var tail := if key(last) == k then [last] else [];
      SortDescendingStable(names[..n], key, k);
      SortDescendingSorted(names[..n], key);
      assert SortDescending(names, key) == Insert(last, sorted, key);
      InsertWithKey(last, sorted, key, k);
      assert WithKey(SortDescending(names, key), key, k) == WithKey(names[..n], key, k) + tail;
      assert [last][1..] == [];
      assert WithKey([last], key, k) == tail;
      WithKeyAppend(names[..n], [last], key, k);
      DropLastSplit(names);
    }
  }

  /** The listing: blob names, newest stamp first. */
  function ListingOrder(names: seq<string>): (r: seq<string>)
    ensures multiset(r) == multiset(names)
  {
    SortDescendingPermutes(names, ExtractStamp);
    SortDescending(names, ExtractStamp)
  }

  /**
   * The listing is a stable, newest-first permutation of the names, and
   * once a name without a stamp appears, every later name lacks one too.
   */
  lemma ListingOrderSpec(names: seq<string>)
    ensures Descending(ListingOrder(names), ExtractStamp)
    ensures forall k :: WithKey(ListingOrder(names), ExtractStamp, k) == WithKey(names, ExtractStamp, k)
    ensures forall i, j :: 0 <= i < j < |ListingOrder(names)| && ExtractStamp(ListingOrder(names)[i]) == "" ==>
      ExtractStamp(ListingOrder(names)[j]) == ""
  {
    var r := ListingOrder(names);
    SortDescendingSorted(names, ExtractStamp);
    forall k ensures WithKey(r, ExtractStamp, k) == WithKey(names, ExtractStamp, k) {
      SortDescendingStable(names, ExtractStamp, k);
    }
    forall i, j | 0 <= i < j < |r| && ExtractStamp(r[i]) == "" ensures ExtractStamp(r[j]) == "" {
      EmptyIsLeast(ExtractStamp(r[j]));
    }
  }
}

=== FILE: posts.dfy ===
/** The five-field post record the ingestion and reading functions return. */
module Posts {
  import opened Json

  /** The fields of a returned post. */
  const PostFields: set<string> := {"id", "subreddit", "title", "selftext", "url"}

  /** A record with exactly the five post fields. */
  predicate HasPostFields(post: Dict) {
    post.Keys == PostFields
  }

  /** The sanitised copy of a record: exactly the five post fields, `None` where the record lacks one. */
  function Sanitize(doc: Dict): (post: Dict)
    ensures HasPostFields(post)
    ensures forall f :: f in PostFields ==> post[f] == Get(doc, f)
  {
    map["id" := Get(doc, "id"), "subreddit" := Get(doc, "subreddit"), "title" := Get(doc, "title"),
        "selftext" := Get(doc, "selftext"), "url" := Get(doc, "url")]
  }

  /** Sanitising a record that already has exactly the five fields changes nothing. */
  lemma SanitizeOfPost(doc: Dict)
    requires HasPostFields(doc)
    ensures Sanitize(doc) == doc
  {
  }

  /** The JSON list of a sequence of records. */
  function AsObjects(posts: seq<Dict>): (v: seq<Value>)
    ensures |v| == |posts| && forall k :: 0 <= k < |posts| ==> v[k] == Object(posts[k])
  {
    seq(|posts|, k requires 0 <= k < |posts| => Object(posts[k]))
  }
}

=== FILE: report.dfy ===
/**
 * The report function: it validates the requested post ids, reads the
 * posts through the post-reading function, uploads them as a CSV blob
 * named after the current time, and answers with the blob's URL. The chart
 * section that follows the upload can only fail, and its failure is
 * swallowed.
 */
module Report {
  import opened Results
  import opened Text
  import opened Json
  import opened Http
  import opened Loops
  import opened Blobs
  import Ingest
  import Frontend

  /**
   * The request as the function sees it: the decoded JSON body, or `None`
   * when the body is not valid JSON.
   */
  datatype Request = Request(body: Option<Value>)

  /**
   * The services the function talks to: the post-reading function (given
   * the comma-joined ids, its decoded answer or the error raised) and the
   * blob upload (given the blob URL, the error raised, if any).
   */
  datatype Services = Services(readPosts: string -> Result<Value>, upload: string -> Option<string>)

  const BadJson := "JSON inválido no body"
  const BadPostIds := "Campo 'post_ids' ausente ou não é lista não-vazia"
  const NoReader := "GET_POSTS_FUNCTION_URL não configurado nas configurações da Function"
  const NoSas := "CONTAINER_ENDPOINT_SAS não configurado"

  /** A plain-text reply. */
  function Plain(status: int, message: string): Response {
    Reply(status, Str(message))
  }

  /** `",".join(post_ids)`: every id must be a string. */
  function JoinIds(ids: seq<Value>): (r: Result<string>)
    ensures r.Ok? <==> forall k :: 0 <= k < |ids| ==> ids[k].Str?
  {
    if forall k :: 0 <= k < |ids| ==> ids[k].Str? then
      Ok(Join(seq(|ids|, k requires 0 <= k < |ids| => ids[k].s), ","))
    else Err("TypeError: sequence item: expected str instance")
  }

  /** Joining string ids gives the comma-separated list of their texts. */
  lemma JoinStringIds(ids: seq<string>)
    ensures JoinIds(seq(|ids|, k requires 0 <= k < |ids| => Str(ids[k]))) == Ok(Join(ids, ","))
  {
    var vs := seq(|ids|, k requires 0 <= k < |ids| => Str(ids[k]));
    assert seq(|vs|, k requires 0 <= k < |vs| => vs[k].s) == ids;
  }

  /** One post's contribution to the confidence list: a number's value; a post that is not an object raises. */
  function ConfidenceOf(post: Value): (r: Result<seq<real>>)
    ensures r.Ok? <==> post.Object?
    ensures r.Ok? ==> |r.value| <= 1
    ensures r.Ok? && r.value != [] ==> var p := Get(post.fields, "probabilidade"); p.Int? || p.Float? || p.Bool?
  {
    if !post.Object? then Err("AttributeError: get")
    else match Get(post.fields, "probabilidade")
      case Int(i) => Ok([i as real])
      case Float(x) => Ok([x])
      case Bool(b) => Ok([if b then 1.0 else 0.0])
      case _ => Ok([])
  }

  /**
   * `probabilidade` of each post that has a numeric one (a Python `bool`
   * counts), as a float, in post order.
   */
  function Confidences(posts: seq<Value>): Result<seq<real>> {
    FlatMap(posts, ConfidenceOf)
  }

  /** Confidences of a concatenation are the confidences of each part, in order. */
  lemma ConfidencesAppend(a: seq<Value>, b: seq<Value>)
    requires Confidences(a).Ok? && Confidences(b).Ok?
    ensures Confidences(a + b) == Ok(Confidences(a).value + Confidences(b).value)
  {
    FlatMapAppend(a, b, ConfidenceOf);
  }

  /** A post's numeric score is kept; a score of any other kind is dropped. */
  lemma ConfidencesSingle(post: Dict)
    ensures Get(post, "probabilidade").Int? ==> Confidences([Object(post)]) == Ok([Get(post, "probabilidade").i as real])
    ensures Get(post, "probabilidade").Float? ==> Confidences([Object(post)]) == Ok([Get(post, "probabilidade").x])
    ensures Get(post, "probabilidade").Str? || Get(post, "probabilidade").Null? ==> Confidences([Object(post)]) == Ok([])
  {
    FlatMapSingle(Object(post), ConfidenceOf);
  }

  /** `post.get('selftext') or post.get('title') or ""`, kept when truthy. */
  function TextOf(post: Value): (r: Result<seq<Value>>)
    ensures r.Ok? <==> post.Object?
    ensures r.Ok? && Truthy(Get(post.fields, "selftext")) ==> r.value == [Get(post.fields, "selftext")]
    ensures r.Ok? && !Truthy(Get(post.fields, "selftext")) && Truthy(Get(post.fields, "title")) ==> r.value == [Get(post.fields, "title")]
    ensures r.Ok? && !Truthy(Get(post.fields, "selftext")) && !Truthy(Get(post.fields, "title")) ==> r.value == []
  {
    if !post.Object? then Err("AttributeError: get")
    else
      var txt := Or(Or(Get(post.fields, "selftext"), Get(post.fields, "title")), Str(""));
      Ok(if Truthy(txt) then [txt] else [])
  }

  /** The texts the word cloud would be drawn from, in post order. */
  function Texts(posts: seq<Value>): Result<seq<Value>> {
    FlatMap(posts, TextOf)
  }

  /** Every text kept is non-empty, and there are no more texts than posts. */
  lemma TextsNonEmpty(posts: seq<Value>)
    requires Texts(posts).Ok?
    ensures |Texts(posts).value| <= |posts|
    ensures forall k :: 0 <= k < |Texts(posts).value| ==> Truthy(Texts(posts).value[k])
  {
    FlatMapLength(posts, TextOf);
    FlatMapPreserves(posts, TextOf, Truthy);
  }

  /**
   * The chart section. Drawing the confidence chart needs `np`, and the
   * word cloud's word split needs `re`; the function imports neither, so
   * whichever is reached first raises `NameError`. The section therefore
   * never adds a URL.
   */
  function Charts(posts: seq<Value>): (r: Result<map<string, Value>>)
    ensures r.Err?
  {
    match Confidences(posts)
    case Err(e) => Err(e)
    case Ok(confidences) =>
      if |confidences| > 1 then Err("NameError: name 'np' is not defined")
      else match Texts(posts)
        case Err(e) => Err(e)
        case Ok(texts) =>
          if forall k :: 0 <= k < |texts| ==> texts[k].Str? then Err("NameError: name 're' is not defined")
          else Err("TypeError: sequence item: expected str instance")
  }

  /** The success document: only the CSV's URL is reported. */
  function Success(csvUrl: string): Value {
    Object(map["status" := Str("success"), "uploaded" := Object(map["csv_blob_url" := Str(csvUrl)])])
  }

  /**
   * The function's handler. `stamp` is the `YYYYMMDD_HHMMSS` time the blob is
   * named after.
   */
  function Main(req: Request, env: map<string, string>, services: Services, stamp: string): (resp: Response)
    ensures req.body.None? ==> resp == Plain(400, BadJson)
    ensures req.body.Some? && !req.body.value.Object? ==> resp.Unhandled?
    ensures req.body.Some? && req.body.value.Object? ==>
      var ids := Get(req.body.value.fields, "post_ids");
      !(ids.List? && ids.items != []) ==> resp == Plain(400, BadPostIds)
    ensures resp.Reply? && resp.status == 200 ==>
      && req.body.Some? && req.body.value.Object?
      && var ids := Get(req.body.value.fields, "post_ids");
      && ids.List? && JoinIds(ids.items).Ok? && services.readPosts(JoinIds(ids.items).value).Ok?
      && SplitSas(Ingest.Setting(env, "CONTAINER_ENDPOINT_SAS")).Ok?
      && services.upload(BlobUrl(SplitSas(Ingest.Setting(env, "CONTAINER_ENDPOINT_SAS")).value, ReportName(stamp))).None?
      && resp.body == Success(BlobUrl(SplitSas(Ingest.Setting(env, "CONTAINER_ENDPOINT_SAS")).value, ReportName(stamp)))
  {
    match req.body
    case None => Plain(400, BadJson)
    case Some(body) =>
      if !body.Object? then Unhandled("AttributeError: get")
      else
        var ids := Get(body.fields, "post_ids");
        if !(ids.List? && ids.items != []) then Plain(400, BadPostIds)
        else
          var url := Ingest.Setting(env, "GET_POSTS_FUNCTION_URL");
          if url == "" then Plain(500, NoReader)
          else
            var fetched := match JoinIds(ids.items)
              case Err(e) => Err(e)
              case Ok(joined) => services.readPosts(joined);
            match fetched
            case Err(e) => Plain(500, "Erro ao buscar posts: " + e)
            case Ok(data) =>
              var posts := Frontend.NormalisePosts(data);
              var sasSetting := Ingest.Setting(env, "CONTAINER_ENDPOINT_SAS");
              if sasSetting == "" then Plain(500, NoSas)
              else match SplitSas(sasSetting)
                case Err(e) => Plain(500, "Erro na configuração de Blob SAS: " + e)
                case Ok(sas) =>
                  var csvUrl := BlobUrl(sas, ReportName(stamp));
                  match services.upload(csvUrl)
                  case Some(e) => Plain(500, "Erro ao enviar CSV ao Blob: " + e)
                  case None =>
                    var _ := Charts(posts);
                    Reply(200, Success(csvUrl))
  }

  /** Invalid `post_ids` are rejected before any setting is read or service called. */
  lemma BadPostIdsCallNothing(body: Dict, env1: map<string, string>, env2: map<string, string>,
                              s1: Services, s2: Services, stamp1: string, stamp2: string)
    requires var ids := Get(body, "post_ids"); !(ids.List? && ids.items != [])
    ensures Main(Request(Some(Object(body))), env1, s1, stamp1) == Main(Request(Some(Object(body))), env2, s2, stamp2)
  {
  }

  /**
   * Once the posts are read and the CSV is uploaded, the report succeeds
   * with the CSV's URL, whatever the posts are: the chart section's failure
   * is swallowed.
   */
  lemma UploadedCsvIsReported(body: Dict, joined: string, env: map<string, string>, services: Services, stamp: string, sas: Sas)
    requires var ids := Get(body, "post_ids"); ids.List? && ids.items != [] && JoinIds(ids.items) == Ok(joined)
    requires Ingest.Setting(env, "GET_POSTS_FUNCTION_URL") != ""
    requires services.readPosts(joined).Ok?
    requires Ingest.Setting(env, "CONTAINER_ENDPOINT_SAS") == sas.base + "?" + sas.token && '?' !in sas.base
    requires services.upload(BlobUrl(sas, ReportName(stamp))).None?
    ensures Main(Request(Some(Object(body))), env, services, stamp) == Reply(200, Success(BlobUrl(sas, ReportName(stamp))))
  {
    SplitSasRoundTrip(sas.base, sas.token);
  }

  /** An answer with no posts still produces a report. */
  lemma NoPostsStillReported(body: Dict, joined: string, env: map<string, string>, services: Services, stamp: string, sas: Sas)
    requires var ids := Get(body, "post_ids"); ids.List? && ids.items != [] && JoinIds(ids.items) == Ok(joined)
    requires Ingest.Setting(env, "GET_POSTS_FUNCTION_URL") != ""
    requires services.readPosts(joined) == Ok(List([]))
    requires Ingest.Setting(env, "CONTAINER_ENDPOINT_SAS") == sas.base + "?" + sas.token && '?' !in sas.base
    requires services.upload(BlobUrl(sas, ReportName(stamp))).None?
    ensures Main(Request(Some(Object(body))), env, services, stamp) == Reply(200, Success(BlobUrl(sas, ReportName(stamp))))
  {
    UploadedCsvIsReported(body, joined, env, services, stamp, sas);
  }

  /** A failed read of the posts is a server error carrying the reader's message; nothing is uploaded. */
  lemma ReadFailureReported(body: Dict, joined: string, env: map<string, string>, services: Services, stamp: string)
    requires var ids := Get(body, "post_ids"); ids.List? && ids.items != [] && JoinIds(ids.items) == Ok(joined)
    requires Ingest.Setting(env, "GET_POSTS_FUNCTION_URL") != ""
    requires services.readPosts(joined).Err?
    ensures Main(Request(Some(Object(body))), env, services, stamp) == Plain(500, "Erro ao buscar posts: " + services.readPosts(joined).error)
  {
  }

  /** A failed CSV upload is a server error carrying the upload's message. */
  lemma UploadFailureReported(body: Dict, joined: string, env: map<string, string>, services: Services, stamp: string, sas: Sas)
    requires var ids := Get(body, "post_ids"); ids.List? && ids.items != [] && JoinIds(ids.items) == Ok(joined)
    requires Ingest.Setting(env, "GET_POSTS_FUNCTION_URL") != ""
    requires services.readPosts(joined).Ok?
    requires Ingest.Setting(env, "CONTAINER_ENDPOINT_SAS") == sas.base + "?" + sas.token && '?' !in sas.base
    requires services.upload(BlobUrl(sas, ReportName(stamp))).Some?
    ensures Main(Request(Some(Object(body))), env, services, stamp) ==
      Plain(500, "Erro ao enviar CSV ao Blob: " + services.upload(BlobUrl(sas, ReportName(stamp))).value)
  {
    SplitSasRoundTrip(sas.base, sas.token);
  }

  /** An unset post-reading function URL is a server error, reported before any post is read. */
  lemma UnsetReaderIs500(body: Dict, env: map<string, string>, services: Services, stamp: string)
    requires var ids := Get(body, "post_ids"); ids.List? && ids.items != []
    requires Ingest.Setting(env, "GET_POSTS_FUNCTION_URL") == ""
    ensures Main(Request(Some(Object(body))), env, services, stamp) == Plain(500, NoReader)
  {
  }

  /**
   * Ids that are not all strings make the join raise inside the read's
   * `try`, which answers a server error carrying the join's message.
   */
  lemma NonStringIdsAre500(body: Dict, env: map<string, string>, services: Services, stamp: string)
    requires var ids := Get(body, "post_ids"); ids.List? && ids.items != []
    requires Ingest.Setting(env, "GET_POSTS_FUNCTION_URL") != ""
    requires exists k :: 0 <= k < |Get(body, "post_ids").items| && !Get(body, "post_ids").items[k].Str?
    ensures Main(Request(Some(Object(body))), env, services, stamp) ==
      Plain(500, "Erro ao buscar posts: " + JoinIds(Get(body, "post_ids").items).error)
  {
  }

  /** An unset SAS setting is a server error, reported after the read and before any upload. */
  lemma UnsetSasIs500(body: Dict, env: map<string, string>, services: Services, stamp: string)
    requires var ids := Get(body, "post_ids"); ids.List? && ids.items != []
    requires Ingest.Setting(env, "GET_POSTS_FUNCTION_URL") != ""
    requires JoinIds(Get(body, "post_ids").items).Ok?
    requires services.readPosts(JoinIds(Get(body, "post_ids").items).value).Ok?
    requires Ingest.Setting(env, "CONTAINER_ENDPOINT_SAS") == ""
    ensures Main(Request(Some(Object(body))), env, services, stamp) == Plain(500, NoSas)
  {
  }

  /** A configured SAS URL without a token is a server error, reported before any upload. */
  lemma TokenlessSasFails(body: Dict, env: map<string, string>, services: Services, stamp: string)
    requires var ids := Get(body, "post_ids"); ids.List? && ids.items != []
    requires Ingest.Setting(env, "GET_POSTS_FUNCTION_URL") != ""
    requires JoinIds(Get(body, "post_ids").items).Ok?
    requires services.readPosts(JoinIds(Get(body, "post_ids").items).value).Ok?
    requires Ingest.Setting(env, "CONTAINER_ENDPOINT_SAS") != "" && '?' !in Ingest.Setting(env, "CONTAINER_ENDPOINT_SAS")
    ensures Main(Request(Some(Object(body))), env, services, stamp) == Plain(500, "Erro na configuração de Blob SAS: " + MalformedSas)
  {
  }
}

=== FILE: results.dfy ===
/** Failure-carrying values shared by every module of the model. */
module Results {

  /** An optional value: Python's `None` versus a present value. */
  datatype Option<+T> = None | Some(value: T)

  /** The outcome of a step that may raise: `Err` carries the exception's description. */
  datatype Result<+T> = Ok(value: T) | Err(error: string)
}

=== FILE: sentiment.dfy ===
/**
 * The sentiment pass of the web front end's analysis view: pick a snippet
 * per post, mark posts without text as `Unknown`, classify the others in
 * batches of sixteen (a batch whose call raises is marked `Unknown`), and
 * collect each result's percentage into a negative, neutral or positive
 * series.
 */
module Sentiment {
  import opened Results
  import opened Text
  import opened Json
  import opened Loops

  /** A post as the view holds it: a JSON object. */
  type Post = Dict

  /** The longest snippet handed to the classifier. */
  const MaxSnippet: nat := 512

  /** How many texts go to the classifier in one call. */
  const BatchSize: nat := 16

  /** One classifier result: its label (`name`) and its score as an integer percentage. */
  datatype Verdict = Verdict(name: string, percent: int)

  /**
   * The sentiment classifier: the results for a batch of texts, or `None`
   * when the call raises.
   */
  type Classifier = seq<string> -> Option<seq<Verdict>>

  /** What a post gets when its batch fails or it has no text: label `Unknown`, score 0. */
  const UnknownVerdict: Verdict := Verdict("Unknown", 0)

  /** `post.get(key, '')` as a string; anything else makes `.strip()` raise. */
  function FieldText(post: Post, key: string): Result<string> {
    match GetOr(post, key, Str(""))
    case Str(s) => Ok(s)
    case _ => Err("AttributeError: strip")
  }

  /** The first `n` characters of `s` (Python's `s[:n]`). */
  function Truncate(s: string, n: nat): (r: string)
    ensures |r| <= n && r <= s
    ensures |s| <= n ==> r == s
    ensures |s| > n ==> |r| == n
  {
    if |s| <= n then s else s[..n]
  }

  /**
   * The text a post is classified by: its stripped self-text when that is
   * not empty, else its stripped title, cut to `MaxSnippet` characters. The
   * title is read only when the self-text is empty.
   */
  function Snippet(post: Post): (r: Result<string>)
    ensures r.Ok? ==> |r.value| <= MaxSnippet
  {
    match FieldText(post, "selftext")
    case Err(e) => Err(e)
    case Ok(selftext) =>
      var s := Strip(selftext);
      if s != "" then Ok(Truncate(s, MaxSnippet))
      else match FieldText(post, "title")
        case Err(e) => Err(e)
        case Ok(title) => Ok(Truncate(Strip(title), MaxSnippet))
  }

  /** A post with a non-blank self-text is classified by the start of it. */
  lemma SnippetFromSelftext(post: Post)
    requires FieldText(post, "selftext").Ok? && Strip(FieldText(post, "selftext").value) != ""
    ensures Snippet(post).Ok? && Snippet(post).value != ""
    ensures Snippet(post).value <= Strip(FieldText(post, "selftext").value)
    ensures Snippet(post) == Ok(Truncate(Strip(FieldText(post, "selftext").value), MaxSnippet))
  {
  }

  /** A post with a blank self-text is classified by the start of its title, and has no text when that is blank too. */
  lemma SnippetFromTitle(post: Post)
    requires FieldText(post, "selftext").Ok? && Strip(FieldText(post, "selftext").value) == ""
    requires FieldText(post, "title").Ok?
    ensures Snippet(post).Ok?
    ensures Snippet(post).value <= Strip(FieldText(post, "title").value)
    ensures Snippet(post).value == "" <==> Strip(FieldText(post, "title").value) == ""
    ensures Snippet(post) == Ok(Truncate(Strip(FieldText(post, "title").value), MaxSnippet))
  {
  }

  /** The snippet raises exactly when a field it reads is not a string; the title is read only after a blank self-text. */
  lemma SnippetFails(post: Post)
    ensures Snippet(post).Err? <==>
      FieldText(post, "selftext").Err? || (Strip(FieldText(post, "selftext").value) == "" && FieldText(post, "title").Err?)
  {
  }

  /** A post with neither self-text nor title (both blank or absent) has an empty snippet. */
  lemma BlankPostHasEmptySnippet(post: Post)
    requires "selftext" !in post || post["selftext"] == Str("")
    requires "title" !in post || post["title"] == Str("")
    ensures Snippet(post) == Ok("")
  {
  }

  /** A post marked as having no text to classify. */
  function MarkUnknown(post: Post): (r: Post)
    ensures r.Keys == post.Keys + {"sentimento", "probabilidade"}
    ensures r["sentimento"] == Str("Unknown") && r["probabilidade"] == Int(0)
    ensures forall f :: f in post && f != "sentimento" && f != "probabilidade" ==> r[f] == post[f]
  {
    post["sentimento" := Str("Unknown")]["probabilidade" := Int(0)]
  }

  /** A post annotated with a classifier result: the label capitalised, the percentage as is. */
  function Annotate(post: Post, v: Verdict): Post {
    post["sentimento" := Str(Capitalize(v.name))]["probabilidade" := Int(v.percent)]
  }

  /** Annotating sets the two result fields and leaves every other field as it was. */
  lemma AnnotateFields(post: Post, v: Verdict)
    ensures Annotate(post, v).Keys == post.Keys + {"sentimento", "probabilidade"}
    ensures Annotate(post, v)["sentimento"] == Str(Capitalize(v.name)) && Annotate(post, v)["probabilidade"] == Int(v.percent)
    ensures forall f :: f in post && f != "sentimento" && f != "probabilidade" ==> Annotate(post, v)[f] == post[f]
  {
  }

  /** A failed batch's posts are annotated exactly like posts without text. */
  lemma AnnotateUnknown(post: Post)
    ensures Annotate(post, UnknownVerdict) == MarkUnknown(post)
  {
    assert Capitalize("Unknown") == "Unknown";
  }

  /**
   * The first loop's result: the texts to classify, the position in `posts`
   * of each, the posts without text already marked `Unknown`, and (for the
   * model's statements) their positions.
   */
  datatype Split = Split(texts: seq<string>, index: seq<nat>, unknown: seq<Post>, skipped: seq<nat>)

  /** The split of the posts, given each post's snippet, built from the front. */
  function Partition(posts: seq<Post>, snippets: seq<string>): (sp: Split)
    requires |posts| == |snippets|
    ensures |sp.texts| == |sp.index| && |sp.unknown| == |sp.skipped|
    ensures |sp.texts| + |sp.unknown| == |posts|
    ensures forall k :: 0 <= k < |sp.index| ==> sp.index[k] < |posts|
    ensures forall k :: 0 <= k < |sp.skipped| ==> sp.skipped[k] < |posts|
    decreases |posts|
  {
    if |posts| == 0 then Split([], [], [], [])
    else
      var n := |posts| - 1;
      var s := Partition(posts[..n], snippets[..n]);
      if snippets[n] != "" then Split(s.texts + [snippets[n]], s.index + [n], s.unknown, s.skipped)
      else Split(s.texts, s.index, s.unknown + [MarkUnknown(posts[n])], s.skipped + [n])
  }

  predicate SoundSplit(sp: Split, posts: seq<Post>, snippets: seq<string>)
    requires |posts| == |snippets|
    requires forall k :: 0 <= k < |sp.index| ==> sp.index[k] < |posts|
    requires |sp.unknown| == |sp.skipped| && forall k :: 0 <= k < |sp.skipped| ==> sp.skipped[k] < |posts|
  {
    && |sp.texts| == |sp.index|
    && (forall k :: 0 <= k < |sp.index| ==> snippets[sp.index[k]] == sp.texts[k] && sp.texts[k] != "")
    && (forall k :: 0 <= k < |sp.skipped| ==> snippets[sp.skipped[k]] == "" && sp.unknown[k] == MarkUnknown(posts[sp.skipped[k]]))
  }

  /**
   * What each side holds: a queued text is the non-empty snippet of the
   * post at its recorded position, an `Unknown` post is the marked copy of
   * a post whose snippet is empty.
   */
  lemma {:induction false} PartitionSound(posts: seq<Post>, snippets: seq<string>)
    requires |posts| == |snippets|
    ensures SoundSplit(Partition(posts, snippets), posts, snippets)
    decreases |posts|
  {
    if |posts| > 0 {
      var n := |posts| - 1;
      PartitionSound(posts[..n], snippets[..n]);
      var s := Partition(posts[..n], snippets[..n]);
      var sp := Partition(posts, snippets);
      assert sp == if snippets[n] != "" then Split(s.texts + [snippets[n]], s.index + [n], s.unknown, s.skipped)
        else Split(s.texts, s.index, s.unknown + [MarkUnknown(posts[n])], s.skipped + [n]);
      forall k | 0 <= k < |sp.index|
        ensures snippets[sp.index[k]] == sp.texts[k] && sp.texts[k] != ""
      {
        if k < |s.index| {
          assert sp.index[k] == s.index[k] && sp.texts[k] == s.texts[k];
          assert snippets[..n][s.index[k]] == snippets[s.index[k]];
          assert snippets[..n][s.index[k]] == s.texts[k] && s.texts[k] != "";
        } else {
          assert snippets[n] != "" && sp.index[k] == n && sp.texts[k] == snippets[n];
        }
      }
      forall k | 0 <= k < |sp.skipped|
        ensures snippets[sp.skipped[k]] == "" && sp.unknown[k] == MarkUnknown(posts[sp.skipped[k]])
      {
        if k < |s.skipped| {
          assert sp.skipped[k] == s.skipped[k] && sp.unknown[k] == s.unknown[k];
          assert snippets[..n][s.skipped[k]] == snippets[s.skipped[k]];
          assert posts[..n][s.skipped[k]] == posts[s.skipped[k]];
          assert snippets[..n][s.skipped[k]] == "" && s.unknown[k] == MarkUnknown(posts[..n][s.skipped[k]]);
        } else {
          assert snippets[n] == "" && sp.skipped[k] == n && sp.unknown[k] == MarkUnknown(posts[n]);
        }
      }
    }
  }

  /**
   * Every post lands on exactly one side: a post with a snippet among the
   * texts to classify, a post without one among the `Unknown` ones.
   */
  lemma {:induction false} PartitionComplete(posts: seq<Post>, snippets: seq<string>, i: nat)
    requires |posts| == |snippets| && i < |posts|
    ensures snippets[i] != "" <==> i in Partition(posts, snippets).index
    ensures snippets[i] == "" <==> i in Partition(posts, snippets).skipped
    decreases |posts|
  {
    var n := |posts| - 1;
    var s := Partition(posts[..n], snippets[..n]);
    assert n !in s.index && n !in s.skipped;
    if i < n {
      PartitionComplete(posts[..n], snippets[..n], i);
    }
  }

  /** Both sides keep input order. */
  lemma {:induction false} PartitionOrdered(posts: seq<Post>, snippets: seq<string>)
    requires |posts| == |snippets|
    ensures forall k, l :: 0 <= k < l < |Partition(posts, snippets).index| ==>
      Partition(posts, snippets).index[k] < Partition(posts, snippets).index[l]
    ensures forall k, l :: 0 <= k < l < |Partition(posts, snippets).skipped| ==>
      Partition(posts, snippets).skipped[k] < Partition(posts, snippets).skipped[l]
    decreases |posts|
  {
    if |posts| > 0 {
      var n := |posts| - 1;
      PartitionOrdered(posts[..n], snippets[..n]);
    }
  }

  /** The texts `texts[start:start+16]` of the batch starting at `start`. */
  function Batch(texts: seq<string>, start: nat): (b: seq<string>)
    requires start <= |texts|
    ensures start + |b| <= |texts|
    ensures start < |texts| ==> |b| > 0
    ensures start + BatchSize <= |texts| ==> |b| == BatchSize
  {
    if start + BatchSize <= |texts| then texts[start..start + BatchSize] else texts[start..]
  }

  /** A batch is the next sixteen texts, or all the rest when fewer remain. */
  lemma BatchIsSlice(texts: seq<string>, start: nat)
    requires start <= |texts|
    ensures |Batch(texts, start)| <= BatchSize
    ensures Batch(texts, start) == texts[start..start + |Batch(texts, start)|]
    ensures start + BatchSize > |texts| ==> start + |Batch(texts, start)| == |texts|
  {
  }

  /** The batches the loop sends, from `start` on. */
  function BatchesFrom(texts: seq<string>, start: nat): seq<seq<string>>
    requires start <= |texts|
    decreases |texts| - start
  {
    if start == |texts| then []
    else var b := Batch(texts, start); [b] + BatchesFrom(texts, start + |b|)
  }

  /** The batch at `start` is sent first, then the batches from its end on. */
  lemma BatchesFromStep(texts: seq<string>, start: nat)
    requires start < |texts|
    ensures BatchesFrom(texts, start) == [Batch(texts, start)] + BatchesFrom(texts, start + |Batch(texts, start)|)
  {
  }

  /** All the batches the loop sends. */
  function Batches(texts: seq<string>): seq<seq<string>> {
    BatchesFrom(texts, 0)
  }

  function Flatten(bs: seq<seq<string>>): seq<string> {
    if |bs| == 0 then [] else bs[0] + Flatten(bs[1..])
  }

  /** The batches from `start` on consume exactly `texts[start..]`, in order. */
  lemma {:induction false} BatchesFromCover(texts: seq<string>, start: nat)
    requires start <= |texts|
    ensures Flatten(BatchesFrom(texts, start)) == texts[start..]
    decreases |texts| - start
  {
    if start < |texts| {
      var b := Batch(texts, start);
      BatchesFromCover(texts, start + |b|);
      var bs := BatchesFrom(texts, start);
      assert bs[1..] == BatchesFrom(texts, start + |b|);
      assert texts[start..] == b + texts[start + |b|..];
    }
  }

  /** From a batch boundary, the loop sends `ceil(n / 16)` batches, all full but the last. */
  lemma {:induction false} BatchesFromShape(texts: seq<string>, start: nat)
    requires start <= |texts|
    ensures |BatchesFrom(texts, start)| == (|texts| - start + BatchSize - 1) / BatchSize
    ensures forall k :: 0 <= k < |BatchesFrom(texts, start)| ==> 0 < |BatchesFrom(texts, start)[k]| <= BatchSize
    ensures forall k :: 0 <= k < |BatchesFrom(texts, start)| - 1 ==> |BatchesFrom(texts, start)[k]| == BatchSize
    decreases |texts| - start
  {
    if start < |texts| {
      var b := Batch(texts, start);
      BatchesFromShape(texts, start + |b|);
      var bs := BatchesFrom(texts, start);
      assert bs[1..] == BatchesFrom(texts, start + |b|);
      forall k | 0 <= k < |bs| ensures 0 < |bs[k]| <= BatchSize {
        if k > 0 { assert bs[k] == bs[1..][k - 1]; }
      }
      forall k | 0 <= k < |bs| - 1 ensures |bs[k]| == BatchSize {
        if k > 0 { assert bs[k] == bs[1..][k - 1]; }
      }
    }
  }

  /**
   * The batching promise: the texts go to the classifier in `ceil(N/16)`
   * calls of at most sixteen texts each, whose concatenation is the texts.
   */
  lemma BatchesShape(texts: seq<string>)
    ensures Flatten(Batches(texts)) == texts
    ensures |Batches(texts)| == (|texts| + BatchSize - 1) / BatchSize
    ensures forall k :: 0 <= k < |Batches(texts)| ==> 0 < |Batches(texts)[k]| <= BatchSize
  {
    BatchesFromCover(texts, 0);
    BatchesFromShape(texts, 0);
  }

  /** What a batch yields: the classifier's results, or one `Unknown` result per text when the call raises. */
  function Outcomes(classify: Classifier, batch: seq<string>): (rs: seq<Verdict>) {
    match classify(batch)
    case None => seq(|batch|, _ => UnknownVerdict)
    case Some(rs) => rs
  }

  /** The first position of the batch holding position `k`: the largest multiple of sixteen not above it. */
  function BatchStart(k: nat): (s: nat)
    ensures s <= k < s + BatchSize
  {
    if k < BatchSize then 0 else BatchSize + BatchStart(k - BatchSize)
  }

  /** Whether a batch starts at `k`, i.e. `k` is a multiple of sixteen. */
  predicate IsBatchStart(k: nat) {
    BatchStart(k) == k
  }

  /** The batch holding `k` does start at a multiple of sixteen. */
  lemma {:induction false} BatchStartIsBatchStart(k: nat)
    ensures IsBatchStart(BatchStart(k))
    decreases k
  {
    if k >= BatchSize {
      BatchStartIsBatchStart(k - BatchSize);
    }
  }

  /**
   * The result written for the text at position `k`: result `k - start` of
   * the batch starting at `start`; `None` when that batch returned fewer
   * results, so the text is never annotated.
   */
  function VerdictAt(texts: seq<string>, classify: Classifier, k: nat): Option<Verdict>
    requires k < |texts|
  {
    var rs := Outcomes(classify, Batch(texts, BatchStart(k)));
    if k - BatchStart(k) < |rs| then Some(rs[k - BatchStart(k)]) else None
  }

  /** A batch whose classifier call raises marks each of its texts `Unknown` with score 0. */
  lemma FailedBatchIsUnknown(texts: seq<string>, classify: Classifier, k: nat)
    requires k < |texts| && classify(Batch(texts, BatchStart(k))).None?
    ensures VerdictAt(texts, classify, k) == Some(UnknownVerdict)
  {
  }

  /** A text's result depends only on its own batch's call: other batches failing or not changes nothing. */
  lemma VerdictIsLocal(texts: seq<string>, c1: Classifier, c2: Classifier, k: nat)
    requires k < |texts| && c1(Batch(texts, BatchStart(k))) == c2(Batch(texts, BatchStart(k)))
    ensures VerdictAt(texts, c1, k) == VerdictAt(texts, c2, k)
  {
  }

  /** Whether the batch at `start` comes back with more results than texts. */
  predicate Spills(texts: seq<string>, classify: Classifier, start: nat)
    requires start <= |texts|
  {
    |Outcomes(classify, Batch(texts, start))| > |Batch(texts, start)|
  }

  /** Whether a batch from `start` on spills, batch by batch as the loop sends them. */
  predicate OverflowsFrom(texts: seq<string>, classify: Classifier, start: nat)
    requires start <= |texts|
    decreases |texts| - start
  {
    start < |texts| && (Spills(texts, classify, start) || OverflowsFrom(texts, classify, start + |Batch(texts, start)|))
  }

  /** Whether some batch comes back with more results than texts; the loop then raises `IndexError`. */
  predicate Overflows(texts: seq<string>, classify: Classifier) {
    OverflowsFrom(texts, classify, 0)
  }

  /** The error the second loop raises when a batch returns more results than texts. */
  const IndexError := "IndexError: list index out of range"

  /** A text that got a result: its position among the texts, and the result. */
  datatype Hit = Hit(pos: nat, verdict: Verdict)

  predicate SplitFits(sp: Split, posts: seq<Post>) {
    |sp.index| == |sp.texts| && forall k :: 0 <= k < |sp.index| ==> sp.index[k] < |posts|
  }

  /** A batch's results laid out over its `n` texts: result `j` at position `j`, nothing past the last result. */
  function Padded(rs: seq<Verdict>, n: nat): (r: seq<Option<Verdict>>)
    ensures |r| == n
  {
    seq(n, j requires 0 <= j < n => if j < |rs| then Some(rs[j]) else None)
  }

  /** The results of the texts from `start` on, batch by batch as the loop delivers them. */
  function AlignedFrom(texts: seq<string>, classify: Classifier, start: nat): (a: seq<Option<Verdict>>)
    requires start <= |texts|
    ensures |a| == |texts| - start
    decreases |texts| - start
  {
    if start == |texts| then []
    else
      var b := Batch(texts, start);
      Padded(Outcomes(classify, b), |b|) + AlignedFrom(texts, classify, start + |b|)
  }

  /** Each text's result, position by position. */
  function Aligned(texts: seq<string>, classify: Classifier): (a: seq<Option<Verdict>>)
    ensures |a| == |texts|
  {
    AlignedFrom(texts, classify, 0)
  }

  /** Positions `start` to `start + n` of `aligned` hold a batch's results `rs`: result `j` at `start + j`, none past the last. */
  predicate Window(aligned: seq<Option<Verdict>>, start: nat, n: nat, rs: seq<Verdict>) {
    forall k :: start <= k < start + n && k < |aligned| ==>
      aligned[k] == if k - start < |rs| then Some(rs[k - start]) else None
  }

  /** The batch at `start` fills the first positions; the batches after it fill the rest. */
  lemma AlignedFromStep(texts: seq<string>, classify: Classifier, start: nat, aligned: seq<Option<Verdict>>)
    requires start < |texts| && start <= |aligned| && aligned[start..] == AlignedFrom(texts, classify, start)
    ensures var b := Batch(texts, start);
      && Window(aligned, start, |b|, Outcomes(classify, b))
      && aligned[start + |b|..] == AlignedFrom(texts, classify, start + |b|)
  {
    var b := Batch(texts, start);
    var pad := Padded(Outcomes(classify, b), |b|);
    assert aligned[start..][..|b|] == pad;
    forall k | start <= k < start + |b| && k < |aligned|
      ensures aligned[k] == pad[k - start]
    {
      assert aligned[start..][..|b|][k - start] == aligned[k];
    }
    assert aligned[start..][|b|..] == AlignedFrom(texts, classify, start + |b|);
  }

  /** A position inside the batch at `start` holds that batch's result for it. */
  lemma AlignedFromHead(texts: seq<string>, classify: Classifier, start: nat, k: nat)
    requires IsBatchStart(start) && start <= |texts| && start <= k < start + |Batch(texts, start)|
    ensures AlignedFrom(texts, classify, start)[k - start] == VerdictAt(texts, classify, k)
  {
    var b := Batch(texts, start);
    var pad := Padded(Outcomes(classify, b), |b|);
    assert AlignedFrom(texts, classify, start) == pad + AlignedFrom(texts, classify, start + |b|);
    InBatch(start, k - start);
    assert BatchStart(k) == start;
  }

  /** A position past the batch at `start` holds what the batches after it give it. */
  lemma AlignedFromTail(texts: seq<string>, classify: Classifier, start: nat, k: nat)
    requires start <= |texts| && start + |Batch(texts, start)| <= k < |texts|
    ensures AlignedFrom(texts, classify, start)[k - start]
      == AlignedFrom(texts, classify, start + |Batch(texts, start)|)[k - start - |Batch(texts, start)|]
  {
    var b := Batch(texts, start);
    assert AlignedFrom(texts, classify, start) == Padded(Outcomes(classify, b), |b|) + AlignedFrom(texts, classify, start + |b|);
  }

  lemma {:induction false} AlignedFromAt(texts: seq<string>, classify: Classifier, start: nat, k: nat)
    requires IsBatchStart(start) && start <= k < |texts|
    ensures AlignedFrom(texts, classify, start)[k - start] == VerdictAt(texts, classify, k)
    decreases |texts| - start
  {
    var n := |Batch(texts, start)|;
    if k < start + n {
      AlignedFromHead(texts, classify, start, k);
    } else {
      BatchIsSlice(texts, start);
      assert n == BatchSize;
      assert BatchStart(start + BatchSize) == BatchSize + BatchStart(start);
      AlignedFromAt(texts, classify, start + n, k);
      AlignedFromTail(texts, classify, start, k);
    }
  }

  /** The batch-by-batch results agree with each text's own: position `k` holds text `k`'s result. */
  lemma AlignedAt(texts: seq<string>, classify: Classifier, k: nat)
    requires k < |texts|
    ensures Aligned(texts, classify)[k] == VerdictAt(texts, classify, k)
  {
    AlignedFromAt(texts, classify, 0, k);
  }

  /** The texts among the first `n` that got a result, in text order, each with its result. */
  function Hits(aligned: seq<Option<Verdict>>, n: nat): (r: seq<Hit>)
    requires n <= |aligned|
    ensures |r| <= n
    ensures forall i :: 0 <= i < |r| ==> r[i].pos < n && aligned[r[i].pos] == Some(r[i].verdict)
  {
    if n == 0 then []
    else
      var rest := Hits(aligned, n - 1);
      match aligned[n - 1]
      case None => rest
      case Some(v) => rest + [Hit(n - 1, v)]
  }

  /** Hits come in strictly increasing text order. */
  lemma {:induction false} HitsOrdered(aligned: seq<Option<Verdict>>, n: nat)
    requires n <= |aligned|
    ensures forall i, j :: 0 <= i < j < |Hits(aligned, n)| ==> Hits(aligned, n)[i].pos < Hits(aligned, n)[j].pos
    decreases n
  {
    if n > 0 {
      HitsOrdered(aligned, n - 1);
    }
  }

  /** Every text among the first `n` that has a result is a hit. */
  lemma {:induction false} HitsComplete(aligned: seq<Option<Verdict>>, n: nat, k: nat)
    requires k < n <= |aligned| && aligned[k].Some?
    ensures Hit(k, aligned[k].value) in Hits(aligned, n)
    decreases n
  {
    if k < n - 1 {
      HitsComplete(aligned, n - 1, k);
    }
  }

  /** Whether every batch yields exactly one result per text (a failed call counts as doing so). */
  predicate Exact(texts: seq<string>, classify: Classifier) {
    forall s :: 0 <= s < |texts| && IsBatchStart(s) ==> |Outcomes(classify, Batch(texts, s))| == |Batch(texts, s)|
  }

  /** When every batch yields one result per text, every text gets a result. */
  lemma ExactCoversAll(texts: seq<string>, classify: Classifier, k: nat)
    requires k < |texts| && Exact(texts, classify)
    ensures VerdictAt(texts, classify, k).Some?
  {
    BatchStartIsBatchStart(k);
    var s := BatchStart(k);
    assert |Outcomes(classify, Batch(texts, s))| == |Batch(texts, s)|;
  }

  /** When every text gets a result, the `k`-th hit is text `k`. */
  lemma {:induction false} HitsWhenAll(aligned: seq<Option<Verdict>>, n: nat)
    requires n <= |aligned|
    requires forall k :: 0 <= k < |aligned| ==> aligned[k].Some?
    ensures |Hits(aligned, n)| == n
    ensures forall k :: 0 <= k < n ==> Hits(aligned, n)[k] == Hit(k, aligned[k].value)
    decreases n
  {
    if n > 0 {
      HitsWhenAll(aligned, n - 1);
    }
  }

  /** When every batch yields one result per text, each position holds its text's result, and there is one. */
  lemma ExactAligned(texts: seq<string>, classify: Classifier)
    requires Exact(texts, classify)
    ensures forall k :: 0 <= k < |texts| ==>
      Aligned(texts, classify)[k] == VerdictAt(texts, classify, k) && VerdictAt(texts, classify, k).Some?
  {
    forall k | 0 <= k < |texts|
      ensures Aligned(texts, classify)[k] == VerdictAt(texts, classify, k) && VerdictAt(texts, classify, k).Some?
    {
      AlignedAt(texts, classify, k);
      ExactCoversAll(texts, classify, k);
    }
  }

  /** When every text has a result, every text is classified. */
  lemma ProgressWhenAllLength(posts: seq<Post>, sp: Split, aligned: seq<Option<Verdict>>)
    requires SplitFits(sp, posts) && |aligned| == |sp.texts|
    requires forall k :: 0 <= k < |aligned| ==> aligned[k].Some?
    ensures |Progress(posts, sp, aligned, |sp.texts|).posts| == |sp.unknown| + |sp.texts|
    ensures |Progress(posts, sp, aligned, |sp.texts|).texts| == |sp.texts|
  {
    HitsWhenAll(aligned, |sp.texts|);
    ProgressProjects(posts, sp, aligned, |sp.texts|);
  }

  /** When every text has a result, the `k`-th classified post is text `k`'s, annotated with its result. */
  lemma ProgressWhenAllPost(posts: seq<Post>, sp: Split, aligned: seq<Option<Verdict>>, k: nat)
    requires SplitFits(sp, posts) && |aligned| == |sp.texts| && k < |sp.texts|
    requires forall k :: 0 <= k < |aligned| ==> aligned[k].Some?
    ensures |Progress(posts, sp, aligned, |sp.texts|).posts| == |sp.unknown| + |sp.texts|
    ensures Progress(posts, sp, aligned, |sp.texts|).posts[|sp.unknown| + k] == Annotate(posts[sp.index[k]], aligned[k].value)
  {
    var hits := Hits(aligned, |sp.texts|);
    HitsWhenAll(aligned, |sp.texts|);
    ProgressProjects(posts, sp, aligned, |sp.texts|);
    var done := Progress(posts, sp, aligned, |sp.texts|);
    var annotated := PostsOf(posts, sp, hits);
    assert done.posts == sp.unknown + annotated;
    assert |annotated| == |sp.texts|;
    assert hits[k] == Hit(k, aligned[k].value);
    assert annotated[k] == Annotate(posts[sp.index[k]], aligned[k].value);
    assert done.posts[|sp.unknown| + k] == annotated[k];
  }

  /** When every text has a result, the `k`-th recorded text is text `k`. */
  lemma ProgressWhenAllText(posts: seq<Post>, sp: Split, aligned: seq<Option<Verdict>>, k: nat)
    requires SplitFits(sp, posts) && |aligned| == |sp.texts| && k < |sp.texts|
    requires forall k :: 0 <= k < |aligned| ==> aligned[k].Some?
    ensures |Progress(posts, sp, aligned, |sp.texts|).texts| == |sp.texts|
    ensures Progress(posts, sp, aligned, |sp.texts|).texts[k] == sp.texts[k]
  {
    var hits := Hits(aligned, |sp.texts|);
    HitsWhenAll(aligned, |sp.texts|);
    ProgressProjects(posts, sp, aligned, |sp.texts|);
    assert hits[k] == Hit(k, aligned[k].value);
  }

  /**
   * The coverage promise: when every batch yields one result per text, the
   * `k`-th classified post is the post text `k` came from, annotated with
   * result `k - start` of the batch starting at `start`.
   */
  lemma ScoredWhenExact(posts: seq<Post>, sp: Split, classify: Classifier)
    requires SplitFits(sp, posts) && Exact(sp.texts, classify)
    ensures var done := Progress(posts, sp, Aligned(sp.texts, classify), |sp.texts|);
      && |done.posts| == |sp.unknown| + |sp.texts| && |done.texts| == |sp.texts|
      && forall k :: 0 <= k < |sp.texts| ==>
        && VerdictAt(sp.texts, classify, k).Some?
        && done.posts[|sp.unknown| + k] == Annotate(posts[sp.index[k]], VerdictAt(sp.texts, classify, k).value)
        && done.texts[k] == sp.texts[k]
  {
    var aligned := Aligned(sp.texts, classify);
    ExactAligned(sp.texts, classify);
    ProgressWhenAllLength(posts, sp, aligned);
    forall k | 0 <= k < |sp.texts|
      ensures Progress(posts, sp, aligned, |sp.texts|).posts[|sp.unknown| + k]
        == Annotate(posts[sp.index[k]], VerdictAt(sp.texts, classify, k).value)
      ensures Progress(posts, sp, aligned, |sp.texts|).texts[k] == sp.texts[k]
    {
      ProgressWhenAllPost(posts, sp, aligned, k);
      ProgressWhenAllText(posts, sp, aligned, k);
    }
  }

  /** The series a run of results fills: the percentage of each result whose label lower-cases to `bucket`. */
  datatype Bucket = Negative | Neutral | Positive

  /** Case-insensitive bucketing: `negative`, `positive`, and everything else neutral. */
  function BucketOf(name: string): Bucket {
    if Lower(name) == "negative" then Negative
    else if Lower(name) == "positive" then Positive
    else Neutral
  }

  /** The percentages of the results that fall in `bucket`, in order. */
  function Percents(vs: seq<Verdict>, bucket: Bucket): seq<int> {
    if |vs| == 0 then []
    else
      var last := vs[|vs| - 1];
      Percents(vs[..|vs| - 1], bucket) + (if BucketOf(last.name) == bucket then [last.percent] else [])
  }

  /** The three confidence series. */
  datatype Series = Series(negative: seq<int>, neutral: seq<int>, positive: seq<int>)

  function SeriesOf(vs: seq<Verdict>): Series {
    Series(Percents(vs, Negative), Percents(vs, Neutral), Percents(vs, Positive))
  }

  /** Adding a result to a series: its percentage goes to exactly the series its label names. */
  function AddTo(series: Series, v: Verdict): Series {
    match BucketOf(v.name)
    case Negative => series.(negative := series.negative + [v.percent])
    case Neutral => series.(neutral := series.neutral + [v.percent])
    case Positive => series.(positive := series.positive + [v.percent])
  }

  /** Each result adds exactly one entry, to exactly one series. */
  lemma SeriesOfSnoc(vs: seq<Verdict>, v: Verdict)
    ensures SeriesOf(vs + [v]) == AddTo(SeriesOf(vs), v)
  {
    assert (vs + [v])[..|vs|] == vs;
  }

  /** The series together hold one entry per result. */
  lemma {:induction false} SeriesCount(vs: seq<Verdict>)
    ensures |SeriesOf(vs).negative| + |SeriesOf(vs).neutral| + |SeriesOf(vs).positive| == |vs|
    decreases |vs|
  {
    if |vs| > 0 {
      SeriesCount(vs[..|vs| - 1]);
    }
  }

  /** The `Unknown` result of a failed batch or a text-less label is counted as neutral. */
  lemma UnknownIsNeutral()
    ensures BucketOf(UnknownVerdict.name) == Neutral
  {
    assert Lower("Unknown") == "unknown";
  }

  /**
   * Labels are bucketed regardless of case: two labels that differ only in
   * the case of their letters land in the same bucket, and a label lands in
   * the negative or positive bucket exactly when it spells that word in
   * some mix of cases.
   */
  lemma BucketIgnoresCase(a: string, b: string)
    requires |a| == |b|
    requires forall i :: 0 <= i < |a| ==> LowerChar(a[i]) == LowerChar(b[i])
    ensures BucketOf(a) == BucketOf(b)
    ensures BucketOf(a) == Negative <==> Lower(a) == "negative"
    ensures BucketOf(a) == Positive <==> Lower(a) == "positive"
    ensures BucketOf(a) == Neutral <==> Lower(a) != "negative" && Lower(a) != "positive"
    ensures BucketOf(Lower(a)) == BucketOf(a)
  {
    assert Lower(a) == Lower(b);
    assert Lower(Lower(a)) == Lower(a) by {
      forall i | 0 <= i < |a|
        ensures Lower(Lower(a))[i] == Lower(a)[i]
      {
        assert LowerChar(LowerChar(a[i])) == LowerChar(a[i]);
      }
    }
  }

  /** The labels the classifier returns, in any case, land in their buckets. */
  lemma BucketExamples()
    ensures BucketOf("NEGATIVE") == Negative && BucketOf("Positive") == Positive && BucketOf("neutral") == Neutral
  {
    assert Lower("NEGATIVE") == "negative";
    assert Lower("Positive") == "positive";
    assert Lower("neutral") == "neutral";
  }

  /** Whether every hit names a text. */
  predicate HitsFit(sp: Split, hits: seq<Hit>) {
    forall i :: 0 <= i < |hits| ==> hits[i].pos < |sp.texts|
  }

  /** Each hit's post, annotated with its result. */
  function PostsOf(posts: seq<Post>, sp: Split, hits: seq<Hit>): (r: seq<Post>)
    requires SplitFits(sp, posts) && HitsFit(sp, hits)
    ensures |r| == |hits|
  {
    seq(|hits|, i requires 0 <= i < |hits| => Annotate(posts[sp.index[hits[i].pos]], hits[i].verdict))
  }

  /** Each hit's text. */
  function TextsOf(sp: Split, hits: seq<Hit>): (r: seq<string>)
    requires HitsFit(sp, hits)
    ensures |r| == |hits|
  {
    seq(|hits|, i requires 0 <= i < |hits| => sp.texts[hits[i].pos])
  }

  /** Each hit's result. */
  function VerdictsOf(hits: seq<Hit>): (r: seq<Verdict>)
    ensures |r| == |hits|
  {
    seq(|hits|, i requires 0 <= i < |hits| => hits[i].verdict)
  }

  /** The pass's output: the analysed posts, the three series, and the texts that were classified. */
  datatype Analysis = Analysis(posts: seq<Post>, series: Series, texts: seq<string>)

  /** The snippets of all posts, in order, or the error of the first post whose snippet raises. */
  function Snippets(posts: seq<Post>): Result<seq<string>> {
    MapAll(posts, Snippet)
  }

  /** The first loop's outcome: the split, or the first snippet error. */
  function SplitOf(posts: seq<Post>): Result<Split> {
    match Snippets(posts)
    case Err(e) => Err(e)
    case Ok(snippets) => Ok(Partition(posts, snippets))
  }

  /**
   * What the view has accumulated once the texts before position `m` are
   * handled: each text with a result annotates its post, files its
   * percentage and records the text; a text without one changes nothing.
   */
  function Progress(posts: seq<Post>, sp: Split, aligned: seq<Option<Verdict>>, m: nat): Analysis
    requires SplitFits(sp, posts) && |aligned| == |sp.texts| && m <= |sp.texts|
    decreases m
  {
    if m == 0 then Analysis(sp.unknown, Series([], [], []), [])
    else
      var before := Progress(posts, sp, aligned, m - 1);
      match aligned[m - 1]
      case None => before
      case Some(v) =>
        Analysis(before.posts + [Annotate(posts[sp.index[m - 1]], v)], AddTo(before.series, v), before.texts + [sp.texts[m - 1]])
  }

  /**
   * The accumulators, read declaratively: the posts without text, then
   * each hit's annotated post; the series of the hits' results; the hits'
   * texts.
   */
  lemma {:induction false} ProgressProjects(posts: seq<Post>, sp: Split, aligned: seq<Option<Verdict>>, m: nat)
    requires SplitFits(sp, posts) && |aligned| == |sp.texts| && m <= |sp.texts|
    ensures var hits := Hits(aligned, m);
      Progress(posts, sp, aligned, m) ==
        Analysis(sp.unknown + PostsOf(posts, sp, hits), SeriesOf(VerdictsOf(hits)), TextsOf(sp, hits))
    decreases m
  {
    var hits := Hits(aligned, m);
    if m == 0 {
      assert hits == [];
      assert PostsOf(posts, sp, hits) == [] && TextsOf(sp, hits) == [] && VerdictsOf(hits) == [];
      assert sp.unknown + [] == sp.unknown;
    } else {
      ProgressProjects(posts, sp, aligned, m - 1);
      var prev := Hits(aligned, m - 1);
      var before := Progress(posts, sp, aligned, m - 1);
      if aligned[m - 1].Some? {
        var h := Hit(m - 1, aligned[m - 1].value);
        assert hits == prev + [h];
        ProjectionsSnoc(posts, sp, prev, h);
        var post := Annotate(posts[sp.index[h.pos]], h.verdict);
        AppendAssoc(sp.unknown, PostsOf(posts, sp, prev), [post]);
        assert Progress(posts, sp, aligned, m) ==
          Analysis(before.posts + [post], AddTo(before.series, h.verdict), before.texts + [sp.texts[h.pos]]);
      } else {
        assert hits == prev;
        assert Progress(posts, sp, aligned, m) == before;
      }
    }
  }

  /**
   * The pass as a whole: posts without text first, in input order, then
   * the classified posts in input order, with the series and texts of the
   * classified ones.
   */
  function Analyse(posts: seq<Post>, classify: Classifier): Result<Analysis> {
    match SplitOf(posts)
    case Err(e) => Err(e)
    case Ok(sp) =>
      if Overflows(sp.texts, classify) then Err(IndexError)
      else Ok(Progress(posts, sp, Aligned(sp.texts, classify), |sp.texts|))
  }

  /** Position `start + j` of a batch starting at a multiple of sixteen lies in that batch. */
  lemma {:induction false} InBatch(start: nat, j: nat)
    requires IsBatchStart(start) && j < BatchSize
    ensures BatchStart(start + j) == start
    decreases start
  {
    if start >= BatchSize {
      InBatch(start - BatchSize, j);
    }
  }

  lemma PostsOfSnoc(posts: seq<Post>, sp: Split, hits: seq<Hit>, h: Hit)
    requires SplitFits(sp, posts) && HitsFit(sp, hits) && h.pos < |sp.texts| && HitsFit(sp, hits + [h])
    ensures PostsOf(posts, sp, hits + [h]) == PostsOf(posts, sp, hits) + [Annotate(posts[sp.index[h.pos]], h.verdict)]
  {
  }

  lemma TextsOfSnoc(sp: Split, hits: seq<Hit>, h: Hit)
    requires HitsFit(sp, hits) && h.pos < |sp.texts| && HitsFit(sp, hits + [h])
    ensures TextsOf(sp, hits + [h]) == TextsOf(sp, hits) + [sp.texts[h.pos]]
  {
  }

  lemma VerdictsOfSnoc(hits: seq<Hit>, h: Hit)
    ensures VerdictsOf(hits + [h]) == VerdictsOf(hits) + [h.verdict]
  {
  }

  /** The three projections grow by one entry when the hits do. */
  lemma ProjectionsSnoc(posts: seq<Post>, sp: Split, hits: seq<Hit>, h: Hit)
    requires SplitFits(sp, posts) && HitsFit(sp, hits) && h.pos < |sp.texts|
    ensures HitsFit(sp, hits + [h])
    ensures PostsOf(posts, sp, hits + [h]) == PostsOf(posts, sp, hits) + [Annotate(posts[sp.index[h.pos]], h.verdict)]
    ensures TextsOf(sp, hits + [h]) == TextsOf(sp, hits) + [sp.texts[h.pos]]
    ensures SeriesOf(VerdictsOf(hits + [h])) == AddTo(SeriesOf(VerdictsOf(hits)), h.verdict)
  {
    assert HitsFit(sp, hits + [h]) by {
      forall i | 0 <= i < |hits + [h]| ensures (hits + [h])[i].pos < |sp.texts| {
        if i < |hits| {
          assert (hits + [h])[i] == hits[i];
        }
      }
    }
    PostsOfSnoc(posts, sp, hits, h);
    TextsOfSnoc(sp, hits, h);
    VerdictsOfSnoc(hits, h);
    SeriesOfSnoc(VerdictsOf(hits), h.verdict);
  }

  /** The accumulators stay put across texts without a result. */
  lemma {:induction false} ProgressSkipsNone(posts: seq<Post>, sp: Split, aligned: seq<Option<Verdict>>, cut: nat, end: nat)
    requires SplitFits(sp, posts) && |aligned| == |sp.texts| && cut <= end <= |sp.texts|
    requires forall k :: cut <= k < end ==> aligned[k].None?
    ensures Progress(posts, sp, aligned, end) == Progress(posts, sp, aligned, cut)
    decreases end
  {
    if end > cut {
      ProgressSkipsNone(posts, sp, aligned, cut, end - 1);
    }
  }

  /** One turn of the first loop, in terms of the prefix handled so far. */
  lemma SplitStep(posts: seq<Post>, i: nat, snips: seq<string>)
    requires i < |posts| && Snippets(posts[..i]) == Ok(snips)
    ensures Snippet(posts[i]).Err? ==> Snippets(posts[..i + 1]) == Err(Snippet(posts[i]).error)
    ensures Snippet(posts[i]).Ok? ==> Snippets(posts[..i + 1]) == Ok(snips + [Snippet(posts[i]).value])
    ensures Snippet(posts[i]).Ok? ==>
      var s := Snippet(posts[i]).value;
      var sp := Partition(posts[..i], snips);
      Partition(posts[..i + 1], snips + [s]) ==
        if s != "" then Split(sp.texts + [s], sp.index + [i], sp.unknown, sp.skipped)
        else Split(sp.texts, sp.index, sp.unknown + [MarkUnknown(posts[i])], sp.skipped + [i])
  {
    assert posts[..i + 1][..i] == posts[..i];
    if Snippet(posts[i]).Ok? {
      assert (snips + [Snippet(posts[i]).value])[..i] == snips;
    }
  }

  /**
   * The first loop: each post's snippet is computed in turn; a post with one
   * is queued for the classifier, a post without one is marked `Unknown`.
   */
  method SplitPosts(posts: seq<Post>) returns (r: Result<Split>)
    ensures r == SplitOf(posts)
  {
    var texts: seq<string> := [];
    var index: seq<nat> := [];
    var analysed: seq<Post> := [];
    var skipped: seq<nat> := [];
    ghost var snips: seq<string> := [];
    var i := 0;
    while i < |posts|
      invariant 0 <= i <= |posts|
      invariant Snippets(posts[..i]) == Ok(snips)
      invariant Split(texts, index, analysed, skipped) == Partition(posts[..i], snips)
    {
      var snippet := Snippet(posts[i]);
      SplitStep(posts, i, snips);
      if snippet.Err? {
        MapAllErrPrefix(posts, Snippet, i + 1);
        return Err(snippet.error);
      }
      if snippet.value != "" {
        texts := texts + [snippet.value];
        index := index + [i];
      } else {
        analysed := analysed + [MarkUnknown(posts[i])];
        skipped := skipped + [i];
      }
      snips := snips + [snippet.value];
      i := i + 1;
    }
    assert posts[..i] == posts;
    return Ok(Split(texts, index, analysed, skipped));
  }

  /**
   * The inner loop's body for one result: annotate the post the text came
   * from, file the percentage under the lower-cased label, and record the
   * text.
   */
  method HandleResult(acc: Analysis, post: Post, text: string, v: Verdict) returns (next: Analysis)
    ensures next == Analysis(acc.posts + [Annotate(post, v)], AddTo(acc.series, v), acc.texts + [text])
  {
    var neg, neu, pos := acc.series.negative, acc.series.neutral, acc.series.positive;
    if Lower(v.name) == "negative" {
      neg := neg + [v.percent];
    } else if Lower(v.name) == "positive" {
      pos := pos + [v.percent];
    } else {
      neu := neu + [v.percent];
    }
    next := Analysis(acc.posts + [Annotate(post, v)], Series(neg, neu, pos), acc.texts + [text]);
  }

  /**
   * Handling the result for text `m`: the accumulators move on from the
   * texts before `m` to the texts up to and including it.
   */
  method ScoreOne(posts: seq<Post>, sp: Split, ghost aligned: seq<Option<Verdict>>, m: nat, v: Verdict, current: Analysis)
    returns (next: Analysis)
    requires SplitFits(sp, posts) && |aligned| == |sp.texts| && m < |sp.texts| && aligned[m] == Some(v)
    requires current == Progress(posts, sp, aligned, m)
    ensures next == Progress(posts, sp, aligned, m + 1)
  {
    next := HandleResult(current, posts[sp.index[m]], sp.texts[m], v);
  }

  /** Once a batch's results are handled, the texts left without one change nothing. */
  lemma FinishBatch(posts: seq<Post>, sp: Split, aligned: seq<Option<Verdict>>, start: nat, rs: seq<Verdict>, n: nat, m: nat)
    requires SplitFits(sp, posts) && |aligned| == |sp.texts| && start + n <= |sp.texts| && |rs| <= n
    requires Window(aligned, start, n, rs) && m == start + |rs|
    ensures Progress(posts, sp, aligned, m) == Progress(posts, sp, aligned, start + n)
  {
    forall k | m <= k < start + n ensures aligned[k].None? {
      assert !(k - start < |rs|);
    }
    ProgressSkipsNone(posts, sp, aligned, m, start + n);
  }

  /** A window's results sit at its first positions: result `j` at `start + j`. */
  lemma WindowResults(aligned: seq<Option<Verdict>>, start: nat, n: nat, rs: seq<Verdict>)
    requires Window(aligned, start, n, rs) && start + n <= |aligned|
    ensures forall j :: 0 <= j < |rs| && j < n ==> aligned[start + j] == Some(rs[j])
  {
    forall j | 0 <= j < |rs| && j < n ensures aligned[start + j] == Some(rs[j]) {
      var k := start + j;
      assert k - start == j;
    }
  }

  /**
   * The inner loop over one batch's results: result `j` goes to text
   * `start + j`. More results than the batch's `n` texts raises
   * `IndexError`; otherwise the accumulators grow from the texts before
   * `start` to the texts up to the last result.
   */
  method HandleBatch(posts: seq<Post>, sp: Split, ghost aligned: seq<Option<Verdict>>,
                     start: nat, n: nat, results: seq<Verdict>, acc: Analysis)
    returns (r: Result<Analysis>)
    requires SplitFits(sp, posts) && |aligned| == |sp.texts| && start + n <= |sp.texts|
    requires forall j :: 0 <= j < |results| && j < n ==> aligned[start + j] == Some(results[j])
    requires acc == Progress(posts, sp, aligned, start)
    ensures r.Err? <==> |results| > n
    ensures r.Err? ==> r.error == IndexError
    ensures r.Ok? ==> r.value == Progress(posts, sp, aligned, start + |results|)
  {
    var current := acc;
    var j := 0;
    var m := start;
    while j < |results|
      invariant 0 <= j <= |results| && j <= n
      invariant m == start + j
      invariant current == Progress(posts, sp, aligned, m)
    {
      if j >= n {
        return Err(IndexError);
      }
      current := ScoreOne(posts, sp, aligned, m, results[j], current);
      j := j + 1;
      m := m + 1;
    }
    return Ok(current);
  }

  /**
   * One turn of the second loop: classify `texts[start:start+16]` (one
   * `Unknown` result per text when the call raises) and handle the results.
   */
  method ScoreBatch(posts: seq<Post>, sp: Split, classify: Classifier, ghost aligned: seq<Option<Verdict>>,
                    start: nat, acc: Analysis)
    returns (r: Result<Analysis>, batch: seq<string>)
    requires SplitFits(sp, posts) && start < |sp.texts| && start <= |aligned|
    requires aligned[start..] == AlignedFrom(sp.texts, classify, start)
    requires acc == Progress(posts, sp, aligned, start)
    ensures batch == Batch(sp.texts, start)
    ensures r.Err? <==> Spills(sp.texts, classify, start)
    ensures r.Err? ==> r.error == IndexError
    ensures r.Ok? ==> r.value == Progress(posts, sp, aligned, start + |batch|)
    ensures aligned[start + |batch|..] == AlignedFrom(sp.texts, classify, start + |batch|)
    ensures r.Err? ==> OverflowsFrom(sp.texts, classify, start)
    ensures r.Ok? ==> OverflowsFrom(sp.texts, classify, start) == OverflowsFrom(sp.texts, classify, start + |batch|)
    ensures BatchesFrom(sp.texts, start) == [batch] + BatchesFrom(sp.texts, start + |batch|)
  {
    batch := Batch(sp.texts, start);
    var results := Outcomes(classify, batch);
    AlignedFromStep(sp.texts, classify, start, aligned);
    WindowResults(aligned, start, |batch|, results);
    r := HandleBatch(posts, sp, aligned, start, |batch|, results, acc);
    if r.Ok? {
      FinishBatch(posts, sp, aligned, start, results, |batch|, start + |results|);
    }
  }

  /** A batch start within sixteen positions after another batch start is that start. */
  lemma OnlyStartInBatch(start: nat, s: nat)
    requires IsBatchStart(start) && IsBatchStart(s) && start <= s < start + BatchSize
    ensures s == start
  {
    InBatch(start, s - start);
  }

  /** From a batch start, a batch spills later on exactly when one starting at a multiple of sixteen does. */
  lemma {:induction false} OverflowsFromAt(texts: seq<string>, classify: Classifier, start: nat)
    requires IsBatchStart(start) && start <= |texts|
    ensures OverflowsFrom(texts, classify, start) <==>
      exists s :: start <= s < |texts| && IsBatchStart(s) && Spills(texts, classify, s)
    decreases |texts| - start
  {
    if start < |texts| {
      var next := start + |Batch(texts, start)|;
      BatchIsSlice(texts, start);
      if next < |texts| {
        assert BatchStart(next) == BatchSize + BatchStart(start);
        OverflowsFromAt(texts, classify, next);
      }
      if exists s :: start <= s < |texts| && IsBatchStart(s) && Spills(texts, classify, s) {
        var s :| start <= s < |texts| && IsBatchStart(s) && Spills(texts, classify, s);
        if start < s < next {
          OnlyStartInBatch(start, s);
        }
      }
    }
  }

  /** The loop raises exactly when some batch, at a multiple of sixteen, returns more results than texts. */
  lemma OverflowsIff(texts: seq<string>, classify: Classifier)
    ensures Overflows(texts, classify) <==> exists s :: 0 <= s < |texts| && IsBatchStart(s) && Spills(texts, classify, s)
  {
    OverflowsFromAt(texts, classify, 0);
  }

  /**
   * What the second loop keeps from one batch to the next: the results still
   * to come, the accumulators, the batches sent, and whether a later batch
   * spills, all in terms of the texts before `start`.
   */
  ghost predicate Scoring(posts: seq<Post>, sp: Split, classify: Classifier, aligned: seq<Option<Verdict>>,
                          start: nat, acc: Analysis, calls: seq<seq<string>>)
    requires SplitFits(sp, posts)
  {
    && start <= |sp.texts|
    && aligned == Aligned(sp.texts, classify)
    && aligned[start..] == AlignedFrom(sp.texts, classify, start)
    && acc == Progress(posts, sp, aligned, start)
    && calls + BatchesFrom(sp.texts, start) == Batches(sp.texts)
    && Overflows(sp.texts, classify) == OverflowsFrom(sp.texts, classify, start)
  }

  /** A batch handled without error carries the loop's state over to the next batch. */
  lemma ScoringStep(posts: seq<Post>, sp: Split, classify: Classifier, aligned: seq<Option<Verdict>>,
                    start: nat, acc: Analysis, calls: seq<seq<string>>, batch: seq<string>, next: Analysis)
    requires SplitFits(sp, posts) && Scoring(posts, sp, classify, aligned, start, acc, calls)
    requires start < |sp.texts| && batch == Batch(sp.texts, start)
    requires next == Progress(posts, sp, aligned, start + |batch|)
    requires aligned[start + |batch|..] == AlignedFrom(sp.texts, classify, start + |batch|)
    requires OverflowsFrom(sp.texts, classify, start) == OverflowsFrom(sp.texts, classify, start + |batch|)
    requires BatchesFrom(sp.texts, start) == [batch] + BatchesFrom(sp.texts, start + |batch|)
    ensures Scoring(posts, sp, classify, aligned, start + |batch|, next, calls + [batch])
  {
    AppendAssoc(calls, [batch], BatchesFrom(sp.texts, start + |batch|));
  }

  /**
   * The second loop: the texts go to the classifier sixteen at a time and
   * each result is written back to the post it came from. It raises
   * `IndexError` exactly when some batch returns more results than texts;
   * otherwise it yields every text's result and `calls` lists the batches
   * sent, in order.
   */
  method ScoreTexts(posts: seq<Post>, sp: Split, classify: Classifier) returns (r: Result<Analysis>, calls: seq<seq<string>>)
    requires SplitFits(sp, posts)
    ensures r.Err? <==> Overflows(sp.texts, classify)
    ensures r.Err? ==> r.error == IndexError
    ensures r.Ok? ==> r.value == Progress(posts, sp, Aligned(sp.texts, classify), |sp.texts|)
    ensures r.Ok? ==> calls == Batches(sp.texts)
  {
    calls := [];
    ghost var aligned := Aligned(sp.texts, classify);
    var acc := Analysis(sp.unknown, Series([], [], []), []);
    var start := 0;
    while start < |sp.texts|
      invariant Scoring(posts, sp, classify, aligned, start, acc, calls)
      decreases |sp.texts| - start
    {
      var next, batch := ScoreBatch(posts, sp, classify, aligned, start, acc);
      if next.Err? {
        return next, calls;
      }
      ScoringStep(posts, sp, classify, aligned, start, acc, calls, batch, next.value);
      acc := next.value;
      calls := calls + [batch];
      // `range(0, N, 16)`: every batch but the last holds sixteen texts, and after the last the loop ends either way.
      start := start + |batch|;
    }
    return Ok(acc), calls;
  }

  /**
   * The pass as the view runs it: the first loop splits the posts, the
   * second scores the texts. It returns what `Analyse` describes, and on
   * success `calls` lists the batches sent, in order.
   */
  method DetailAll(posts: seq<Post>, classify: Classifier) returns (r: Result<Analysis>, calls: seq<seq<string>>)
    ensures r == Analyse(posts, classify)
    ensures r.Ok? ==> SplitOf(posts).Ok? && calls == Batches(SplitOf(posts).value.texts)
  {
    var split := SplitPosts(posts);
    if split.Err? {
      return Err(split.error), [];
    }
    r, calls := ScoreTexts(posts, split.value, classify);
  }
}

=== FILE: text.dfy ===
/**
 * The handful of Python `str` operations the services rely on: `strip`,
 * `lower`, `capitalize`, `split`, `join`, `in`, `int(...)` and `str(int)`.
 * Strings are sequences of Unicode scalar values, as Python's are.
 */
module Text {
  import opened Results

  /** Python's `str.isspace` for a single character (the full Unicode list). */
  predicate IsSpace(c: char) {
    || ('\t' <= c <= '\r')
    || ('\U{1c}' <= c <= ' ')
    || c == '\U{85}' || c == '\U{a0}' || c == '\U{1680}'
    || ('\U{2000}' <= c <= '\U{200a}')
    || c == '\U{2028}' || c == '\U{2029}' || c == '\U{202f}' || c == '\U{205f}' || c == '\U{3000}'
  }

  /** Number of whitespace characters at the front of `s`: the longest all-space prefix. */
  function LeadingSpaces(s: string): (n: nat)
    ensures n <= |s|
    ensures forall k :: 0 <= k < n ==> IsSpace(s[k])
    ensures n == |s| || !IsSpace(s[n])
  {
    if |s| == 0 || !IsSpace(s[0]) then 0 else 1 + LeadingSpaces(s[1..])
  }

  /** Number of whitespace characters at the back of `s`: the longest all-space suffix. */
  function TrailingSpaces(s: string): (n: nat)
    ensures n <= |s|
    ensures forall k :: |s| - n <= k < |s| ==> IsSpace(s[k])
    ensures n == |s| || !IsSpace(s[|s| - n - 1])
  {
    if |s| == 0 || !IsSpace(s[|s| - 1]) then 0 else 1 + TrailingSpaces(s[..|s| - 1])
  }

  /** Python's `s.strip()`: the slice of `s` left after removing leading and trailing whitespace. */
  function Strip(s: string): (r: string)
    ensures LeadingSpaces(s) + |r| <= |s|
    ensures |r| == 0 || (!IsSpace(r[0]) && !IsSpace(r[|r| - 1]))
    ensures r == s[LeadingSpaces(s)..LeadingSpaces(s) + |r|]
    ensures forall k :: 0 <= k < LeadingSpaces(s) ==> IsSpace(s[k])
    ensures forall k :: LeadingSpaces(s) + |r| <= k < |s| ==> IsSpace(s[k])
    ensures r == "" <==> forall k :: 0 <= k < |s| ==> IsSpace(s[k])
  {
    var t := s[LeadingSpaces(s)..];
    t[..|t| - TrailingSpaces(t)]
  }

  /** A string with no surrounding whitespace is its own strip, so `strip` is idempotent. */
  lemma StripOfStripped(s: string)
    requires |s| == 0 || (!IsSpace(s[0]) && !IsSpace(s[|s| - 1]))
    ensures Strip(s) == s
  {
    if |s| > 0 {
      assert LeadingSpaces(s) == 0;
      assert TrailingSpaces(s) == 0;
    }
  }

  /** Stripping never introduces a character that was not there. */
  lemma StripKeepsAbsence(s: string, c: char)
    ensures c !in s ==> c !in Strip(s)
  {
    var r := Strip(s);
    var a := LeadingSpaces(s);
    if c in r {
      var k :| 0 <= k < |r| && r[k] == c;
      assert s[a + k] == c;
    }
  }

  function LowerChar(c: char): char {
    if 'A' <= c <= 'Z' then (c as int + 32) as char else c
  }

  function UpperChar(c: char): char {
    if 'a' <= c <= 'z' then (c as int - 32) as char else c
  }

  /** Python's `s.lower()` on ASCII letters. */
  function Lower(s: string): (r: string)
    ensures |r| == |s|
  {
    seq(|s|, i requires 0 <= i < |s| => LowerChar(s[i]))
  }

  /** Python's `s.capitalize()` on ASCII letters: first character upper case, the rest lower case. */
  function Capitalize(s: string): (r: string)
    ensures |r| == |s|
  {
    if |s| == 0 then "" else [UpperChar(s[0])] + Lower(s[1..])
  }

  /** The position of the first `c` in `s`, if any. */
  function IndexOf(s: string, c: char): (r: Option<nat>)
    ensures r.None? <==> c !in s
    ensures r.Some? ==> r.value < |s| && s[r.value] == c && c !in s[..r.value]
  {
    if |s| == 0 then None
    else if s[0] == c then Some(0)
    else match IndexOf(s[1..], c)
      case None => None
      case Some(i) =>
        assert s[..i + 1] == [s[0]] + s[1..][..i];
        Some(i + 1)
  }

  /**
   * Python's `s.split(c, 1)` when it yields two parts: the text before the
   * first `c` and the text after it; `None` when `s` has no `c`.
   */
  function SplitOnce(s: string, c: char): (r: Option<(string, string)>)
    ensures r.None? <==> c !in s
    ensures r.Some? ==> s == r.value.0 + [c] + r.value.1 && c !in r.value.0
  {
    match IndexOf(s, c)
    case None => None
    case Some(i) =>
      assert s == s[..i] + [c] + s[i + 1..];
      Some((s[..i], s[i + 1..]))
  }

  /** Splitting at the first separator undoes gluing two parts whose first has no separator. */
  lemma SplitOnceOfGlued(a: string, c: char, b: string)
    requires c !in a
    ensures SplitOnce(a + [c] + b, c) == Some((a, b))
  {
    var s := a + [c] + b;
    assert s[|a|] == c;
    assert s[..|a|] == a;
    assert s[|a| + 1..] == b;
  }

  /** Python's `sep.join(xs)`. */
  function Join(xs: seq<string>, sep: string): string {
    if |xs| == 0 then ""
    else if |xs| == 1 then xs[0]
    else xs[0] + sep + Join(xs[1..], sep)
  }

  /** Python's `s.split(c)`: the maximal pieces between separators; always at least one. */
  function Split(s: string, c: char): (r: seq<string>)
    ensures |r| >= 1
    ensures forall k :: 0 <= k < |r| ==> c !in r[k]
    ensures Join(r, [c]) == s
    decreases |s|
  {
    match SplitOnce(s, c)
    case None => [s]
    case Some((a, b)) =>
      var rest := Split(b, c);
      assert Join([a] + rest, [c]) == a + [c] + Join(rest, [c]) by {
        assert ([a] + rest)[1..] == rest;
      }
      [a] + rest
  }

  /** Splitting a joined list recovers it when no element contains the separator. */
  lemma {:induction false} SplitOfJoin(xs: seq<string>, c: char)
    requires |xs| >= 1
    requires forall k :: 0 <= k < |xs| ==> c !in xs[k]
    ensures Split(Join(xs, [c]), c) == xs
    decreases |xs|
  {
    if |xs| > 1 {
      SplitOfJoin(xs[1..], c);
      SplitOnceOfGlued(xs[0], c, Join(xs[1..], [c]));
      assert Join(xs, [c]) == xs[0] + [c] + Join(xs[1..], [c]);
    }
  }

  predicate IsDigit(c: char) {
    '0' <= c <= '9'
  }

  function DigitValue(c: char): nat
    requires IsDigit(c)
  {
    c as int - '0' as int
  }

  function DigitChar(d: nat): char
    requires d < 10
  {
    ('0' as int + d) as char
  }

  /**
   * The digit part of a Python decimal integer literal: ASCII digits, an
   * underscore allowed only between two digits.
   */
  predicate IsDigitGroup(s: string) {
    && |s| > 0
    && IsDigit(s[0])
    && IsDigit(s[|s| - 1])
    && forall k :: 0 <= k < |s| ==> IsDigit(s[k]) || (s[k] == '_' && k + 1 < |s| && IsDigit(s[k + 1]))
  }

  /** The number a digit group denotes; underscores are ignored. */
  function DigitsValue(s: string): nat {
    if |s| == 0 then 0
    else if IsDigit(s[|s| - 1]) then 10 * DigitsValue(s[..|s| - 1]) + DigitValue(s[|s| - 1])
    else DigitsValue(s[..|s| - 1])
  }

  /**
   * Python's `int(s)` in base 10: surrounding whitespace, an optional sign,
   * then a digit group. `None` is the `ValueError` case.
   */
  function ParseInt(s: string): Option<int> {
    var t := Strip(s);
    if |t| > 0 && (t[0] == '+' || t[0] == '-') then
      if IsDigitGroup(t[1..]) then
        var v: int := DigitsValue(t[1..]);
        Some(if t[0] == '-' then -v else v)
      else None
    else if IsDigitGroup(t) then Some(DigitsValue(t))
    else None
  }

  /** The decimal digits of a natural number, most significant first. */
  function Digits(n: nat): (r: string)
    ensures |r| > 0
    ensures forall k :: 0 <= k < |r| ==> IsDigit(r[k])
  {
    if n < 10 then [DigitChar(n)] else Digits(n / 10) + [DigitChar(n % 10)]
  }

  /** Python's `str(n)` for an integer. */
  function Decimal(n: int): string {
    if n < 0 then "-" + Digits(-n) else Digits(n)
  }

  lemma {:induction false} DigitsValueOfDigits(n: nat)
    ensures DigitsValue(Digits(n)) == n
    decreases n
  {
    if n >= 10 {
      DigitsValueOfDigits(n / 10);
      var d := Digits(n);
      assert d[..|d| - 1] == Digits(n / 10);
    }
  }

  /** The digits of `n` form a digit group denoting `n`. */
  lemma DigitGroupOfDigits(n: nat)
    ensures IsDigitGroup(Digits(n)) && DigitsValue(Digits(n)) == n
  {
    DigitsValueOfDigits(n);
  }

  /** `str(n)` has no surrounding whitespace. */
  lemma DecimalIsStripped(n: int)
    ensures Strip(Decimal(n)) == Decimal(n)
  {
    var s := Decimal(n);
    assert IsDigit(s[|s| - 1]);
    assert s[0] == '-' || IsDigit(s[0]);
    StripOfStripped(s);
  }

  /** `int(str(n)) == n`: the decimal rendering of any integer parses back to it. */
  lemma ParseIntOfDecimal(n: int)
    ensures ParseInt(Decimal(n)) == Some(n)
  {
    var m: nat := if n < 0 then -n else n;
    DigitGroupOfDigits(m);
    DecimalIsStripped(n);
    var t := Decimal(n);
    if n < 0 {
      assert t[0] == '-' && t[1..] == Digits(m);
    } else {
      assert IsDigit(t[0]);
    }
  }
}

=== FILE: writeback.dfy ===
/**
 * The analysis view's write-back: each analysed post's label and score are
 * copied into the document it came from. The partition key is recovered
 * from the post's composite id. One `try` surrounds the whole loop, so the
 * first failure ends it and no later post is written.
 */
module WriteBack {
  import opened Results
  import opened Text
  import opened Json
  import opened Ids
  import opened Cosmos
  import opened Sentiment

  /** The message of a point read that finds no document. */
  const NotFound := "CosmosResourceNotFoundError"

  /**
   * What the write-back leaves behind: the store, the documents replaced,
   * in order, and the failure that ended the loop, if any.
   */
  datatype Outcome = Outcome(store: Store, written: seq<Key>, failure: Option<string>)

  /** The id a post is written under: `post.get('id') or post.get('full_id')`. */
  function PostId(post: Dict): Value {
    Or(Get(post, "id"), Get(post, "full_id"))
  }

  /** What the loop does with one post: skip it, write the document at `key`, or raise. */
  datatype Target = Skip | Write(key: Key) | Raise(error: string)

  /**
   * A falsy id, or one without an underscore, is skipped; a composite
   * string id addresses the document `(strip(prefix), id)`. Testing `in`
   * on a number raises, and so does splitting a list or a dict.
   */
  function TargetOf(post: Dict): (t: Target)
    ensures t.Write? <==> PostId(post).Str? && '_' in PostId(post).s
    ensures t.Write? ==> t.key == Key(WriteBackKey(PostId(post).s).value, PostId(post).s)
    ensures t.Skip? <==> !Truthy(PostId(post)) || Contains(PostId(post), '_') == Ok(false)
  {
    var id := PostId(post);
    if !Truthy(id) then Skip
    else match Contains(id, '_')
      case Err(e) => Raise(e)
      case Ok(has) =>
        if !has then Skip
        else if !id.Str? then Raise("AttributeError: split")
        else Write(Key(WriteBackKey(id.s).value, id.s))
  }

  /**
   * `round(p / 100, 4)` for the score `p` the sentiment pass stored. Python
   * divides numbers and booleans; anything else raises.
   */
  function Confidence(p: Value): (r: Result<Value>)
    ensures p.Int? ==> r == Ok(Float(p.i as real / 100.0))
    ensures r.Ok? <==> p.Int? || p.Bool? || p.Float?
  {
    match p
    case Int(i) => Ok(Float(i as real / 100.0))
    case Bool(b) => Ok(Float(if b then 0.01 else 0.0))
    case Float(x) => Ok(Float(x / 100.0))
    case _ => Err("TypeError: unsupported operand type(s) for /")
  }

  /**
   * The stored document with the post's label as `sentimento` and its
   * score as a fraction in `confiabilidade`; every other field kept.
   */
  function Refresh(item: Dict, post: Dict): (r: Result<Dict>)
    ensures r.Ok? <==> "sentimento" in post && "probabilidade" in post && Confidence(post["probabilidade"]).Ok?
    ensures r.Ok? ==> r.value.Keys == item.Keys + {"sentimento", "confiabilidade"}
    ensures r.Ok? ==> r.value["sentimento"] == post["sentimento"]
    ensures r.Ok? ==> r.value["confiabilidade"] == Confidence(post["probabilidade"]).value
    ensures r.Ok? ==> forall f :: f in item && f != "sentimento" && f != "confiabilidade" ==> r.value[f] == item[f]
  {
    if "sentimento" !in post then Err("KeyError: 'sentimento'")
    else if "probabilidade" !in post then Err("KeyError: 'probabilidade'")
    else match Confidence(post["probabilidade"])
      case Err(e) => Err(e)
      case Ok(c) => Ok(item["sentimento" := post["sentimento"]]["confiabilidade" := c])
  }

  /** One turn of the loop: read the document, refresh it, replace it. */
  function WriteOne(store: Store, post: Dict): (r: Outcome)
    ensures r.failure.None? ==> |r.written| <= 1
    ensures r.failure.Some? ==> r.store == store && r.written == []
    ensures TargetOf(post).Skip? ==> r == Outcome(store, [], None)
  {
    match TargetOf(post)
    case Skip => Outcome(store, [], None)
    case Raise(e) => Outcome(store, [], Some(e))
    case Write(key) =>
      if key !in store then Outcome(store, [], Some(NotFound))
      else match Refresh(store[key], post)
        case Err(e) => Outcome(store, [], Some(e))
        case Ok(item) => Outcome(store[key := item], [key], None)
  }

  /** The loop over the analysed posts, in order, stopping at the first failure. */
  function WriteAll(store: Store, posts: seq<Dict>): (r: Outcome)
    decreases |posts|
  {
    if |posts| == 0 then Outcome(store, [], None)
    else
      var first := WriteOne(store, posts[0]);
      if first.failure.Some? then first
      else
        var rest := WriteAll(first.store, posts[1..]);
        Outcome(rest.store, first.written + rest.written, rest.failure)
  }

  /** Running `posts` after an earlier outcome: nothing more happens once a failure has occurred. */
  function Then(before: Outcome, posts: seq<Dict>): Outcome {
    if before.failure.Some? then before
    else
      var after := WriteAll(before.store, posts);
      Outcome(after.store, before.written + after.written, after.failure)
  }

  /**
   * The loop over `a + b` is the loop over `a` followed by the loop over
   * `b`; in particular, once a post fails, the posts after it are not
   * written at all.
   */
  lemma {:induction false} WriteAllAppend(store: Store, a: seq<Dict>, b: seq<Dict>)
    ensures WriteAll(store, a + b) == Then(WriteAll(store, a), b)
    decreases |a|
  {
    if |a| == 0 {
      assert a + b == b;
    } else {
      assert (a + b)[0] == a[0] && (a + b)[1..] == a[1..] + b;
      var first := WriteOne(store, a[0]);
      if first.failure.None? {
        WriteAllAppend(first.store, a[1..], b);
        var ra := WriteAll(first.store, a[1..]);
        if ra.failure.None? {
          var rb := WriteAll(ra.store, b);
          assert first.written + ra.written + rb.written == first.written + (ra.written + rb.written);
        }
      }
    }
  }

  /** The loop over one post is that post's turn. */
  lemma WriteAllSingle(store: Store, post: Dict)
    ensures WriteAll(store, [post]) == WriteOne(store, post)
  {
    assert [post][1..] == [];
    assert WriteOne(store, post).written + [] == WriteOne(store, post).written;
  }

  /** A failing post ends the loop: whatever follows it, the outcome is the one at the failure. */
  lemma StopsAtFirstFailure(store: Store, done: seq<Dict>, post: Dict, rest: seq<Dict>)
    requires WriteAll(store, done).failure.None?
    requires WriteOne(WriteAll(store, done).store, post).failure.Some?
    ensures WriteAll(store, done + [post] + rest).store == WriteAll(store, done).store
    ensures WriteAll(store, done + [post] + rest).written == WriteAll(store, done).written
    ensures WriteAll(store, done + [post] + rest).failure == WriteOne(WriteAll(store, done).store, post).failure
  {
    WriteAllAppend(store, done + [post], rest);
    WriteAllAppend(store, done, [post]);
    WriteAllSingle(WriteAll(store, done).store, post);
    assert WriteAll(store, done).written + [] == WriteAll(store, done).written;
  }

  /** A post whose id is falsy or has no underscore changes nothing and does not stop the loop. */
  lemma SkippedPostIsInert(store: Store, post: Dict, rest: seq<Dict>)
    requires !Truthy(PostId(post)) || Contains(PostId(post), '_') == Ok(false)
    ensures WriteAll(store, [post] + rest) == WriteAll(store, rest)
  {
    assert ([post] + rest)[0] == post && ([post] + rest)[1..] == rest;
    assert [] + WriteAll(store, rest).written == WriteAll(store, rest).written;
  }

  /**
   * The loop only replaces documents that exist: no document is created,
   * and a document the loop did not write keeps its contents.
   */
  lemma {:induction false} WriteAllFrame(store: Store, posts: seq<Dict>)
    ensures WriteAll(store, posts).store.Keys == store.Keys
    ensures forall k :: k in store && k !in WriteAll(store, posts).written ==> WriteAll(store, posts).store[k] == store[k]
    ensures forall k :: k in WriteAll(store, posts).written ==> k in store
    decreases |posts|
  {
    if |posts| > 0 {
      var first := WriteOne(store, posts[0]);
      if first.failure.None? {
        WriteAllFrame(first.store, posts[1..]);
      }
    }
  }

  /** One turn of the loop keeps every field but the two sentiment fields. */
  lemma WriteOneKeepsFields(store: Store, post: Dict, k: Key, f: string)
    requires k in store && f in store[k] && f != "sentimento" && f != "confiabilidade"
    ensures k in WriteOne(store, post).store && f in WriteOne(store, post).store[k]
    ensures WriteOne(store, post).store[k][f] == store[k][f]
  {
  }

  /** Every field but the two sentiment fields keeps its stored value. */
  lemma {:induction false} WriteAllKeepsFields(store: Store, posts: seq<Dict>)
    ensures forall k, f :: k in store && f in store[k] && f != "sentimento" && f != "confiabilidade" ==>
      k in WriteAll(store, posts).store && f in WriteAll(store, posts).store[k]
      && WriteAll(store, posts).store[k][f] == store[k][f]
    decreases |posts|
  {
    if |posts| > 0 {
      var first := WriteOne(store, posts[0]);
      var after := WriteAll(store, posts).store;
      if first.failure.None? {
        WriteAllKeepsFields(first.store, posts[1..]);
        assert after == WriteAll(first.store, posts[1..]).store;
      } else {
        assert after == first.store;
      }
      forall k, f | k in store && f in store[k] && f != "sentimento" && f != "confiabilidade"
        ensures k in after && f in after[k] && after[k][f] == store[k][f]
      {
        WriteOneKeepsFields(store, posts[0], k, f);
      }
    }
  }

  /** No document loses a field. */
  lemma {:induction false} WriteAllGrows(store: Store, posts: seq<Dict>)
    ensures forall k :: k in store ==> k in WriteAll(store, posts).store && store[k].Keys <= WriteAll(store, posts).store[k].Keys
    decreases |posts|
  {
    WriteAllFrame(store, posts);
    if |posts| > 0 {
      var first := WriteOne(store, posts[0]);
      if first.failure.None? {
        WriteAllGrows(first.store, posts[1..]);
      }
    }
  }

  /** Every document written carries both sentiment fields afterwards. */
  lemma {:induction false} WriteAllAddsFields(store: Store, posts: seq<Dict>)
    ensures forall k :: k in WriteAll(store, posts).written ==>
      k in WriteAll(store, posts).store && "sentimento" in WriteAll(store, posts).store[k]
      && "confiabilidade" in WriteAll(store, posts).store[k]
    decreases |posts|
  {
    WriteAllFrame(store, posts);
    if |posts| > 0 {
      var first := WriteOne(store, posts[0]);
      if first.failure.None? {
        var rest := WriteAll(first.store, posts[1..]);
        WriteAllAddsFields(first.store, posts[1..]);
        WriteAllGrows(first.store, posts[1..]);
        forall k | k in first.written
          ensures "sentimento" in rest.store[k] && "confiabilidade" in rest.store[k]
        {
          assert k in first.store && "sentimento" in first.store[k] && "confiabilidade" in first.store[k];
        }
      }
    }
  }

  /**
   * A post from ingestion, whose id is `{subreddit}_{rawId}` for a
   * subreddit without underscores or surrounding spaces, addresses the
   * document ingestion wrote.
   */
  lemma IngestedPostIsFound(post: Dict, subreddit: string, rawId: string)
    requires '_' !in subreddit && '_' !in rawId && Strip(subreddit) == subreddit
    requires "id" in post && post["id"] == Str(ComposeId(subreddit, rawId))
    ensures TargetOf(post) == Write(Key(subreddit, ComposeId(subreddit, rawId)))
  {
    var id := ComposeId(subreddit, rawId);
    FullIdRoutesToSubreddit(subreddit, rawId);
    assert FullId(subreddit, rawId) == id;
    assert WriteBackKey(id) == Some(subreddit);
    assert PostId(post) == Str(id);
  }

  /**
   * A post the sentiment pass annotated, whose document exists, has that
   * document's label set to the capitalised label and its confidence to the
   * percentage as a fraction.
   */
  lemma AnnotatedPostIsWritten(store: Store, post: Dict, v: Verdict)
    requires TargetOf(post).Write? && TargetOf(post).key in store
    ensures var key := TargetOf(post).key;
      var r := WriteOne(store, Annotate(post, v));
      && r.failure.None? && r.written == [key]
      && r.store[key]["sentimento"] == Str(Capitalize(v.name))
      && r.store[key]["confiabilidade"] == Float(v.percent as real / 100.0)
  {
    assert PostId(Annotate(post, v)) == PostId(post);
  }

  /**
   * The loop as the view runs it: each post's id, partition key, point
   * read, refresh and replacement, with the first exception ending the
   * loop.
   */
  method WriteBackLoop(store0: Store, posts: seq<Dict>) returns (r: Outcome)
    ensures r == WriteAll(store0, posts)
  {
    var store := store0;
    var written: seq<Key> := [];
    var i := 0;
    while i < |posts|
      invariant i <= |posts|
      invariant WriteAll(store0, posts[..i]) == Outcome(store, written, None)
    {
      var post := posts[i];
      ghost var before := store;
      var failure: Option<string> := None;
      var fullId := PostId(post);
      if Truthy(fullId) {
        var has := Contains(fullId, '_');
        if has.Err? {
          failure := Some(has.error);
        } else if has.value {
          if !fullId.Str? {
            failure := Some("AttributeError: split");
          } else {
            var key := Key(WriteBackKey(fullId.s).value, fullId.s);
            if key !in store {
              failure := Some(NotFound);
            } else {
              var item := Refresh(store[key], post);
              if item.Err? {
                failure := Some(item.error);
              } else {
                store := store[key := item.value];
                written := written + [key];
              }
            }
          }
        }
      }
      if failure.Some? {
        StopsAtFirstFailure(store0, posts[..i], post, posts[i + 1..]);
        assert posts[..i] + [post] + posts[i + 1..] == posts;
        return Outcome(store, written, failure);
      }
      WriteAllAppend(store0, posts[..i], [post]);
      WriteAllSingle(before, post);
      assert posts[..i + 1] == posts[..i] + [post];
      i := i + 1;
    }
    assert posts[..i] == posts;
    return Outcome(store, written, None);
  }
}
